=== FILE: README.md ===
# KS Medical backend — a Dafny model of its core

This project models the business core of the KS Medical store backend: an Express service over MongoDB that sells medicines and wellness products. It sells to signed-in customers and to a public storefront, and it runs a three-level referral ("MLM") programme with KYC-gated withdrawals. The model covers the following:

- **Pricing.** The product model's save hook derives the final price, the slug and the default add-on. Checkout prices an order in three different ways:
  - the public order path;
  - the signed-in cart path;
  - the online-payment path.
- **Offers.** Creation, lookup by code within the offer's date window, update and delete.
- **Orders.** The status enumerations, the administrator's status update, the owner's cancel and the tracking step.
- **Carts and wishlists.** Adding, merging, updating and clearing cart lines; the cart views and totals. Adding, removing, toggling and reading the wishlist.
- **Users.** Registration, the profile update, the address book with its single default address, and the bearer-token check in front of protected routes.
- **Referrals.** Account creation with a generated `KS4…` code. The cascade that pays 500, 250 and 100 to the first three ancestors of a new member. The transaction listing.
- **KYC.** Normalising PAN and Aadhaar numbers, one submission per user, and approval or rejection as a final review.
- **Withdrawals.** The gates, the `WD00001`-style reference ids and the save hook. The lifecycle pending → approved → completed, with pending → rejected. Masked account details and the statistics.
- **Shops, categories and blogs.** Unique names and usernames, slugs, the blog read-time estimate, view and like counters, and the listings.

The modelling choices:

- Every handler is a pure function from the stored documents and the request to either the new store or the error response it sends.
- Money is a mathematical integer.
- `Math.round` and `Math.ceil` of a quotient are written out as integer division with the exact rounding rule.
- A collection that the code searches with `findOne` is a sequence, and the first match wins. A collection addressed only by id is a map.
- Things outside the code's control are parameters:
  - the clock;
  - random draws;
  - the HMAC of the payment gateway, the JWT verifier and the bcrypt hash;
  - `JSON.parse`.

## Three pricing paths

An order is priced by three separate pieces of code, and they do not agree with each other:

- **The public `placeOrder`**:
  - ignores add-on prices;
  - applies the cap to flat offers as well as percentage offers;
  - clamps the total at 0;
  - rounds the discount and the total separately;
  - ignores an offer that is outside its window, and does not refuse the order;
  - does not refuse inactive products.
- **The signed-in `placeOrder`**:
  - matches the offer code as sent (trimmed by the schema's setter), without upper-casing it;
  - ignores the start date;
  - refuses the order when the minimum is not met, instead of ignoring the offer;
  - never clamps, so a flat offer worth more than the cart gives a negative total (`CartCheckout.NegativeTotal`).
- **The payment path** never applies an offer. Its order lines leave out the add-on prices that it charged (`Payments.AddOnMakesLinesUndercount`).

Two more behaviours of the code matter for the rest of the model:

- **The referral cascade** stops at the first ancestor that has no account. It checks the level bound on entry (`level > 3`), so it pays at most three levels.
- **Account creation for the referral programme** fails validation as written, so no join succeeds. This is finding 3 below.

## Model

| member | source | states |
|---|---|---|
| Common.RoundDiv | controllers/orderController.js:21 | The result is the integer nearest to n/d, with halves rounded up, as `Math.round` does: 2·d·r ≤ 2n+d < 2·d·r+2d. |
| Common.CeilDiv | models/Blog.js:52 | The result is the least integer at or above n/d: (r−1)·d < n ≤ r·d. |
| Common.RoundDivMonotone | controllers/orderController.js:21 | Rounding a quotient keeps the order of the numerators. |
| Slug.CollapseRuns | models/Product.js:71 | After the run replacement only [a-z0-9-] is left, with no two dashes in a row. It starts with a dash exactly when the input starts with a non-slug character. It keeps every letter and digit, in order. |
| Slug.StripDashes | models/Product.js:72 | A leading and a trailing dash are removed. No double dash appears, and letters and digits are kept. An already clean text is unchanged. |
| Slug.SlugBase | models/Product.js:69-72 | The slug body is well formed: lower-case words separated by single dashes, with none at either end. It keeps exactly the letters and digits of the lower-cased name. |
| Slug.MakeSlug | models/Product.js:68-72 | The slug is the normalised name, a dash, then the decimal clock reading, and nothing else. |
| Slug.AssignSlug | models/Product.js:67-73 | A stored slug is kept. A missing one is derived from a present name. With neither, it stays empty. |
| Slug.SlugBaseIdempotent | models/Category.js:18-22 | Normalising a normalised slug body changes nothing. |
| Catalog.FinalPrice | models/Product.js:83 | The final price is the exact value base·(100−d)/100 rounded half up to a rupee. For a non-negative base it lies between 0 and the base. It equals the base at 0% and is 0 at 100%. |
| Catalog.FinalPriceAntitone | models/Product.js:83 | A larger discount never gives a higher final price. |
| Catalog.SyncPrices | models/Product.js:77-81 | Afterwards price and selling price are equal. A non-zero selling price wins; otherwise the price is copied. |
| Catalog.EnsureDefaultAddOn | models/Product.js:85-92 | The list always holds a default add-on. A list that had one is unchanged; otherwise the "None" add-on is put in front. |
| Catalog.PreSave | models/Product.js:66-95 | After the hook, price equals selling price, the final price follows the discount, and a default add-on exists. The slug is kept or derived. No other field changes. |
| Catalog.PreSaveIdempotent | models/Product.js:66-95 | A second save, at any clock reading, changes nothing the first did not. |
| Catalog.DropEmpty | controllers/productController.js:16 | Exactly the non-empty items are kept, and the list never grows. |
| Catalog.CommaList | controllers/productController.js:12-17 | Every item is non-empty, free of commas and has no white space at either end. The items are exactly the trimmed fields of the text that are not empty. |
| Catalog.DropEmptyFixed | controllers/productController.js:16 | A list with no empty item passes the filter unchanged, in order. |
| Catalog.CommaListRoundTrip | controllers/productController.js:12-17 | Clean items that are comma-joined come back exactly from the comma list. |
| Catalog.Insert | models/Product.js:23-48 | A save succeeds exactly when the schema accepts the name, the selling price and the discount as sent. The stored product is the one the hook produced. |
| Catalog.CreateGate | controllers/productController.js:37-50 | The request passes exactly when name, price and category are truthy and the category exists. Each failure maps to its own error. |
| Catalog.CreateProductAsWritten | controllers/productController.js:64-79 | A request that fails the handler's checks gets that check's error. |
| Catalog.CreateProductAsWrittenAlwaysFails | controllers/productController.js:64-79 | Every request that passes the handler's checks is refused by the schema, because the required selling price was never set. |
| Catalog.CreateProduct | controllers/productController.js:37-79 | With the price also sent as the selling price, a request succeeds exactly when it passes the checks, its trimmed name is non-empty, the price is not negative and the discount is in range. The product holds the trimmed name, its slug, the category, the trimmed sizes and colours, the add-ons with a default, the texts, synchronised prices and the final price. |
| Catalog.CreateProductStored | controllers/productController.js:64-79 | A created product has the stored shape: name, slug, positive selling price equal to the price, derived final price, default add-on. |
| Catalog.UpdateProduct | controllers/productController.js:143-171 | An unknown category is refused. The update succeeds exactly when, in addition, the resulting name is non-empty, the selling price is not negative and the discount is in range; other failures are validation errors. The result is the patched product after the save hook: each supplied field replaces the stored one (name and lists trimmed, a rename giving a new slug), and the prices follow the stored selling price, or the new price when none is stored. |
| Catalog.UpdateProductIntended | controllers/productController.js:143-171 | In the corrected update, a new price is the new selling price and the final price is computed from it. It succeeds exactly when the category is known, the name is non-empty, the resulting selling price is not negative and the discount is in range. Every other supplied field replaces the stored one as in the written update. |
| Catalog.EmptyUpdateChangesNothing | controllers/productController.js:143-171 | Both updates, sent nothing, leave a stored product as it was. |
| Catalog.UpdateKeepsStored | controllers/productController.js:143-171 | Both updates keep a stored product in the stored shape. |
| Catalog.UpdateThenResave | models/Product.js:66-95 | Saving an updated product again with nothing sent changes nothing, for both updates. |
| Catalog.UpdatePriceIsOverwritten | models/Product.js:77-83 | As written, a new price sent for a product that already has a selling price is silently replaced by the old selling price. |
| Category.FindByName | controllers/categoryController.js:10 | The result is the first category with that name, or none when no category has it. |
| Category.Find | controllers/categoryController.js:36-38 | A slug match wins over an id match. The result is none exactly when no category has the key as its slug or its id. |
| Category.Create | controllers/categoryController.js:5-19 | A falsy name is refused, and so is a name already stored in its trimmed form. It succeeds exactly when the trimmed name is non-empty and no category holds that name, the new slug or the new id. Any other failure is a server error. The new category is appended with the trimmed name, the slug of that name, the defaults "", "Pcs" and 0, and is active. |
| Category.CreateThenFind | models/Category.js:16-25 | A category just created is found by its own slug. |
| Category.CreateTwiceRefused | controllers/categoryController.js:10-11 | After a create, a second create whose name trims to the same name is refused as a conflict. |
| Category.Missing | controllers/categoryController.js:36-38 | An unmatched key gets "not found" exactly when it is shaped like an id, and a server error otherwise. |
| Category.JsNumber | controllers/categoryController.js:68 | `Number` of a JSON value: null and false read as 0, true as 1, a number as itself, blank text as 0, and other text is a number exactly when it is a signed decimal after trimming. |
| Category.NumberOfText | controllers/categoryController.js:68 | Any integer sent as its decimal text reads back as that integer. |
| Category.Coercions | controllers/categoryController.js:66-68 | The text "false" is truthy while null and 0 are not; a null rate reads as 0, and the text "abc" is not a number. |
| Category.Update | controllers/categoryController.js:47-76 | A truthy name renames the category, stored trimmed, and regenerates its slug from the name as sent. A sent flag is stored as its truthiness, so the text "false" activates and null or 0 deactivates. A sent rate is stored as its `Number` reading, so null is 0. It succeeds exactly when the category is found, the resulting name is non-empty, a sent rate is a number, and no other category holds that name, the resulting slug or the id. Every failure after the lookup is a server error. Other categories are untouched. |
| Category.AssignSlugOf | models/Category.js:17-23 | The save hook leaves a category that already has a slug as it was. |
| Category.EmptyPatchChangesNothing | controllers/categoryController.js:65-68 | An update with nothing in it leaves the store unchanged. |
| Category.Delete | controllers/categoryController.js:78-101 | An unknown key is refused, and so is a category some product refers to. It succeeds exactly when the category is found and unused, and then exactly that entry is removed. |
| Category.DeleteKeepsReferences | controllers/categoryController.js:86-93 | If every product's category exists before a delete, it still exists after. |
| Category.ListActive | controllers/categoryController.js:21-31 | The listing holds exactly the active categories. |
| Blogs.StripTags | models/Blog.js:51 | Stripping never lengthens the text. A text without "<" is unchanged. |
| Blogs.StripTagsKeepsChars | models/Blog.js:51 | Every character left comes from the input. |
| Blogs.StripTagsLeavesNoTag | models/Blog.js:51 | No "<" is followed later by a ">" in what is left. |
| Blogs.WordCount | models/Blog.js:51 | The count is at least one. |
| Blogs.WordsCounted | models/Blog.js:51 | Words joined by single spaces are counted exactly. |
| Blogs.ReadTime | models/Blog.js:49-54 | The label is ceil(words/200) followed by " min read". |
| Blogs.ReadTimeOfWords | models/Blog.js:50-53 | n plain words joined by spaces read in ceil(n/200) minutes. |
| Blogs.PreSave | models/Blog.js:40-62 | The hook fills in a missing slug from the title and a missing read time from the content. It stamps the publication time of a newly published post. No other field changes. |
| Blogs.PreSaveIdempotent | models/Blog.js:40-62 | A second save, at any time, changes nothing. |
| Blogs.SplitTrim | controllers/blogController.js:40 | There is one trimmed piece per comma-separated field, and empty pieces are kept. |
| Text.TrimAll | models/Blog.js:14 | Each item is trimmed and the count stays the same. |
| Blogs.SplitTrimRoundTrip | controllers/blogController.js:104 | Trimmed, comma-free items that are comma-joined come back exactly. |
| Blogs.ListInput | controllers/blogController.js:40 | An array is kept as sent, text is split and trimmed, and a falsy value gives no items. |
| Blogs.Create | controllers/blogController.js:8-55 | Title and content are required, then the signed-in administrator must exist. It succeeds exactly when, in addition, the trimmed title, the author's name and id are non-empty, the two descriptions are within their limits, and no post holds the new id or slug. Other failures are server errors. The post is appended with that administrator as author, the defaults for absent fields, and the save hook applied. |
| Blogs.FindAsWritten | controllers/blogController.js:96-98 | A key that cannot be cast to an id is a server error. An id-shaped key finds the first post matching by id or slug. |
| Blogs.SlugLookupAlwaysFails | controllers/blogController.js:197-200 | As written, every generated slug is answered with a server error. |
| Blogs.Find | controllers/blogController.js:96-98 | The corrected lookup finds the first match by id or slug, and agrees with the written one on every id-shaped key. |
| Blogs.FindLocatesSlug | controllers/blogController.js:257-260 | With the corrected lookup and distinct slugs, a post is found by its slug, and for the public reads too when it is published. |
| Blogs.PatchList | controllers/blogController.js:103-108 | An absent list keeps the stored one. Text is split and trimmed. An array is taken as sent. |
| Blogs.Update | controllers/blogController.js:91-118 | With the corrected lookup, an unknown key is "not found". It succeeds exactly when the edited post meets the schema and its slug and id are held by no other post; otherwise it is a server error. Only the found post changes: the supplied fields, then the save hook. A stored slug, reading time and publication date are kept. |
| Blogs.View | controllers/blogController.js:193-213 | With the corrected lookup, only a published post is found. Its views rise by exactly one and nothing else in the store changes. |
| Blogs.Like | controllers/blogController.js:253-272 | With the corrected lookup, only a published post is found. Its likes rise by exactly one and nothing else in the store changes. |
| Blogs.DraftsNotCounted | controllers/blogController.js:197-200 | A draft can be neither viewed nor liked. |
| Blogs.Delete | controllers/blogController.js:121-136 | With the corrected lookup, exactly the post found is removed. An unknown key is an error. |
| Blogs.UpdateAsWritten | controllers/blogController.js:91-118 | As written, a key not shaped like an id is a server error. On an id-shaped key it agrees with the corrected update. |
| Blogs.ViewAsWritten | controllers/blogController.js:193-213 | As written, a key not shaped like an id is a server error. On an id-shaped key it agrees with the corrected view. |
| Blogs.LikeAsWritten | controllers/blogController.js:253-272 | As written, a key not shaped like an id is a server error. On an id-shaped key it agrees with the corrected like. |
| Blogs.DeleteAsWritten | controllers/blogController.js:121-136 | As written, a key not shaped like an id is a server error. On an id-shaped key it agrees with the corrected delete. |
| Blogs.SlugHandlersAlwaysFail | controllers/blogController.js:96-98 | As written, a post cannot be viewed, liked, edited or deleted through its generated slug. |
| Blogs.PageCount | controllers/blogController.js:81 | The page count is ceil(total/limit). A zero limit gives no finite count. |
| Blogs.PagesCoverAll | controllers/blogController.js:183 | Every item lies on a page no later than the last. |
| Blogs.CountListed | controllers/blogController.js:62-73 | The filtered count never exceeds the number of posts. |
| Blogs.ListedPartition | controllers/blogController.js:63-64 | The published and draft counts add up to the unfiltered count. |
| Carts.TotalQuantityAtLeastLength | models/Cart.js:23-26 | Lines with valid quantities add up to at least the number of lines. |
| Carts.Saved | models/Cart.js:23-26 | The save hook recounts the item total from the lines and changes nothing else. |
| Carts.FindVariant | controllers/cartController.js:54-59 | The result is the first line with the same product, size and add-on, or none when there is no such line. |
| Carts.MergeLine | controllers/cartController.js:53-65 | The item count rises by the added quantity. Variants stay unique. A known variant grows in place; a new one is appended. |
| Carts.RequestLine | controllers/cartController.js:37 | An absent quantity is 1, an absent add-on is "None" at price 0. |
| Carts.AddToCart | controllers/cartController.js:35-75 | The request succeeds exactly when the product exists and is active. Only the user's cart changes: the line is merged and the item count is recomputed; the stored amount is not touched. |
| Carts.UpdateCartItemAsWritten | controllers/cartController.js:78-102 | A non-positive quantity or a missing cart is refused. Every remaining request answers "item not found". |
| Carts.UpdateCartItemAlwaysMisses | controllers/cartController.js:90-91 | As written, no update ever succeeds, even for a line that is in the cart. |
| Carts.UpdateCartItem | controllers/cartController.js:83-94 | In the corrected update, the addressed line gets the new quantity. The count moves by exactly the difference, and other users' carts are untouched. |
| Carts.ClearCart | controllers/cartController.js:124-139 | A missing cart is an error. Otherwise the cart is left with no lines and zero totals, and other carts are unchanged. |
| Carts.ClearIdempotent | controllers/cartController.js:129-132 | Clearing a cleared cart changes nothing. |
| Carts.Present | controllers/cartController.js:16-22 | Exactly the lines whose product still exists are kept, in order. |
| Carts.Available | controllers/cartController.js:151-157 | Exactly the lines whose product exists and is active are kept, in order. |
| Carts.GetCart | controllers/cartController.js:6-32 | The shown cart drops lines whose product is gone. Its totals are recomputed from current prices, and it is what gets stored. |
| Carts.GetCartStable | controllers/cartController.js:16-25 | Reading the cart twice shows the same cart. |
| Carts.GetCartTotal | controllers/cartController.js:142-168 | A missing or empty cart is refused. The total covers exactly the available lines at current prices. |
| Carts.GetCartAgreesWithTotal | controllers/cartController.js:150-161 | When every product is present and active, the cart view and the total agree on both amount and count. |
| Wishlists.Pull | controllers/wishlistController.js:65 | The id is gone and every other member is kept, so a list without duplicates stays without them. |
| Wishlists.Add | controllers/wishlistController.js:26-55 | An empty id is refused, and so is an inactive or unknown product. It succeeds exactly when the id is non-empty and names an active product; the list is then the old one plus the id, with no duplicate added. |
| Wishlists.AddIdempotent | controllers/wishlistController.js:44-47 | Adding twice is adding once. |
| Wishlists.Remove | controllers/wishlistController.js:58-74 | A user without a list gets "not found". Otherwise the id is gone and every other member is kept. |
| Wishlists.AddThenRemove | controllers/wishlistController.js:65 | Removing an id just added restores the user's list. |
| Wishlists.PullLast | controllers/wishlistController.js:65 | Pulling an appended fresh id gives back the original list. |
| Wishlists.Toggle | controllers/wishlistController.js:77-112 | A present id is removed whatever the product's state. An absent one is added only when the product is active. |
| Wishlists.ToggleTwice | controllers/wishlistController.js:90-107 | Toggling an active product twice restores the list's members. |
| Wishlists.KeepActive | controllers/wishlistController.js:15 | Exactly the active products are kept, with no duplicates introduced. |
| Wishlists.Read | controllers/wishlistController.js:6-23 | The list shown holds exactly the user's active products, and it is what gets stored. |
| Wishlists.KeepActiveIdempotent | controllers/wishlistController.js:15-16 | Filtering twice is filtering once. |
| Wishlists.ReadIdempotent | controllers/wishlistController.js:15-16 | Reading twice stores and shows what reading once did. |
| Wishlists.OperationsKeepDistinct | controllers/wishlistController.js:44-47 | Add, remove, toggle and read all keep every list free of duplicates. |
| UserAuth.ExtractToken | middleware/userAuth.js:7-8 | A token is found exactly when the header starts with "Bearer ", and the prefix plus the token is the header. |
| UserAuth.ExtractRoundTrip | middleware/userAuth.js:8 | A token sent with the prefix comes back unchanged. |
| UserAuth.LowerCaseSchemeRefused | middleware/userAuth.js:8 | A "bearer " header yields no token. |
| UserAuth.Authenticate | middleware/userAuth.js:5-37 | A missing or empty token is refused first. A success requires a verified token naming an active user whose email is the claimed email lower-cased, and the current token version. "User not found" means exactly that the claims match no active user. |
| UserAuth.LoginTokenAccepted | controllers/userController.js:10-14 | A token carrying an active user's login claims admits that user. |
| UserAuth.RegisteredUserAccepted | controllers/userController.js:43-53 | A user just registered, in any letter case of the email, is admitted by a token with their login claims. |
| UserAuth.VersionBumpRevokes | middleware/userAuth.js:24-26 | After the token version is bumped, an older token is refused as expired. |
| UserAuth.InactiveUserRefused | middleware/userAuth.js:13-21 | A deactivated user is never admitted. |
| Shops.FindByUsername | controllers/shopController.js:27 | The result is the first shop with that username, or none when no shop has it. |
| Shops.Create | controllers/shopController.js:4-53 | The nine required fields must be truthy and the username free, and it succeeds exactly when both hold. The shop is stored active with the fields as sent, and usernames stay unique. |
| Shops.InfoOf | controllers/shopController.js:128 | The returned information keeps the shop's id, username and status. |
| Shops.InfoHidesPassword | controllers/shopController.js:127-128 | The information does not depend on the password. |
| Shops.Login | controllers/shopController.js:103-140 | Both credentials are required. An unknown username and a wrong password give the same answer. Only a correct password learns that the shop is inactive. It succeeds exactly when the password matches an active shop, and returns the shop without its password and the token. |
| Shops.CreateThenLogin | controllers/shopController.js:22-133 | A complete request with a free username creates a shop, and that shop then signs in with its credentials. |
| Shops.InactiveNotRevealed | controllers/shopController.js:113-125 | With a wrong password, an inactive shop gets the same answer as an unknown one. |
| Offers.ParseDiscountType | models/Offer.js:10-14 | Exactly "percentage" and "flat" are accepted, and each parses back to its name. |
| Offers.DiscountTypeRoundTrip | models/Offer.js:12 | Naming a discount type and parsing the name gives it back. |
| Offers.FindActive | controllers/offerController.js:61 | The result is an active offer with exactly that code, or none when there is no such offer. |
| Offers.StoredCode | controllers/offerController.js:28 | A stored code has no lower-case letter and no surrounding white space. |
| Offers.CreateOffer | controllers/offerController.js:4-44 | The errors come in the handler's order: missing fields, then a stored code equal to the trimmed code (409), then the schema (an unknown discount type, or a code that trims to nothing), then a stored code equal to the stored form (the unique index). The offer is created exactly when none applies. It stores the upper-cased, trimmed code, which is never empty, and unique codes stay unique. |
| Offers.AppendFreshCode | models/Offer.js:6 | Adding an offer whose code no stored offer has keeps the codes unique, as the unique index requires. |
| Offers.LowerCaseDuplicateSlipsPastCheck | controllers/offerController.js:24-28 | "ab" passes the duplicate check against a stored "AB", and is then refused by the unique index. |
| Offers.BlankCodeRefused | controllers/offerController.js:18-37 | A code of spaces only passes the `!code` check and finds no match among non-blank codes, but the schema trims it to "" and the create fails. |
| Offers.GetOfferByCode | controllers/offerController.js:56-74 | The code is upper-cased and trimmed before the lookup. An unknown code is "not found"; a found offer that starts after now is "not started"; one that has started but ended before now is "expired". Otherwise the found offer is returned. |
| Offers.UpdateOffer | controllers/offerController.js:76-113 | An unknown id gets 404 and an unknown type fails the save; otherwise only the addressed offer changes: its title and type when truthy, its description, numbers and flag when supplied, and its dates when sent. The code is kept, and codes stay unique. |
| Offers.EmptyUpdateChangesNothing | controllers/offerController.js:94-107 | An update that sends no field leaves every offer as it was. |
| Offers.UpdateIdempotent | controllers/offerController.js:76-113 | Applying the same update twice gives the result of applying it once. |
| Offers.DeleteOffer | controllers/offerController.js:115-127 | Exactly the addressed offer is removed. An unknown id is an error. |
| Orders.ParseStatus | models/Order.js:43-47 | Exactly the five status names are accepted, each parsing to its status. |
| Orders.StatusRoundTrip | models/Order.js:45 | Naming a status and parsing the name gives it back. |
| Orders.ParsePaymentStatus | models/Order.js:48-52 | Exactly the three payment status names are accepted. |
| Orders.Stored | models/Order.js:17-29 | The order's address keeps every field sent and gets the country "India" exactly when none was sent. Storing does not change whether the required fields are present. |
| Orders.PaymentStatusRoundTrip | models/Order.js:50 | Naming a payment status and parsing the name gives it back. |
| Orders.LinesTotalAppend | models/Order.js:8-9 | The lines total distributes over concatenation. |
| Orders.LinesTotalNonNegative | models/Order.js:8-9 | Lines with valid quantities and non-negative prices total at least 0. |
| Orders.UpdateOrderStatus | controllers/orderController.js:133-150 | An unknown order is refused. Otherwise only that order's supplied statuses change. |
| Orders.CancelledCanBeReopened | controllers/orderController.js:141 | An administrator can set a cancelled order back to pending. |
| Orders.CancelOrder | controllers/userOrderController.js:173-196 | Someone else's order is "not found". Only a pending order of the owner is cancelled, and nothing else changes. |
| Orders.CancelNotRepeatable | controllers/userOrderController.js:184-188 | A second cancel is refused. |
| Orders.TrackingStep | controllers/userOrderController.js:210-216 | The step is at most 4, and 0 exactly for a cancelled order. |
| Orders.TrackingAdvances | controllers/userOrderController.js:210-214 | Each step of fulfilment advances the tracker by exactly one. |
| Orders.TrackingStepInjective | controllers/userOrderController.js:210-216 | The step identifies the status. |
| PublicCheckout.Discount100 | controllers/orderController.js:12-19 | The capped discount is at most the raw one, and at most a non-zero cap. |
| PublicCheckout.ApplyOffer | controllers/orderController.js:6-22 | An ineligible or missing offer gives no discount. An eligible one gives a total that is never negative, and a discount within any cap. |
| PublicCheckout.NoOfferNoDiscount | controllers/orderController.js:7 | With no offer the total is the subtotal. |
| PublicCheckout.MinimumRule | controllers/orderController.js:8-10 | A zero minimum always qualifies. A subtotal under a positive minimum gets no discount. |
| PublicCheckout.DiscountKinds | controllers/orderController.js:12-21 | An uncapped percentage gives the rounded share of the subtotal. A flat offer within its cap gives its value. |
| PublicCheckout.TotalMonotone | controllers/orderController.js:20-21 | Over qualifying subtotals, a larger subtotal never pays less. |
| PublicCheckout.RemainderMonotone | controllers/orderController.js:12-20 | What is left to pay grows with the subtotal. |
| PublicCheckout.SeparateRoundingExample | controllers/orderController.js:21 | 50% of 1 gives a discount of 1 and a total of 1, because each is rounded on its own. |
| PublicCheckout.CappedPercentageExample | controllers/orderController.js:17-21 | 20% of 10000 capped at 500 gives 500 off and 9500 to pay. |
| PublicCheckout.FlatClampExample | controllers/orderController.js:20 | A flat 150 off a subtotal of 100 leaves 0 to pay. |
| PublicCheckout.Qty | controllers/orderController.js:54 | An absent or zero quantity counts as 1. |
| PublicCheckout.BuildLines | controllers/orderController.js:45-67 | The lines are built exactly when every product exists. There is one line per item, at the product's final price, without the add-on. |
| PublicCheckout.WindowedOffer | controllers/orderController.js:69-81 | An offer is used only for a truthy code. It is active, holds the upper-cased, trimmed code and is within its window. |
| PublicCheckout.WindowAgreesWithLookup | controllers/orderController.js:69-81 | The public path uses an offer exactly when the administrator's lookup by that code succeeds, and it is the same offer. |
| PublicCheckout.PlacePublicOrder | controllers/orderController.js:25-101 | Each refusal is stated in the code's order: user and items, then the shipping name and phone, then an unknown product, then the schema. A request passing them all is placed. The order's subtotal, discount and total come from its lines and the windowed offer. |
| PublicCheckout.NotStartedOfferIgnored | controllers/orderController.js:74-80 | A request that passes the checks is placed even when its offer has not started; that offer is ignored, so the discount is 0 and the total is the subtotal. |
| CartCheckout.CartLines | controllers/userOrderController.js:34-52 | There is one line per cart line, priced with the add-on. |
| CartCheckout.CartLinesTotal | controllers/userOrderController.js:34-52 | The order's lines add up to the cart's amount. |
| CartCheckout.CartOffer | controllers/userOrderController.js:57-68 | The result is an offer with the exact code that is active and not past its end date, or none when there is no such offer. |
| CartCheckout.CartDiscount | controllers/userOrderController.js:80-87 | A percentage gives the rounded share within the cap. A flat offer gives its full value. |
| CartCheckout.ShippingOf | controllers/userOrderController.js:101 | The saved address's name, phone, both address lines, city, state, pincode and country are copied, there is no email, and the schema's country default has nothing left to fill. The copy meets the order's address schema exactly when the six required fields are non-empty, so a valid saved address gives a valid delivery address. |
| CartCheckout.OfferDiscount | controllers/userOrderController.js:55-88 | No code gives no discount. The code is looked up trimmed but not upper-cased. An unknown code and an unmet minimum are errors. |
| CartCheckout.PlaceCartOrder | controllers/userOrderController.js:9-120 | Each refusal is stated in the order the code runs the checks: address id, user, address, cart, products, offer, then the schema. A request passing them all succeeds. The order copies the cart's lines and the saved address, its total is the subtotal less the discount, and the cart is emptied. |
| CartCheckout.NotStartedOfferAccepted | controllers/userOrderController.js:60-67 | An offer whose start date is ahead is applied all the same. |
| CartCheckout.NegativeTotal | controllers/userOrderController.js:85-90 | A flat offer worth more than the cart gives a negative total. |
| CartCheckout.NoCodeFullPrice | controllers/userOrderController.js:55-90 | Without a code the discount is 0 and the total is the cart's amount. |
| Payments.CreatePaymentOrder | controllers/paymentController.js:14-39 | A falsy amount is refused. The gateway is asked for 100× the amount in paise, in the currency sent or INR, with the receipt sent or a generated one. |
| Payments.SignatureMessageInjective | controllers/paymentController.js:54 | When the order id has no "\|", the signed message determines both ids. |
| Payments.SignatureMessageAmbiguous | controllers/paymentController.js:54 | Without that restriction, two different pairs share one message. |
| Payments.PaymentLines | controllers/paymentController.js:75-87 | There is one line per cart line, priced at the final price without the add-on. |
| Payments.PaymentLinesShortfall | controllers/paymentController.js:76-81 | The recorded lines fall short of the cart's amount by exactly the add-ons. |
| Payments.VerifyPayment | controllers/paymentController.js:42-123 | A signature mismatch is refused first, then an empty cart. The order is recorded as paid and confirmed, no offer is applied, and the cart is emptied. |
| Payments.AddOnMakesLinesUndercount | controllers/paymentController.js:76-94 | With a paid add-on, the recorded lines add up to less than the order's total. |
| CheckoutCompare.PublicLinesArePaymentLines | controllers/orderController.js:45-67 | The public path prices a cart's lines exactly as the payment path does. |
| CheckoutCompare.PublicSubtotalOmitsAddOns | controllers/orderController.js:55-56 | The public subtotal is the cart's amount less its add-ons. |
| CheckoutCompare.CartAndPaymentAgreeWithoutOffer | controllers/userOrderController.js:34-90 | Without an offer, the signed-in path and the payment path charge the same total. |
| CheckoutCompare.PercentageDiscountsAgree | controllers/userOrderController.js:80-84 | A percentage offer gives the same discount on the public and the signed-in paths. |
| CheckoutCompare.FlatCapDiffers | controllers/orderController.js:14-19 | Above its cap, a flat offer gives the cap on the public path and the full value on the signed-in path. |
| CheckoutCompare.ClampDiffers | controllers/userOrderController.js:85-90 | A flat offer larger than the subtotal gives 0 on the public path and a negative amount on the signed-in path. |
| CheckoutCompare.MinimumDiffers | controllers/userOrderController.js:74-78 | Under the minimum, the public path ignores the offer while the signed-in path refuses the order. |
| CheckoutCompare.StartDateDiffers | controllers/userOrderController.js:60-67 | An offer not yet started is rejected by the public path and accepted by the signed-in path. |
| CheckoutCompare.CodeCaseDiffers | controllers/orderController.js:72 | A lower-case code finds the offer on the public path but not on the signed-in path. |
| Users.FindAddress | controllers/userController.js:217 | The result is the first address with that id, or none when no address has it. |
| Users.ClearDefaults | controllers/userController.js:185 | Every default flag is off and nothing else changes. |
| Users.Register | controllers/userController.js:18-72 | Missing fields are refused first, then a password under 6 characters. A taken email, compared lower-cased, is refused before a taken phone. Registration succeeds exactly when all checks pass, both trimmed names are non-empty and any gender is in the enumeration. The user is stored active, with the trimmed names, the lower-cased email, the gender, the hash of the password, the default preferences, no addresses and token version 0. |
| Users.RegisterKeepsUnique | controllers/userController.js:31-40 | Registration keeps emails unique and phones unique across users. |
| Users.RegisterTwiceRefused | controllers/userController.js:31-34 | Registering the same request again is refused as a taken email. |
| Users.CastFlag | models/User.js:21-22 | A boolean is kept; "true", "1" and "yes" read as true and "false", "0" and "no" as false; any other text does not cast. |
| Users.CastSetting | models/User.js:23 | A text is kept; a boolean becomes "true" or "false". |
| Users.MergePreferences | controllers/userController.js:149 | Each declared key that is sent replaces the stored value after the cast, and an undeclared key is dropped. The merge fails exactly when a sent flag does not cast. |
| Users.UnknownPreferenceIgnored | models/User.js:20-24 | Sending a key the schema does not declare makes no difference. |
| Users.MergeNothing | controllers/userController.js:149 | Merging nothing keeps the stored preferences. |
| Users.UpdateProfile | controllers/userController.js:129-157 | An unknown user is refused, then a phone used by someone else. It succeeds exactly when the names stay non-empty after trimming, the gender stays in the enumeration and the sent preferences cast. Truthy names (trimmed), phone and gender replace the stored ones and the preferences are merged. Every other field of that user, and every other user, stays the same. |
| Users.UpdateProfileKeepsPhonesUnique | controllers/userController.js:136-148 | A profile update keeps phones unique. |
| Users.EmptyProfilePatchChangesNothing | controllers/userController.js:134-155 | An update that sends nothing leaves the users as they were. |
| Users.AddedAddresses | controllers/userController.js:184-198 | The new entry is appended last with the given fields, type "home" by default, and the cast default flag. A truthy sent flag clears every other default, and otherwise the old entries are unchanged. At most one default and unique ids are kept. |
| Users.AddAddress | controllers/userController.js:173-206 | Missing required fields are refused before the user is looked up, and an unknown user is refused. A schema-breaking entry, or a default flag the Boolean cast rejects, is refused. Otherwise the user's list becomes the added list. It succeeds exactly when the fields are present, the user exists, any sent address type is in the enumeration, and the flag casts. |
| Users.AddedAddressFound | controllers/userController.js:187-199 | A new address under a fresh id is found by that id, last in the list. |
| Users.Assign | controllers/userController.js:224 | Each of the nine supplied text fields replaces the stored one, and the default flag takes its cast value. An absent field keeps the stored one, and the id is kept. |
| Users.UpdatedAddresses | controllers/userController.js:220-224 | Only the addressed entry takes the supplied fields. A truthy sent flag clears every other default, and the entry is default exactly when the flag casts to true. Otherwise the other entries are unchanged. At most one default and unique ids are kept. |
| Users.UpdateAddress | controllers/userController.js:209-232 | An unknown user or address is refused. A schema-breaking edit, or a default flag the Boolean cast rejects, is refused. Otherwise the user's list becomes the updated list. It succeeds exactly when the user and address exist, the edited address meets the schema, and the flag casts. |
| Users.FalseTextClearsEveryDefault | controllers/userController.js:220-224 | The text "false" is truthy, so it clears every default, and then it casts to false: no address is left as default. |
| Users.UpdatedAddressFound | controllers/userController.js:217-224 | An edited address is still found by its id at the same position. |
| Users.Without | controllers/userController.js:242 | Exactly the addresses with another id are kept. |
| Users.WithoutKeepsSingleDefault | controllers/userController.js:242 | Dropping addresses never creates a second default. |
| Users.DeleteAddress | controllers/userController.js:235-250 | The addressed entry goes and the rest is kept. |
| Referrals.ParseTxType | models/MLMTransaction.js:13-17 | Exactly the type names are accepted. |
| Referrals.TxTypeRoundTrip | models/MLMTransaction.js:15 | Naming a transaction type and parsing the name gives it back. |
| Referrals.ParseTxStatus | models/MLMTransaction.js:46-50 | Exactly the status names are accepted. |
| Referrals.TxStatusRoundTrip | models/MLMTransaction.js:48 | Naming a transaction status and parsing the name gives it back. |
| Referrals.LevelBonus | controllers/mlmController.js:155-211 | The bonuses are 500, 250 and 100 for levels 1, 2 and 3. |
| Referrals.LevelBonusDecreasing | controllers/mlmController.js:210 | The bonus falls strictly with the level. |
| Referrals.LevelTx | controllers/mlmController.js:214-222 | The entry is valid and completed, for the referrer and about the new user, with the level's bonus. It is a referral bonus at level 1 and a commission above. |
| Referrals.Credit | controllers/mlmController.js:195-228 | The account gains one referral entry, one total and active referral, one more referral at exactly that level, and the bonus in total, available and monthly earnings. Its identity, rates and pending balance are unchanged. |
| Referrals.NewAccountBalanced | models/MLM.js:22-109 | A fresh account is balanced and carries the default rates 10, 5 and 2. |
| Referrals.CreditBalanced | controllers/mlmController.js:203-207 | A credit keeps an account's counters and balances in agreement with its referral list. |
| Referrals.IndexOfUser | controllers/mlmController.js:191 | The result is the first account of the user, or none when the user has no account. |
| Referrals.IndexOfCode | controllers/mlmController.js:128 | The result is an account holding exactly the given code, or none when no account holds it. |
| Referrals.GenerateCode | models/MLM.js:121-141 | The code is the first drawn "KS4" code that no account holds, made of "KS4" and six characters from A-Z0-9. |
| Referrals.Cascade | controllers/mlmController.js:188-234 | The walk writes at most one entry per level up to 3, after the existing ledger, and changes no account's identity. |
| Referrals.CreateAccount | controllers/mlmController.js:135-138 | The corrected creation succeeds exactly for a new, non-empty user. It appends a fresh account with a generated unused code, and the store stays well formed. |
| Referrals.CreateAccountAsWritten | models/MLM.js:14-19 | As the schema is written, a missing code fails validation. |
| Referrals.AddReferralAsWritten | controllers/mlmController.js:123-185 | A code whose upper-case form no account holds is refused. |
| Referrals.AddReferralAsWrittenAlwaysFails | controllers/mlmController.js:135-138 | As written, no join succeeds, and a valid code ends in a validation error. |
| Referrals.Join | controllers/mlmController.js:140-175 | The join writes one to three entries, the first being the owner's level-1 bonus, and no identity changes. |
| Referrals.AddReferral | controllers/mlmController.js:123-185 | The join succeeds exactly when the upper-cased code is held and the user is new and non-empty. It creates the account referred by the code's owner and credits the chain above. |
| Referrals.AddReferralShape | controllers/mlmController.js:135-179 | A successful join leaves one more account, the joiner's, and one to three more entries. |
| Referrals.VerifyReferralCode | controllers/mlmController.js:319 | A code verifies exactly when its upper-case form is held. |
| Referrals.VerifyThenAddAgree | controllers/mlmController.js:128 | For a new user, a code verifies exactly when the join accepts it, whatever its letter case. |
| Referrals.Newest | controllers/mlmController.js:260 | The listing order reverses the ledger. |
| Referrals.FilterListed | controllers/mlmController.js:254-257 | Exactly the user's entries of the requested type are kept. |
| Referrals.ListTransactions | controllers/mlmController.js:239-263 | A malformed user id gets 400 and an unknown user 404; otherwise the listing is the user's newest matching entries, up to the limit, which defaults to 50. |
| Referrals.ListAllTypes | controllers/mlmController.js:255 | "all" or no type lists every entry of the user. |
| ReferralProps.Chain | controllers/mlmController.js:188-234 | The walk visits at most 3 levels, one account per level, counting up from the start level. |
| ReferralProps.ChainLinks | controllers/mlmController.js:189-233 | The walk starts at the account holding the start id and is empty exactly when no account holds it. Each step's account names the next step's account as its referrer. |
| ReferralProps.ApplyPath | controllers/mlmController.js:195-228 | Crediting a path changes no account's identity. |
| ReferralProps.CascadeIsPathFold | controllers/mlmController.js:188-234 | The cascade equals crediting its chain in order. |
| ReferralProps.JoinPath | controllers/mlmController.js:140-175 | The path has one to three steps: the owner at level 1, and each next step one level up. |
| ReferralProps.JoinIsPathFold | controllers/mlmController.js:140-175 | A join equals crediting its path. |
| ReferralProps.ApplyPathLedger | controllers/mlmController.js:214-222 | One entry per step is written, in order, each naming the joiner. |
| ReferralProps.ApplyPathAccount | controllers/mlmController.js:195-228 | Each account gains exactly its own steps' referrals and bonuses. |
| ReferralProps.ApplyPathBalanced | controllers/mlmController.js:203-207 | Crediting a path keeps every account balanced. |
| ReferralProps.JoinPayout | controllers/mlmController.js:155-211 | A join pays out 500, 750 or 850 in total. |
| ReferralProps.AddReferralFold | controllers/mlmController.js:123-185 | A successful join is its path credited through the store that includes the joiner. |
| ReferralProps.AddReferralLedger | controllers/mlmController.js:154-222 | A join writes exactly one entry per path step. |
| ReferralProps.AddReferralEarnings | controllers/mlmController.js:166-228 | Each account gains exactly its steps' bonuses, and the joiner's account is fresh. |
| ReferralProps.AddReferralBalanced | controllers/mlmController.js:141-207 | A join keeps every account balanced. |
| ReferralProps.ThreeLinkPath | controllers/mlmController.js:189 | Over three links, the path stops at level 3. |
| ReferralProps.FourDeepChain | controllers/mlmController.js:173-234 | A join through a four-deep chain pays 500, 250 and 100, and nothing to the fourth account. |
| Kyc.ParseStatus | models/KYC.js:71-75 | Exactly the three status names are accepted. |
| Kyc.StatusRoundTrip | models/KYC.js:73 | Naming a KYC status and parsing the name gives it back. |
| Kyc.NormalisePan | controllers/kycController.js:28-31 | The stored PAN is upper-case, of the same length, and a valid PAN is unchanged. |
| Kyc.NormaliseAadhaar | controllers/kycController.js:34-37 | The stored Aadhaar number has no white space, and a valid number is unchanged. |
| Kyc.NormaliseIdempotent | controllers/kycController.js:46-47 | Normalising twice is normalising once. |
| Kyc.FindByUser | controllers/kycController.js:19 | The result is the user's first record, or none when the user has no record. |
| Kyc.Submit | controllers/kycController.js:8-71 | The user must exist and have no record, then the PAN and Aadhaar must be valid. It succeeds exactly when, in addition, the documents are present and the user id, the trimmed name, the email, phone and address are non-empty. The record is appended pending, with the normalised numbers. |
| Kyc.SubmitOnce | controllers/kycController.js:18-25 | One record per user is kept, and a second submission is refused. |
| Kyc.LowerCasePanAccepted | controllers/kycController.js:29 | A lower-case PAN is accepted and stored upper-case. |
| Kyc.GroupedAadhaarAccepted | controllers/kycController.js:35 | Grouped digits are accepted and stored without spaces. |
| Kyc.SpacesRemoved | controllers/kycController.js:47 | Removing spaces joins the groups. |
| Kyc.Approve | controllers/kycController.js:193-227 | Only a pending record is approved, and it is stamped with the approving admin and the time. |
| Kyc.Reject | controllers/kycController.js:232-271 | A blank reason is refused first. Only a pending record is rejected, with its reason. |
| Kyc.ReviewIsFinal | controllers/kycController.js:204-206 | Once reviewed, a record can be neither approved nor rejected again. |
| Kyc.ReviewKeepsUsers | controllers/kycController.js:208-211 | Reviews keep one record per user. |
| Kyc.CountStatus | controllers/kycController.js:279-281 | A status count never exceeds the total. |
| Kyc.StatsPartition | controllers/kycController.js:278-281 | The three status counts add up to the total. |
| Withdrawals.ParseStatus | models/Withdrawal.js:44-48 | Exactly the four status names are accepted. |
| Withdrawals.StatusRoundTrip | models/Withdrawal.js:46 | Naming a withdrawal status and parsing the name gives it back. |
| Withdrawals.RefIdShape | models/Withdrawal.js:114 | A reference id is "WD" and then the digits of the count, zero-padded to at least five. |
| Withdrawals.RefIdInjective | models/Withdrawal.js:114 | Different counts give different ids. |
| Withdrawals.RefIdExample | models/Withdrawal.js:114 | Count 1 gives "WD00001". |
| Withdrawals.SaveHook | models/Withdrawal.js:111-121 | The net amount is amount minus fee. A missing reference id is generated from the count, and nothing else changes. |
| Withdrawals.SaveHookIdempotent | models/Withdrawal.js:111-121 | Saving twice is saving once. |
| Withdrawals.Gate | controllers/withdrawalController.js:13-38 | The user must exist, with a submitted and approved KYC record, and an amount that is sent must not be under 500. The error is specific to the check that failed. |
| Withdrawals.InsertAsWritten | models/Withdrawal.js:51-55 | The store accepts exactly what the schema validates before the hook runs. |
| Withdrawals.CreateAsWritten | controllers/withdrawalController.js:9-80 | A gate failure gives its error. |
| Withdrawals.CreateAsWrittenAlwaysFails | controllers/withdrawalController.js:47-62 | As written, every request that passes the gates fails validation. |
| Withdrawals.Insert | models/Withdrawal.js:111-121 | In the corrected store, the hook runs before validation. |
| Withdrawals.Create | controllers/withdrawalController.js:9-80 | The corrected request is created exactly when the gates pass. It is pending, carries a fee of 50, the KYC details and the next reference id. |
| Withdrawals.CreateKeepsRefs | models/Withdrawal.js:112-114 | The next id is never taken, and the ids keep recording the counts. |
| Withdrawals.RefsDistinct | models/Withdrawal.js:51-55 | Reference ids are distinct. |
| Withdrawals.Approve | controllers/withdrawalController.js:210-243 | Only a pending request is approved, and it is stamped. |
| Withdrawals.Reject | controllers/withdrawalController.js:248-283 | Only a pending request is rejected, with its reason. |
| Withdrawals.Complete | controllers/withdrawalController.js:288-323 | Only an approved request is completed, with its transaction details. |
| Withdrawals.ActionsFollowLifecycle | controllers/withdrawalController.js:221-303 | Every successful action moves one request one step along the lifecycle and keeps the store valid. |
| Withdrawals.TerminalStates | controllers/withdrawalController.js:221-300 | Completed and rejected requests admit no action. |
| Withdrawals.LastFour | controllers/withdrawalController.js:101 | The result is the last four characters, or the whole of a shorter string. |
| Withdrawals.Mask | controllers/withdrawalController.js:101 | The mask is "****" followed by the last four. |
| Withdrawals.MaskRevealsOnlyLastFour | controllers/withdrawalController.js:101 | Two masks are equal exactly when the last fours are. |
| Withdrawals.UserAccountDetails | controllers/withdrawalController.js:100-102 | A bank account is shown masked; a missing number fails. A UPI id is shown as stored. |
| Withdrawals.AdminAccountDetails | controllers/withdrawalController.js:143-145 | The administrator sees "Account: " and the mask, or "UPI: " and the id. |
| Withdrawals.AdminViewPrefixesUserView | controllers/withdrawalController.js:143-145 | The administrator's view is the user's view with a prefix. |
| Withdrawals.MethodLabel | controllers/withdrawalController.js:99 | The label is the bank's name, or "UPI". |
| Withdrawals.CountVerified | controllers/withdrawalController.js:330-334 | A count never exceeds the store. |
| Withdrawals.GetStats | controllers/withdrawalController.js:328-353 | The total is the sum of the four status counts. |
| Withdrawals.StatsPartition | controllers/withdrawalController.js:330-334 | The verified requests split into the four statuses. |
| Withdrawals.StatsCountAll | controllers/withdrawalController.js:330 | On a store of created requests, every request is counted and the amount is at least the minimum times the count. |

## Left out

- Case folding and white space are ASCII-only. The schema setters are applied to the query values of the lookups that go through them: user emails are lower-cased, category names and offer codes trimmed, referral codes upper-cased.
- The Razorpay gateway, the HMAC, JWT signing and verification, bcrypt and `JSON.parse` are parameters (oracles). Random draws and the clock are parameters too.
- Sorting, `populate`, and pagination's skip and limit are left out. Only the page count and the limit are modelled.
- Floating-point money is not modelled: prices are integers.
- Catalog.FinalPrice: the code rounds the double `base * (1 - d/100)`, whose representation error can fall on either side of a half; the model rounds the exact value. They differ at some ties: base 25 at 34% gives 16 in the code and 17 here, and base 5 at 90% gives 0 and 1.
- Catalog.PreSave: the final price it sets inherits the exact rounding of Catalog.FinalPrice, and so do the products stored by Catalog.CreateProduct and the updates.
- Catalog.CreateGate: the product form is multipart, so the price arrives as text, and the text "0" is truthy and passes `!price`. Here the price is a number, and a price of 0 is refused as missing. Catalog.CreateProductAsWritten inherits this.
- Catalog.CreateProduct: a price sent as "0" is refused as missing, where the code would pass it on to the schema and store a product priced 0.
- Catalog.UpdateProduct: `if (price)` applies a price sent as "0", which the model skips. `!!isActive` turns the text "false" into true; here `isActive` is a boolean taken as sent. Catalog.UpdateProductIntended has the same two gaps.
- Concurrency is not modelled: there are no lost updates between simultaneous requests. A cascade that fails part-way is not modelled either.
- `removeFromCart` and `handlePaymentFailure` are left out. So are the read-only handlers that only list or fetch: the MLM dashboard, referrals and statistics; shop, product and order listings.
- Regex search, and the featured and category listings of products and blogs, are left out.
- Ids are plain keys. The cast error on a malformed id is modelled only for blogs and categories.
- Bulk upload and images (thumbnails, covers, main images, Cloudinary) are left out.
- Blogs.Update: `isPublished` and `isFeatured` are taken as booleans after the schema's Boolean cast. The cast itself is not modelled: the texts "false", "0" and "no" become false, and a value the cast cannot convert fails the save with a server error. The `Object.assign` patch is limited to the declared fields.
- Category.Create: the rate is taken as a number as sent. Mongoose's Number cast of another value is not modelled: the text "12" is stored as 12, and text that is not a number fails the save.
- Category.Update: a text rate in another numeric notation is read here as not a number, where `Number` reads it. Such notations are a fraction, an exponent, a hexadecimal, octal or binary prefix, and "Infinity". Fractional JSON numbers and array or object values are not modelled.
- Blogs.Create: `!!isPublished` and `!!isFeatured` are modelled on booleans only. A truthy non-boolean, such as the string "false", publishes or features the post in the code; the model does not take such values.
- Wishlists.Toggle: a user without a wishlist gets an empty one stored before the product check. When that check fails, the error result does not carry the store, so the empty wishlist is not shown.
- Carts.AddToCart: a user without a cart gets an empty one stored before the save. When the save then fails, the error result does not carry the store, so the empty cart is not shown.
- Users.Register: a password's length is counted in characters. JavaScript counts UTF-16 code units, so a password with characters outside the Basic Multilingual Plane is measured differently. The same holds for the account number whose last four are shown by Withdrawals.LastFour.
- Shop update, delete, list and get are left out. So are an order's notes and Razorpay ids.
- Users.Register: the new id is a parameter that must be fresh, standing for the id the store assigns.
- Users.Register, Users.UpdateProfile: the date of birth and profile picture are not modelled. An unparseable date of birth would fail the save, a case their success conditions do not include.
- Referrals.GenerateCode: the draws must contain an unused code. This stands for the generator's unbounded retry loop, which the model does not run forever.

## Findings

| source | as written | input that shows it | evidently intended | confidence | as-written member | corrected member |
|---|---|---|---|---|---|---|
| controllers/productController.js:154 | The update sets `price`, and then the save hook copies the existing `sellingPrice` over it. | A product with selling price 100, updated with price 120: it keeps 100. | A new price becomes the selling price. | not executed | Catalog.UpdatePriceIsOverwritten | Catalog.UpdateProductIntended |
| controllers/cartController.js:90-91 | `items.id(itemId)` on lines declared without `_id`. | Any cart with a line, any item id: "Item not found". | The line is addressed and its quantity updated. | not executed | Carts.UpdateCartItemAlwaysMisses | Carts.UpdateCartItem |
| models/MLM.js:14-19 | `referralCode` is required, but the save hook that generates it runs after validation. | Any valid code and a new user: validation error. | The code is generated and the join credits the chain. | not executed | Referrals.AddReferralAsWrittenAlwaysFails | Referrals.AddReferral |
| controllers/withdrawalController.js:47-62 | `netAmount` and `referenceId` are required but are set only in the save hook. | Any request that passes the gates: validation error. | The request is stored with the next reference id. | not executed | Withdrawals.CreateAsWrittenAlwaysFails | Withdrawals.Create |
| controllers/blogController.js:96-98 | `$or` with `_id: key` casts a slug key as an id. | A request for the slug "hello-1": server error. | A post is found by its slug. | not executed | Blogs.SlugLookupAlwaysFails | Blogs.Find |
| controllers/productController.js:64-79 | `createProduct` never sets the required `sellingPrice`. | Any valid request: validation error. | The price is also used as the selling price. | not executed | Catalog.CreateProductAsWrittenAlwaysFails | Catalog.CreateProduct |

=== FILE: blogs.dfy ===
/**
 Blog posts: created by an administrator, given on every save a slug (when
 none is stored), a reading-time estimate (when none is stored) and a
 publication date (the first time the post is saved published). Posts are
 found by id or slug; public reads and likes count only published posts.
 */
module Blogs {
  import opened Common
  import opened Text
  import opened Slug
  import Catalog

  type BlogId = string
  type AdminId = string

  const WordsPerMinute := 200
  const ShortDescriptionMax := 300
  const MetaDescriptionMax := 160

  /** The text after the first ">" of `s`. */
  function AfterClose(s: string): (r: string)
    requires '>' in s
    ensures |r| < |s| && r == s[|s| - |r|..]
  {
    if s[0] == '>' then s[1..] else AfterClose(s[1..])
  }

  /** `replace(/<[^>]*>/g, "")`: every "<" that has a ">" after it is dropped
      together with everything up to that ">". */
  function StripTags(s: string): (r: string)
    ensures |r| <= |s|
    ensures '<' !in s ==> r == s
    decreases |s|
  {
    if |s| == 0 then ""
    else if s[0] == '<' && '>' in s[1..] then StripTags(AfterClose(s[1..]))
    else [s[0]] + StripTags(s[1..])
  }

  /** Every character kept comes from the input. */
  lemma {:induction false} StripTagsKeepsChars(s: string)
    ensures forall c :: c in StripTags(s) ==> c in s
    decreases |s|
  {
    if |s| > 0 {
      if s[0] == '<' && '>' in s[1..] {
        var t := AfterClose(s[1..]);
        StripTagsKeepsChars(t);
        assert forall c :: c in t ==> c in s[1..];
      } else {
        StripTagsKeepsChars(s[1..]);
      }
    }
  }

  /** No "<" is followed later by a ">". */
  predicate NoTag(r: string) {
    forall i, j :: 0 <= i < j < |r| && r[i] == '<' ==> r[j] != '>'
  }

  /** A character put in front of a tag-free text keeps it tag-free unless it
      opens a tag the text closes. */
  lemma ConsKeepsNoTag(c: char, rest: string)
    requires NoTag(rest) && (c == '<' ==> '>' !in rest)
    ensures NoTag([c] + rest)
  {
    var r := [c] + rest;
    forall i, j | 0 <= i < j < |r| && r[i] == '<'
      ensures r[j] != '>'
    {
      assert r[j] == rest[j - 1];
      if i > 0 {
        assert r[i] == rest[i - 1];
      } else {
        assert rest[j - 1] in rest;
      }
    }
  }

  /** What is left holds no tag. */
  lemma {:induction false} StripTagsLeavesNoTag(s: string)
    ensures NoTag(StripTags(s))
    decreases |s|
  {
    if |s| > 0 {
      if s[0] == '<' && '>' in s[1..] {
        assert StripTags(s) == StripTags(AfterClose(s[1..]));
        StripTagsLeavesNoTag(AfterClose(s[1..]));
      } else {
        var rest := StripTags(s[1..]);
        StripTagsLeavesNoTag(s[1..]);
        StripTagsKeepsChars(s[1..]);
        assert StripTags(s) == [s[0]] + rest;
        ConsKeepsNoTag(s[0], rest);
      }
    }
  }

  /** The number of maximal runs of whitespace. */
  function SpaceRuns(s: string): nat
    decreases |s|
  {
    if |s| == 0 then 0
    else if IsSpace(s[0]) then
      var t := TrimStart(s);
      1 + SpaceRuns(t)
    else SpaceRuns(s[1..])
  }

  /** `text.split(/\s+/).length`: one more than the number of whitespace runs,
      so never below 1, even for an empty text. */
  function WordCount(content: string): (r: nat)
    ensures r >= 1
  {
    1 + SpaceRuns(StripTags(content))
  }

  /** `${Math.ceil(words / 200)} min read`. */
  function ReadTime(content: string): (r: string)
    ensures var m := CeilDiv(WordCount(content), WordsPerMinute);
      m >= 1 && r == NatToString(m) + " min read"
  {
    NatToString(CeilDiv(WordCount(content), WordsPerMinute)) + " min read"
  }

  /** A word-free prefix does not add runs. */
  lemma {:induction false} SpaceRunsAfterWord(a: string, t: string)
    requires forall i :: 0 <= i < |a| ==> !IsSpace(a[i])
    ensures SpaceRuns(a + t) == SpaceRuns(t)
    decreases |a|
  {
    if |a| > 0 {
      assert (a + t)[1..] == a[1..] + t;
      SpaceRunsAfterWord(a[1..], t);
    } else {
      assert a + t == t;
    }
  }

  /** One space in front of a text that starts with a word is one run. */
  lemma SpaceThenWord(t: string)
    requires |t| == 0 || !IsSpace(t[0])
    ensures SpaceRuns(" " + t) == 1 + SpaceRuns(t)
  {
    var s := " " + t;
    var r := TrimStart(s);
    assert s[1..] == t;
    assert r == t;
  }

  /** Joining two or more words is the first word, a space, and the rest joined. */
  lemma JoinCons(words: seq<string>)
    requires |words| > 1
    ensures Join(words, ' ') == words[0] + (" " + Join(words[1..], ' '))
  {
    assert words[0] + [' '] + Join(words[1..], ' ') == words[0] + (" " + Join(words[1..], ' '));
  }

  /** Words joined by single spaces are counted exactly: the estimate is
      based on the real number of words of such a text. */
  lemma {:induction false} WordsCounted(words: seq<string>)
    requires |words| >= 1
    requires forall i :: 0 <= i < |words| ==> |words[i]| > 0 && '<' !in words[i]
    requires forall i, k :: 0 <= i < |words| && 0 <= k < |words[i]| ==> !IsSpace(words[i][k])
    ensures 1 + SpaceRuns(Join(words, ' ')) == |words|
  {
    if |words| > 1 {
      var rest := Join(words[1..], ' ');
      WordsCounted(words[1..]);
      assert words[1..][0] == words[1];
      JoinStartsWithWord(words[1..]);
      SpaceThenWord(rest);
      JoinCons(words);
      SpaceRunsAfterWord(words[0], " " + rest);
    } else {
      SpaceRunsAfterWord(words[0], "");
      assert words[0] + "" == words[0];
    }
  }

  lemma JoinStartsWithWord(words: seq<string>)
    requires |words| >= 1 && |words[0]| > 0 && !IsSpace(words[0][0])
    ensures |Join(words, ' ')| > 0 && Join(words, ' ')[0] == words[0][0]
  {
  }

  /** With no markup, words joined by single spaces read in ceil(n/200) minutes. */
  lemma ReadTimeOfWords(words: seq<string>)
    requires |words| >= 1
    requires forall i :: 0 <= i < |words| ==> |words[i]| > 0 && '<' !in words[i]
    requires forall i, k :: 0 <= i < |words| && 0 <= k < |words[i]| ==> !IsSpace(words[i][k])
    ensures ReadTime(Join(words, ' ')) == NatToString(CeilDiv(|words|, WordsPerMinute)) + " min read"
  {
    var s := Join(words, ' ');
    NoOpenInJoin(words);
    WordsCounted(words);
  }

  lemma {:induction false} NoOpenInJoin(words: seq<string>)
    requires forall i :: 0 <= i < |words| ==> '<' !in words[i]
    ensures '<' !in Join(words, ' ')
  {
    if |words| > 1 {
      NoOpenInJoin(words[1..]);
    }
  }

  datatype Blog = Blog(
    id: BlogId,
    title: string,
    slug: string,
    shortDescription: Option<string>,
    content: string,
    category: string,
    tags: seq<string>,
    authorName: string,
    authorId: AdminId,
    views: int,
    likes: int,
    readTime: string,
    metaTitle: string,
    metaDescription: Option<string>,
    metaKeywords: seq<string>,
    isPublished: bool,
    publishedAt: Option<int>,
    isFeatured: bool)

  /** The save hook: slug from the title when absent, reading time from the
      content when absent, publication date on the first published save. */
  function PreSave(b: Blog, now: nat): (r: Blog)
    ensures r.slug == AssignSlug(b.slug, b.title, now)
    ensures r.readTime == (if b.content != "" && b.readTime == "" then ReadTime(b.content) else b.readTime)
    ensures b.publishedAt.Some? ==> r.publishedAt == b.publishedAt
    ensures b.publishedAt.None? ==> r.publishedAt == (if b.isPublished then Some(now) else None)
    ensures r == b.(slug := r.slug, readTime := r.readTime, publishedAt := r.publishedAt)
  {
    b.(slug := AssignSlug(b.slug, b.title, now),
       readTime := if b.content != "" && b.readTime == "" then ReadTime(b.content) else b.readTime,
       publishedAt := if b.isPublished && b.publishedAt.None? then Some(now) else b.publishedAt)
  }

  /** A second save at any later time changes nothing the first one set. */
  lemma PreSaveIdempotent(b: Blog, t1: nat, t2: nat)
    requires b.title != ""
    ensures PreSave(PreSave(b, t1), t2) == PreSave(b, t1)
  {
  }

  /** The schema's checks: required title, content and author, and the two length limits. */
  predicate SchemaValid(b: Blog) {
    b.title != "" && b.content != "" && b.authorName != "" && b.authorId != ""
    && (b.shortDescription.Some? ==> |b.shortDescription.value| <= ShortDescriptionMax)
    && (b.metaDescription.Some? ==> |b.metaDescription.value| <= MetaDescriptionMax)
  }

  /** `s.split(",").map(t => t.trim())`: empty pieces are kept. */
  function SplitTrim(s: string): (r: seq<string>)
    ensures |r| == |Split(s, ',')| >= 1
    ensures forall i :: 0 <= i < |r| ==> r[i] == Trim(Split(s, ',')[i])
  {
    var parts := Split(s, ',');
    seq(|parts|, i requires 0 <= i < |parts| => Trim(parts[i]))
  }

  /** Trimmed, comma-free pieces, empty ones included, come back exactly from
      their comma join: unlike the product list decoder, nothing is dropped. */
  lemma SplitTrimRoundTrip(items: seq<string>)
    requires |items| >= 1
    requires forall i :: 0 <= i < |items| ==> ',' !in items[i] && Trim(items[i]) == items[i]
    ensures SplitTrim(Join(items, ',')) == items
  {
    SplitJoin(items, ',');
  }

  /** The tags or keywords of a create request: an array as it is, a
      non-empty string split on commas, anything else empty. */
  function ListInput(v: Catalog.ListField): (r: seq<string>)
    ensures v.List? ==> r == v.items
    ensures v.Text? && v.s != "" ==> r == SplitTrim(v.s)
    ensures !Catalog.TruthyField(v) ==> r == []
  {
    match v
    case List(items) => items
    case Text(s) => if s != "" then SplitTrim(s) else []
    case Missing => []
  }

  datatype BlogRequest = BlogRequest(
    title: Option<string>,
    shortDescription: Option<string>,
    content: Option<string>,
    category: Option<string>,
    tags: Catalog.ListField,
    metaTitle: Option<string>,
    metaDescription: Option<string>,
    metaKeywords: Catalog.ListField,
    isPublished: Option<bool>,
    isFeatured: Option<bool>)

  datatype BlogError =
    | Required         // 400 Title and content are required
    | AdminNotFound    // 404 Admin not found
    | NotFound         // 404 Blog not found
    | ServerError      // 500: the schema or a unique index refused the save, or an id failed to cast

  /** No other post holds the id or the slug. */
  predicate Unique(blogs: seq<Blog>, b: Blog, skip: int) {
    forall j :: 0 <= j < |blogs| && j != skip ==> blogs[j].id != b.id && blogs[j].slug != b.slug
  }

  /** No post holds the id or the slug. */
  predicate FreshPost(blogs: seq<Blog>, id: BlogId, slug: string) {
    forall j :: 0 <= j < |blogs| ==> blogs[j].id != id && blogs[j].slug != slug
  }

  /** `createBlog`: title and content are required, then the signed-in
      administrator must exist. Tags are split on commas when sent as text
      and trimmed by the schema; the meta title defaults to the title; the
      flags default to false; the category to "General". The save fails when
      the schema refuses the post or another post holds its id or slug. */
  function Create(blogs: seq<Blog>, admins: map<AdminId, string>, sub: AdminId, req: BlogRequest,
                  id: BlogId, now: nat): (r: Result<seq<Blog>, BlogError>)
    ensures !Truthy(req.title) || !Truthy(req.content) ==> r == Err(Required)
    ensures Truthy(req.title) && Truthy(req.content) && sub !in admins ==> r == Err(AdminNotFound)
    ensures r.Ok? <==> && Truthy(req.title) && Truthy(req.content) && sub in admins
                       && Trim(req.title.value) != "" && admins[sub] != "" && sub != ""
                       && (req.shortDescription.Some? ==> |req.shortDescription.value| <= ShortDescriptionMax)
                       && (req.metaDescription.Some? ==> |req.metaDescription.value| <= MetaDescriptionMax)
                       && FreshPost(blogs, id, MakeSlug(Trim(req.title.value), now))
    ensures r.Err? && r.error != Required && r.error != AdminNotFound ==> r.error == ServerError
    ensures r.Ok? ==> && Truthy(req.title) && Truthy(req.content) && sub in admins
                      && |r.value| == |blogs| + 1 && r.value[..|blogs|] == blogs
                      && var b := r.value[|blogs|];
                      && b.id == id && b.title == Trim(req.title.value) && b.content == req.content.value
                      && b.authorName == admins[sub] && b.authorId == sub
                      && b.tags == TrimAll(ListInput(req.tags))
                      && b.metaKeywords == ListInput(req.metaKeywords)
                      && b.metaTitle == (if Truthy(req.metaTitle) then req.metaTitle.value else req.title.value)
                      && b.category == req.category.GetOr("General")
                      && b.isPublished == req.isPublished.GetOr(false)
                      && b.isFeatured == req.isFeatured.GetOr(false)
                      && b.views == 0 && b.likes == 0
                      && b.slug == MakeSlug(b.title, now)
                      && b.readTime == ReadTime(b.content)
                      && b.publishedAt == (if b.isPublished then Some(now) else None)
                      && SchemaValid(b)
  {
    if !Truthy(req.title) || !Truthy(req.content) then Err(Required)
    else if sub !in admins then Err(AdminNotFound)
    else
      var b := NewPost(admins, sub, req, id);
      if !SchemaValid(b) then Err(ServerError)
      else
        var h := PreSave(b, now);
        assert Unique(blogs, h, -1) <==> FreshPost(blogs, id, h.slug);
        if !Unique(blogs, h, -1) then Err(ServerError)
        else Ok(blogs + [h])
  }

  /** The document `createBlog` hands to the store, before the save hook. */
  function NewPost(admins: map<AdminId, string>, sub: AdminId, req: BlogRequest, id: BlogId): (b: Blog)
    requires Truthy(req.title) && Truthy(req.content) && sub in admins
    ensures b.id == id && b.title == Trim(req.title.value) && b.content == req.content.value
    ensures b.authorName == admins[sub] && b.authorId == sub
    ensures b.tags == TrimAll(ListInput(req.tags)) && b.metaKeywords == ListInput(req.metaKeywords)
    ensures b.metaTitle == (if Truthy(req.metaTitle) then req.metaTitle.value else req.title.value)
    ensures b.category == req.category.GetOr("General")
    ensures b.isPublished == req.isPublished.GetOr(false) && b.isFeatured == req.isFeatured.GetOr(false)
    ensures b.views == 0 && b.likes == 0 && b.slug == "" && b.readTime == "" && b.publishedAt.None?
    ensures SchemaValid(b) <==> && Trim(req.title.value) != "" && admins[sub] != "" && sub != ""
                                && (req.shortDescription.Some? ==> |req.shortDescription.value| <= ShortDescriptionMax)
                                && (req.metaDescription.Some? ==> |req.metaDescription.value| <= MetaDescriptionMax)
  {
    var metaTitle := if Truthy(req.metaTitle) then req.metaTitle.value else req.title.value;
    Blog(id, Trim(req.title.value), "", req.shortDescription, req.content.value,
         req.category.GetOr("General"), TrimAll(ListInput(req.tags)), admins[sub], sub, 0, 0, "",
         metaTitle, req.metaDescription, ListInput(req.metaKeywords),
         req.isPublished.GetOr(false), None, req.isFeatured.GetOr(false))
  }

  predicate Matches(b: Blog, key: string, publishedOnly: bool) {
    (b.id == key || b.slug == key) && (!publishedOnly || b.isPublished)
  }

  /** The first post whose id or slug is the key (and, for the public reads,
      that is published). */
  function FirstMatch(blogs: seq<Blog>, key: string, publishedOnly: bool): (r: Option<nat>)
    ensures r.Some? ==> r.value < |blogs| && Matches(blogs[r.value], key, publishedOnly)
    ensures r.Some? ==> forall j :: 0 <= j < r.value ==> !Matches(blogs[j], key, publishedOnly)
    ensures r.None? <==> forall j :: 0 <= j < |blogs| ==> !Matches(blogs[j], key, publishedOnly)
  {
    if |blogs| == 0 then None
    else if Matches(blogs[0], key, publishedOnly) then Some(0)
    else match FirstMatch(blogs[1..], key, publishedOnly)
      case None => None
      case Some(k) => Some(k + 1)
  }

  /** The lookup as written: `$or: [{ _id: key }, { slug: key }]`. The store
      casts the key to a document id for the first branch, and a key that is
      not 24 hexadecimal digits makes the whole query fail. */
  function FindAsWritten(blogs: seq<Blog>, key: string, publishedOnly: bool): (r: Result<Option<nat>, BlogError>)
    ensures !IsObjectId(key) ==> r == Err(ServerError)
    ensures IsObjectId(key) ==> r == Ok(FirstMatch(blogs, key, publishedOnly))
  {
    if !IsObjectId(key) then Err(ServerError) else Ok(FirstMatch(blogs, key, publishedOnly))
  }

  /** A generated slug holds a dash, so it is never an id: as written, no post
      is ever reached through its slug. */
  lemma SlugLookupAlwaysFails(blogs: seq<Blog>, title: string, now: nat, publishedOnly: bool)
    ensures FindAsWritten(blogs, MakeSlug(title, now), publishedOnly) == Err(ServerError)
  {
    var s := MakeSlug(title, now);
    var k := |SlugBase(title)|;
    assert s[k] == '-';
    if |s| == 24 {
      assert !IsHexDigit(s[k]);
    }
  }

  /** The lookup as intended: by id or by slug. */
  function Find(blogs: seq<Blog>, key: string, publishedOnly: bool): (r: Option<nat>)
    ensures r == FirstMatch(blogs, key, publishedOnly)
    ensures IsObjectId(key) ==> FindAsWritten(blogs, key, publishedOnly) == Ok(r)
  {
    FirstMatch(blogs, key, publishedOnly)
  }

  /** With the corrected lookup, slugs distinct and no id spelled like a
      slug, a post is found by its slug. */
  lemma FindLocatesSlug(blogs: seq<Blog>, i: nat)
    requires i < |blogs|
    requires forall j :: 0 <= j < |blogs| && j != i ==> blogs[j].slug != blogs[i].slug && blogs[j].id != blogs[i].slug
    ensures Find(blogs, blogs[i].slug, false) == Some(i)
    ensures blogs[i].isPublished ==> Find(blogs, blogs[i].slug, true) == Some(i)
  {
  }

  datatype BlogPatch = BlogPatch(
    title: Option<string>,
    slug: Option<string>,
    shortDescription: Option<string>,
    content: Option<string>,
    category: Option<string>,
    tags: Catalog.ListField,
    metaTitle: Option<string>,
    metaDescription: Option<string>,
    metaKeywords: Catalog.ListField,
    readTime: Option<string>,
    isPublished: Option<bool>,
    isFeatured: Option<bool>)

  /** A list field of an update: kept when absent, split when text, taken as sent when an array. */
  function PatchList(v: Catalog.ListField, stored: seq<string>): (r: seq<string>)
    ensures v.Missing? ==> r == stored
    ensures v.Text? ==> r == SplitTrim(v.s)
    ensures v.List? ==> r == v.items
  {
    match v
    case Missing => stored
    case Text(s) => SplitTrim(s)
    case List(items) => items
  }

  /** `Object.assign(blog, updates)`: every field sent replaces the stored one. */
  function Assign(b: Blog, p: BlogPatch): Blog {
    b.(title := if p.title.Some? then Trim(p.title.value) else b.title,
       slug := p.slug.GetOr(b.slug),
       shortDescription := if p.shortDescription.Some? then p.shortDescription else b.shortDescription,
       content := p.content.GetOr(b.content),
       category := p.category.GetOr(b.category),
       tags := if p.tags.Missing? then b.tags else TrimAll(PatchList(p.tags, b.tags)),
       metaTitle := p.metaTitle.GetOr(b.metaTitle),
       metaDescription := if p.metaDescription.Some? then p.metaDescription else b.metaDescription,
       metaKeywords := PatchList(p.metaKeywords, b.metaKeywords),
       readTime := p.readTime.GetOr(b.readTime),
       isPublished := p.isPublished.GetOr(b.isPublished),
       isFeatured := p.isFeatured.GetOr(b.isFeatured))
  }

  /** `updateBlog` over the corrected lookup: the fields sent replace the
      stored ones and the post is saved. A rename keeps the stored slug, an
      edit of the content keeps the stored reading time, and a publication
      date once set never moves, even across unpublishing and publishing
      again. The save fails when the edited post breaks the schema or
      another post holds its slug. */
  function Update(blogs: seq<Blog>, key: string, p: BlogPatch, now: nat): (r: Result<seq<Blog>, BlogError>)
    ensures Find(blogs, key, false).None? ==> r == Err(NotFound)
    ensures Find(blogs, key, false).Some? ==>
      var i := Find(blogs, key, false).value;
      && (r.Ok? <==> SchemaValid(Assign(blogs[i], p)) && Unique(blogs, PreSave(Assign(blogs[i], p), now), i))
      && (r.Err? ==> r.error == ServerError)
    ensures r.Ok? ==> && Find(blogs, key, false).Some? && |r.value| == |blogs|
                      && var i := Find(blogs, key, false).value; var b := blogs[i]; var n := r.value[i];
                      && n == PreSave(Assign(b, p), now)
                      && n.id == b.id && n.views == b.views && n.likes == b.likes
                      && (p.slug.None? && b.slug != "" ==> n.slug == b.slug)
                      && (p.readTime.None? && b.readTime != "" ==> n.readTime == b.readTime)
                      && (b.publishedAt.Some? ==> n.publishedAt == b.publishedAt)
                      && (b.publishedAt.None? && n.isPublished ==> n.publishedAt == Some(now))
                      && SchemaValid(n)
                      && forall j :: 0 <= j < |blogs| && j != i ==> r.value[j] == blogs[j]
  {
    match Find(blogs, key, false)
    case None => Err(NotFound)
    case Some(i) =>
      var a := Assign(blogs[i], p);
      if !SchemaValid(a) then Err(ServerError)
      else
        var n := PreSave(a, now);
        if !Unique(blogs, n, i) then Err(ServerError)
        else Ok(blogs[i := n])
  }

  /** `getBlog` over the corrected lookup: a published post's views go up by
      exactly one, and the post is saved. */
  function View(blogs: seq<Blog>, key: string, now: nat): (r: Result<seq<Blog>, BlogError>)
    ensures r.Err? <==> Find(blogs, key, true).None?
    ensures r.Ok? ==> && |r.value| == |blogs|
                      && var i := Find(blogs, key, true).value;
                      && blogs[i].isPublished
                      && r.value[i] == PreSave(blogs[i].(views := blogs[i].views + 1), now)
                      && r.value[i].views == blogs[i].views + 1 && r.value[i].likes == blogs[i].likes
                      && forall j :: 0 <= j < |blogs| && j != i ==> r.value[j] == blogs[j]
  {
    match Find(blogs, key, true)
    case None => Err(NotFound)
    case Some(i) => Ok(blogs[i := PreSave(blogs[i].(views := blogs[i].views + 1), now)])
  }

  /** `likeBlog` over the corrected lookup: a published post's likes go up by exactly one. */
  function Like(blogs: seq<Blog>, key: string, now: nat): (r: Result<seq<Blog>, BlogError>)
    ensures r.Err? <==> Find(blogs, key, true).None?
    ensures r.Ok? ==> && |r.value| == |blogs|
                      && var i := Find(blogs, key, true).value;
                      && blogs[i].isPublished
                      && r.value[i] == PreSave(blogs[i].(likes := blogs[i].likes + 1), now)
                      && r.value[i].likes == blogs[i].likes + 1 && r.value[i].views == blogs[i].views
                      && forall j :: 0 <= j < |blogs| && j != i ==> r.value[j] == blogs[j]
  {
    match Find(blogs, key, true)
    case None => Err(NotFound)
    case Some(i) => Ok(blogs[i := PreSave(blogs[i].(likes := blogs[i].likes + 1), now)])
  }

  /** A draft is invisible to readers: neither views nor likes reach it, and nothing changes. */
  lemma DraftsNotCounted(blogs: seq<Blog>, i: nat, now: nat)
    requires i < |blogs| && !blogs[i].isPublished
    requires forall j :: 0 <= j < |blogs| && j != i ==> blogs[j].id != blogs[i].id && blogs[j].slug != blogs[i].id
    ensures View(blogs, blogs[i].id, now) == Err(NotFound)
    ensures Like(blogs, blogs[i].id, now) == Err(NotFound)
  {
  }

  /** `deleteBlog` over the corrected lookup: exactly the post found is removed. */
  function Delete(blogs: seq<Blog>, key: string): (r: Result<seq<Blog>, BlogError>)
    ensures r.Err? <==> Find(blogs, key, false).None?
    ensures r.Ok? ==> var i := Find(blogs, key, false).value; r.value == blogs[..i] + blogs[i + 1..]
  {
    match Find(blogs, key, false)
    case None => Err(NotFound)
    case Some(i) => Ok(blogs[..i] + blogs[i + 1..])
  }

  /** `updateBlog` as written, over `FindAsWritten`: a key that is not
      shaped like an id is a server error, and on an id-shaped key the
      handler is the corrected one. */
  function UpdateAsWritten(blogs: seq<Blog>, key: string, p: BlogPatch, now: nat): (r: Result<seq<Blog>, BlogError>)
    ensures !IsObjectId(key) ==> r == Err(ServerError)
    ensures IsObjectId(key) ==> r == Update(blogs, key, p, now)
  {
    match FindAsWritten(blogs, key, false)
    case Err(e) => Err(e)
    case Ok(None) => Err(NotFound)
    case Ok(Some(i)) =>
      var a := Assign(blogs[i], p);
      if !SchemaValid(a) then Err(ServerError)
      else
        var n := PreSave(a, now);
        if !Unique(blogs, n, i) then Err(ServerError)
        else Ok(blogs[i := n])
  }

  /** `getBlog` as written. */
  function ViewAsWritten(blogs: seq<Blog>, key: string, now: nat): (r: Result<seq<Blog>, BlogError>)
    ensures !IsObjectId(key) ==> r == Err(ServerError)
    ensures IsObjectId(key) ==> r == View(blogs, key, now)
  {
    match FindAsWritten(blogs, key, true)
    case Err(e) => Err(e)
    case Ok(None) => Err(NotFound)
    case Ok(Some(i)) => Ok(blogs[i := PreSave(blogs[i].(views := blogs[i].views + 1), now)])
  }

  /** `likeBlog` as written. */
  function LikeAsWritten(blogs: seq<Blog>, key: string, now: nat): (r: Result<seq<Blog>, BlogError>)
    ensures !IsObjectId(key) ==> r == Err(ServerError)
    ensures IsObjectId(key) ==> r == Like(blogs, key, now)
  {
    match FindAsWritten(blogs, key, true)
    case Err(e) => Err(e)
    case Ok(None) => Err(NotFound)
    case Ok(Some(i)) => Ok(blogs[i := PreSave(blogs[i].(likes := blogs[i].likes + 1), now)])
  }

  /** `deleteBlog` as written. */
  function DeleteAsWritten(blogs: seq<Blog>, key: string): (r: Result<seq<Blog>, BlogError>)
    ensures !IsObjectId(key) ==> r == Err(ServerError)
    ensures IsObjectId(key) ==> r == Delete(blogs, key)
  {
    match FindAsWritten(blogs, key, false)
    case Err(e) => Err(e)
    case Ok(None) => Err(NotFound)
    case Ok(Some(i)) => Ok(blogs[..i] + blogs[i + 1..])
  }

  /** As written, no post is ever viewed, liked, edited or deleted through its generated slug. */
  lemma SlugHandlersAlwaysFail(blogs: seq<Blog>, title: string, now: nat, t: nat, p: BlogPatch)
    ensures ViewAsWritten(blogs, MakeSlug(title, now), t) == Err(ServerError)
    ensures LikeAsWritten(blogs, MakeSlug(title, now), t) == Err(ServerError)
    ensures UpdateAsWritten(blogs, MakeSlug(title, now), p, t) == Err(ServerError)
    ensures DeleteAsWritten(blogs, MakeSlug(title, now)) == Err(ServerError)
  {
    SlugLookupAlwaysFails(blogs, title, now, true);
    SlugLookupAlwaysFails(blogs, title, now, false);
  }

  /** `Math.ceil(total / limit)`; a zero limit gives no finite count. */
  function PageCount(total: nat, limit: int): (r: Option<int>)
    ensures limit == 0 <==> r.None?
    ensures limit > 0 ==> r.Some? && (r.value - 1) * limit < total <= r.value * limit
  {
    if limit > 0 then Some(CeilDiv(total, limit))
    else if limit < 0 then Some(-(total / -limit))
    else None
  }

  /** Every item falls on a page no later than the last. */
  lemma PagesCoverAll(total: nat, limit: int, i: nat)
    requires limit > 0 && i < total
    ensures 1 <= i / limit + 1 <= PageCount(total, limit).value
  {
    var pages := PageCount(total, limit).value;
    var q := i / limit;
    assert q * limit <= i;
    if q >= pages {
      MulMonotone(limit, pages, q);
      assert false;
    }
  }

  /** The administrator's list filter: "published" and "draft" select by the
      flag, any other status selects everything; a category narrows further. */
  predicate AdminListed(b: Blog, status: Option<string>, category: Option<string>) {
    (status != Some("published") || b.isPublished)
    && (status != Some("draft") || !b.isPublished)
    && (!Truthy(category) || b.category == category.value)
  }

  function CountListed(blogs: seq<Blog>, status: Option<string>, category: Option<string>): (r: nat)
    ensures r <= |blogs|
  {
    if |blogs| == 0 then 0
    else (if AdminListed(blogs[0], status, category) then 1 else 0) + CountListed(blogs[1..], status, category)
  }

  /** Published and draft counts add up to the unfiltered total. */
  lemma {:induction false} ListedPartition(blogs: seq<Blog>, category: Option<string>)
    ensures CountListed(blogs, Some("published"), category) + CountListed(blogs, Some("draft"), category)
            == CountListed(blogs, None, category)
  {
    if |blogs| > 0 {
      ListedPartition(blogs[1..], category);
    }
  }
}

=== FILE: carts.dfy ===
/**
 The shopping cart: one per user, a list of lines keyed by variant
 (product, size, colour, add-on name), a pre-save hook that recounts the
 items, and the handlers that add, update, clear and price it. Carts are
 stored by owner; products by id, a deleted product being an absent key.
 */
module Carts {
  import opened Common
  import opened Catalog

  type UserId = string

  /** A cart line. The schema declares lines without their own `_id`. */
  datatype CartItem = CartItem(
    product: ProductId,
    quantity: int,
    size: Option<string>,
    color: Option<string>,
    addOnName: string,
    addOnPrice: int)

  datatype Cart = Cart(user: UserId, items: seq<CartItem>, totalItems: int, totalAmount: int)

  /** The identity of a line for merging; the add-on price is not part of it. */
  datatype VariantKey = VariantKey(product: ProductId, size: Option<string>, color: Option<string>, addOnName: string)

  function Key(it: CartItem): VariantKey {
    VariantKey(it.product, it.size, it.color, it.addOnName)
  }

  predicate KeysUnique(items: seq<CartItem>) {
    forall i, j :: 0 <= i < j < |items| ==> Key(items[i]) != Key(items[j])
  }

  /** The schema's `quantity: { min: 1 }` on every line. */
  predicate QuantitiesValid(items: seq<CartItem>) {
    forall i :: 0 <= i < |items| ==> items[i].quantity >= 1
  }

  function TotalQuantity(items: seq<CartItem>): int {
    if |items| == 0 then 0 else items[0].quantity + TotalQuantity(items[1..])
  }

  /** Changing one line's quantity changes the count by exactly the difference. */
  lemma {:induction false} TotalQuantityUpdate(items: seq<CartItem>, k: nat, q: int)
    requires k < |items|
    ensures TotalQuantity(items[k := items[k].(quantity := q)]) == TotalQuantity(items) - items[k].quantity + q
  {
    var u := items[k := items[k].(quantity := q)];
    if k == 0 {
      assert u[1..] == items[1..];
    } else {
      TotalQuantityUpdate(items[1..], k - 1, q);
      assert u[1..] == items[1..][k - 1 := items[k].(quantity := q)];
    }
  }

  lemma {:induction false} TotalQuantityAppend(items: seq<CartItem>, line: CartItem)
    ensures TotalQuantity(items + [line]) == TotalQuantity(items) + line.quantity
  {
    if |items| > 0 {
      TotalQuantityAppend(items[1..], line);
      assert (items + [line])[1..] == items[1..] + [line];
    }
  }

  /** Valid lines have a count of at least the number of lines. */
  lemma {:induction false} TotalQuantityAtLeastLength(items: seq<CartItem>)
    requires QuantitiesValid(items)
    ensures TotalQuantity(items) >= |items|
  {
    if |items| > 0 {
      TotalQuantityAtLeastLength(items[1..]);
    }
  }

  /** The pre-save hook: `totalItems` is recounted from the lines on every save. */
  function Saved(c: Cart): (r: Cart)
    ensures r.items == c.items && r.user == c.user && r.totalAmount == c.totalAmount
    ensures r.totalItems == TotalQuantity(r.items)
  {
    c.(totalItems := TotalQuantity(c.items))
  }

  function EmptyCart(user: UserId): Cart {
    Cart(user, [], 0, 0)
  }

  /** `findIndex` on the variant key: the first line with that key. */
  function FindVariant(items: seq<CartItem>, k: VariantKey): (r: Option<nat>)
    ensures r.Some? ==> r.value < |items| && Key(items[r.value]) == k
    ensures r.Some? ==> forall j :: 0 <= j < r.value ==> Key(items[j]) != k
    ensures r.None? <==> forall j :: 0 <= j < |items| ==> Key(items[j]) != k
  {
    if |items| == 0 then None
    else if Key(items[0]) == k then Some(0)
    else match FindVariant(items[1..], k)
      case None => None
      case Some(i) => Some(i + 1)
  }

  /** The merge step of `addToCart`: a line whose variant is already present
      adds its quantity to that line (whose add-on price is kept); any other
      line is appended. Keys stay unique and the count grows by the quantity. */
  function MergeLine(items: seq<CartItem>, line: CartItem): (r: seq<CartItem>)
    ensures TotalQuantity(r) == TotalQuantity(items) + line.quantity
    ensures KeysUnique(items) ==> KeysUnique(r)
    ensures FindVariant(r, Key(line)).Some?
    ensures FindVariant(items, Key(line)).None? ==> r == items + [line]
    ensures FindVariant(items, Key(line)).Some? ==> var k := FindVariant(items, Key(line)).value;
      && |r| == |items|
      && r[k] == items[k].(quantity := items[k].quantity + line.quantity)
      && forall j :: 0 <= j < |items| && j != k ==> r[j] == items[j]
  {
    match FindVariant(items, Key(line))
    case Some(k) =>
      var r := items[k := items[k].(quantity := items[k].quantity + line.quantity)];
      TotalQuantityUpdate(items, k, items[k].quantity + line.quantity);
      assert Key(r[k]) == Key(line);
      r
    case None =>
      var r := items + [line];
      TotalQuantityAppend(items, line);
      assert Key(r[|items|]) == Key(line);
      r
  }

  datatype AddRequest = AddRequest(
    productId: Option<string>,
    quantity: Option<int>,
    size: Option<string>,
    color: Option<string>,
    addOnName: Option<string>,
    addOnPrice: Option<int>)

  datatype CartError =
    | ProductIdRequired   // 400 Product ID is required
    | ProductUnavailable  // 404 Product not found or inactive
    | InvalidQuantity     // 400 Valid quantity is required
    | CartNotFound        // 404 Cart not found
    | ItemNotFound        // 404 Item not found in cart
    | CartEmpty           // 400 Cart is empty
    | Validation          // schema failure at save (500)

  /** The line an add request describes, with the handler's defaults:
      quantity 1, add-on "None" at price 0. */
  function RequestLine(req: AddRequest): (r: CartItem)
    requires req.productId.Some?
    ensures req.quantity.None? ==> r.quantity == 1
    ensures req.addOnName.None? ==> r.addOnName == "None"
    ensures req.addOnPrice.None? ==> r.addOnPrice == 0
  {
    CartItem(req.productId.value, req.quantity.GetOr(1), req.size, req.color,
             req.addOnName.GetOr("None"), req.addOnPrice.GetOr(0))
  }

  function ItemsOf(carts: map<UserId, Cart>, user: UserId): seq<CartItem> {
    if user in carts then carts[user].items else []
  }

  /** `addToCart`: the product must exist and be active; the user's cart is
      created when absent; the line is merged on its variant and the cart is
      saved, which recounts the items and enforces quantity at least 1. */
  function AddToCart(carts: map<UserId, Cart>, user: UserId, products: map<ProductId, Product>,
                     req: AddRequest): (r: Result<map<UserId, Cart>, CartError>)
    ensures !Truthy(req.productId) ==> r == Err(ProductIdRequired)
    ensures Truthy(req.productId) && (req.productId.value !in products || !products[req.productId.value].isActive)
            ==> r == Err(ProductUnavailable)
    ensures r.Ok? ==> Truthy(req.productId) && req.productId.value in products && products[req.productId.value].isActive
    ensures r.Ok? ==> r.value.Keys == carts.Keys + {user}
    ensures r.Ok? ==> forall u :: u in carts && u != user ==> r.value[u] == carts[u]
    ensures r.Ok? ==> var c := r.value[user];
      && c.user == (if user in carts then carts[user].user else user)
      && c.totalAmount == (if user in carts then carts[user].totalAmount else 0)
      && c.totalItems == TotalQuantity(c.items) == TotalQuantity(ItemsOf(carts, user)) + req.quantity.GetOr(1)
      && QuantitiesValid(c.items)
      && FindVariant(c.items, Key(RequestLine(req))).Some?
      && (KeysUnique(ItemsOf(carts, user)) ==> KeysUnique(c.items))
    ensures r.Ok? <==> Truthy(req.productId) && req.productId.value in products && products[req.productId.value].isActive
                       && QuantitiesValid(MergeLine(ItemsOf(carts, user), RequestLine(req)))
  {
    if !Truthy(req.productId) then Err(ProductIdRequired)
    else if req.productId.value !in products || !products[req.productId.value].isActive then Err(ProductUnavailable)
    else
      var cart := if user in carts then carts[user] else EmptyCart(user);
      var items := MergeLine(cart.items, RequestLine(req));
      if !QuantitiesValid(items) then Err(Validation)
      else Ok(carts[user := Saved(cart.(items := items))])
  }

  /** `updateCartItem` as written: after the quantity and cart checks it looks
      the line up with `cart.items.id(itemId)`, but the lines are declared
      without an `_id`, so the lookup never finds one and every request that
      passes the checks ends in "Item not found". */
  function UpdateCartItemAsWritten(carts: map<UserId, Cart>, user: UserId, itemId: string,
                                   quantity: Option<int>): (r: Result<map<UserId, Cart>, CartError>)
    ensures !TruthyNum(quantity) || quantity.value < 1 ==> r == Err(InvalidQuantity)
    ensures TruthyNum(quantity) && quantity.value >= 1 && user !in carts ==> r == Err(CartNotFound)
    ensures TruthyNum(quantity) && quantity.value >= 1 && user in carts ==> r == Err(ItemNotFound)
  {
    if !TruthyNum(quantity) || quantity.value < 1 then Err(InvalidQuantity)
    else if user !in carts then Err(CartNotFound)
    else Err(ItemNotFound)
  }

  /** A cart holding the very line to be updated still answers "Item not found". */
  lemma UpdateCartItemAlwaysMisses(carts: map<UserId, Cart>, user: UserId, itemId: string)
    requires user in carts && |carts[user].items| > 0
    ensures UpdateCartItemAsWritten(carts, user, itemId, Some(2)) == Err(ItemNotFound)
    ensures forall q :: UpdateCartItemAsWritten(carts, user, itemId, Some(q)).Err?
  {
  }

  /** The update the handler intends, addressing the line by its position:
      the quantity must be a positive number, the line must exist, and only
      that line's quantity changes. */
  function UpdateCartItem(carts: map<UserId, Cart>, user: UserId, index: int,
                          quantity: Option<int>): (r: Result<map<UserId, Cart>, CartError>)
    ensures !TruthyNum(quantity) || quantity.value < 1 ==> r == Err(InvalidQuantity)
    ensures r.Ok? <==> TruthyNum(quantity) && quantity.value >= 1 && user in carts && 0 <= index < |carts[user].items|
    ensures r.Ok? ==> r.value.Keys == carts.Keys
    ensures r.Ok? ==> forall u :: u in carts && u != user ==> r.value[u] == carts[u]
    ensures r.Ok? ==> var old_ := carts[user].items; var c := r.value[user];
      && |c.items| == |old_|
      && c.items[index].quantity == quantity.value
      && Key(c.items[index]) == Key(old_[index]) && c.items[index].addOnPrice == old_[index].addOnPrice
      && (forall j :: 0 <= j < |old_| && j != index ==> c.items[j] == old_[j])
      && c.totalItems == TotalQuantity(old_) - old_[index].quantity + quantity.value
      && (KeysUnique(old_) ==> KeysUnique(c.items))
      && (QuantitiesValid(old_) ==> QuantitiesValid(c.items))
  {
    if !TruthyNum(quantity) || quantity.value < 1 then Err(InvalidQuantity)
    else if user !in carts then Err(CartNotFound)
    else
      var cart := carts[user];
      if !(0 <= index < |cart.items|) then Err(ItemNotFound)
      else
        var items := cart.items[index := cart.items[index].(quantity := quantity.value)];
        TotalQuantityUpdate(cart.items, index, quantity.value);
        assert forall i :: 0 <= i < |items| ==> Key(items[i]) == Key(cart.items[i]);
        Ok(carts[user := Saved(cart.(items := items))])
  }

  /** `clearCart`: no lines and both totals zero; nobody else's cart changes. */
  function ClearCart(carts: map<UserId, Cart>, user: UserId): (r: Result<map<UserId, Cart>, CartError>)
    ensures r.Err? <==> user !in carts
    ensures r.Ok? ==> r.value.Keys == carts.Keys
    ensures r.Ok? ==> var c := r.value[user]; c.user == carts[user].user && c.items == [] && c.totalItems == 0 && c.totalAmount == 0
    ensures r.Ok? ==> forall u :: u in carts && u != user ==> r.value[u] == carts[u]
  {
    if user !in carts then Err(CartNotFound)
    else Ok(carts[user := Saved(carts[user].(items := [], totalItems := 0, totalAmount := 0))])
  }

  /** Clearing a cleared cart changes nothing. */
  lemma ClearIdempotent(carts: map<UserId, Cart>, user: UserId)
    requires user in carts
    ensures ClearCart(ClearCart(carts, user).value, user) == ClearCart(carts, user)
  {
    var once := ClearCart(carts, user).value;
    var twice := ClearCart(once, user).value;
    assert twice[user] == once[user];
    assert twice == once;
  }

  /** The amount of one line at the product's current price: (final price + add-on) x quantity. */
  function LineAmount(p: Product, it: CartItem): int {
    (p.finalPrice + it.addOnPrice) * it.quantity
  }

  predicate AllPresent(products: map<ProductId, Product>, items: seq<CartItem>) {
    forall i :: 0 <= i < |items| ==> items[i].product in products
  }

  predicate AllAvailable(products: map<ProductId, Product>, items: seq<CartItem>) {
    forall i :: 0 <= i < |items| ==> items[i].product in products && products[items[i].product].isActive
  }

  /** The sum of the line amounts, each line priced from its product. */
  function CartAmount(products: map<ProductId, Product>, items: seq<CartItem>): int
    requires AllPresent(products, items)
  {
    if |items| == 0 then 0 else LineAmount(products[items[0].product], items[0]) + CartAmount(products, items[1..])
  }

  /** The lines whose product still exists, in order (`getCart`'s filter). */
  function Present(products: map<ProductId, Product>, items: seq<CartItem>): (r: seq<CartItem>)
    ensures AllPresent(products, r)
    ensures |r| <= |items|
    ensures forall it :: it in r <==> it in items && it.product in products
    ensures AllPresent(products, items) ==> r == items
  {
    if |items| == 0 then []
    else if items[0].product in products then [items[0]] + Present(products, items[1..])
    else Present(products, items[1..])
  }

  /** The lines whose product exists and is active, in order (`getCartTotal`'s filter). */
  function Available(products: map<ProductId, Product>, items: seq<CartItem>): (r: seq<CartItem>)
    ensures AllAvailable(products, r)
    ensures |r| <= |items|
    ensures forall it :: it in r <==> it in items && it.product in products && products[it.product].isActive
    ensures AllAvailable(products, items) ==> r == items
  {
    if |items| == 0 then []
    else if items[0].product in products && products[items[0].product].isActive then [items[0]] + Available(products, items[1..])
    else Available(products, items[1..])
  }

  lemma AvailableAllPresent(products: map<ProductId, Product>, items: seq<CartItem>)
    ensures AllPresent(products, Available(products, items))
  {
  }

  /** `getCart`: the user's cart (created empty when absent) with lines for
      deleted products dropped and saved, and its amount recomputed from the
      remaining lines at current prices. */
  function GetCart(carts: map<UserId, Cart>, user: UserId, products: map<ProductId, Product>): (r: (Cart, map<UserId, Cart>))
    ensures r.1 == carts[user := r.0]
    ensures r.0.user == (if user in carts then carts[user].user else user)
    ensures r.0.items == Present(products, ItemsOf(carts, user))
    ensures r.0.totalAmount == CartAmount(products, r.0.items)
    ensures r.0.totalItems == TotalQuantity(r.0.items)
  {
    var cart := if user in carts then carts[user] else EmptyCart(user);
    var kept := Present(products, cart.items);
    var c := Saved(cart.(items := kept, totalAmount := CartAmount(products, kept)));
    (c, carts[user := c])
  }

  /** Reading the cart twice gives the same cart: the first read already dropped what the second would. */
  lemma GetCartStable(carts: map<UserId, Cart>, user: UserId, products: map<ProductId, Product>)
    ensures GetCart(GetCart(carts, user, products).1, user, products).0 == GetCart(carts, user, products).0
  {
  }

  datatype CartTotal = CartTotal(totalAmount: int, totalItems: int, items: seq<CartItem>)

  /** `getCartTotal`: a missing or empty cart is refused; lines whose product
      is missing or inactive are dropped (nothing is saved), and the amount and
      count come from the remaining lines. */
  function GetCartTotal(carts: map<UserId, Cart>, user: UserId, products: map<ProductId, Product>): (r: Result<CartTotal, CartError>)
    ensures r.Err? <==> user !in carts || |carts[user].items| == 0
    ensures r.Ok? ==> r.value.items == Available(products, carts[user].items)
    ensures r.Ok? ==> AllPresent(products, r.value.items) && r.value.totalAmount == CartAmount(products, r.value.items)
    ensures r.Ok? ==> r.value.totalItems == TotalQuantity(r.value.items)
  {
    if user !in carts || |carts[user].items| == 0 then Err(CartEmpty)
    else
      var kept := Available(products, carts[user].items);
      Ok(CartTotal(CartAmount(products, kept), TotalQuantity(kept), kept))
  }

  /** When every line's product exists and is active, the cart view and the
      payment total agree on the amount and the count. */
  lemma GetCartAgreesWithTotal(carts: map<UserId, Cart>, user: UserId, products: map<ProductId, Product>)
    requires user in carts && |carts[user].items| > 0
    requires AllAvailable(products, carts[user].items)
    ensures GetCartTotal(carts, user, products).Ok?
    ensures GetCartTotal(carts, user, products).value.totalAmount == GetCart(carts, user, products).0.totalAmount
    ensures GetCartTotal(carts, user, products).value.totalItems == GetCart(carts, user, products).0.totalItems
  {
  }
}

=== FILE: catalog.dfy ===
/**
 The Product record and its pre-save hook (slug, price synchronisation,
 discounted final price, default add-on), the list-field decoder used by the
 product handlers, and product creation and partial update.
 Image upload is outside the model; only the presence of a main image is an input.
 */
module Catalog {
  import opened Common
  import opened Text
  import opened Slug

  type ProductId = string
  type CategoryId = string

  datatype AddOn = AddOn(name: string, price: int, isDefault: bool)

  datatype Product = Product(
    id: ProductId,
    name: string,
    slug: string,
    category: CategoryId,
    sellingPrice: int,
    price: int,
    discountPercent: int,
    finalPrice: int,
    sizes: seq<string>,
    colors: seq<string>,
    addOns: seq<AddOn>,
    description: string,
    about: string,
    isActive: bool)

  /** The add-on inserted when a product has no default one. */
  const NoAddOn := AddOn("None", 0, true)

  predicate HasDefault(addOns: seq<AddOn>) {
    exists i :: 0 <= i < |addOns| && addOns[i].isDefault
  }

  predicate ValidDiscount(d: int) {
    0 <= d <= 100
  }

  /** `Math.round(base * (1 - d / 100))`: the price after a d-percent discount,
      to the nearest rupee with halves rounded up. */
  function FinalPrice(base: int, d: int): (r: int)
    requires ValidDiscount(d)
    ensures 200 * r <= 2 * base * (100 - d) + 100 < 200 * r + 200
    ensures base >= 0 ==> 0 <= r <= base
    ensures d == 0 ==> r == base
    ensures d == 100 ==> r == 0
  {
    var r := RoundDiv(base * (100 - d), 100);
    assert base >= 0 ==> base * (100 - d) <= 100 * base;
    assert base >= 0 ==> 0 <= base * (100 - d);
    r
  }

  /** A larger discount never gives a higher final price. */
  lemma FinalPriceAntitone(base: nat, d1: int, d2: int)
    requires ValidDiscount(d1) && ValidDiscount(d2) && d1 <= d2
    ensures FinalPrice(base, d2) <= FinalPrice(base, d1)
  {
    MulMonotone(base, 100 - d2, 100 - d1);
    RoundDivMonotone(base * (100 - d2), base * (100 - d1), 100);
  }

  /** The price-synchronisation step: a non-zero selling price is copied into
      price; otherwise a non-zero price is copied into the selling price.
      Afterwards the two always agree. */
  function SyncPrices(sellingPrice: int, price: int): (r: (int, int))
    ensures r.0 == r.1
    ensures sellingPrice != 0 ==> r.0 == sellingPrice
    ensures sellingPrice == 0 ==> r.0 == price
  {
    if sellingPrice != 0 then (sellingPrice, sellingPrice)
    else if price != 0 then (price, price)
    else (sellingPrice, price)
  }

  /** The add-on step: an empty list becomes the single default "None"
      add-on, a list without a default gets it in front, and a list that
      already has a default is kept. */
  function EnsureDefaultAddOn(addOns: seq<AddOn>): (r: seq<AddOn>)
    ensures HasDefault(r)
    ensures HasDefault(addOns) ==> r == addOns
    ensures !HasDefault(addOns) ==> r == [NoAddOn] + addOns
    ensures |addOns| == 0 ==> r == [NoAddOn]
  {
    if |addOns| == 0 then
      assert [NoAddOn][0].isDefault;
      [NoAddOn]
    else if HasDefault(addOns) then addOns
    else
      var r := [NoAddOn] + addOns;
      assert r[0].isDefault;
      r
  }

  /** The pre-save hook of the Product model (validation of the discount
      range runs before it). */
  function PreSave(p: Product, now: nat): (r: Product)
    requires ValidDiscount(p.discountPercent)
    ensures r.price == r.sellingPrice
    ensures r.finalPrice == FinalPrice(r.sellingPrice, p.discountPercent)
    ensures HasDefault(r.addOns)
    ensures p.slug != "" ==> r.slug == p.slug
    ensures p.slug == "" && p.name != "" ==> r.slug == MakeSlug(p.name, now)
    ensures r.(slug := p.slug, sellingPrice := p.sellingPrice, price := p.price,
               finalPrice := p.finalPrice, addOns := p.addOns) == p
  {
    var prices := SyncPrices(p.sellingPrice, p.price);
    p.(slug := AssignSlug(p.slug, p.name, now),
       sellingPrice := prices.0,
       price := prices.1,
       finalPrice := FinalPrice(prices.0, p.discountPercent),
       addOns := EnsureDefaultAddOn(p.addOns))
  }

  /** Saving a product a second time, at any later clock reading, changes nothing more. */
  lemma PreSaveIdempotent(p: Product, now1: nat, now2: nat)
    requires ValidDiscount(p.discountPercent)
    requires p.slug != "" || p.name != ""
    ensures PreSave(PreSave(p, now1), now2) == PreSave(p, now1)
  {
    var q := PreSave(p, now1);
    assert q.slug != "" by {
      if p.slug == "" {
        assert q.slug == MakeSlug(p.name, now1);
        assert |q.slug| >= 1;
      }
    }
  }

  /** A request field that is either absent, a string, or an already decoded array. */
  datatype ListField = Missing | Text(s: string) | List(items: seq<string>)

  predicate TruthyField(v: ListField) {
    v.List? || (v.Text? && v.s != "")
  }

  /** An item as the comma list yields it: non-empty, comma-free, with no
      white space at either end. */
  predicate CleanItem(s: string) {
    s != "" && ',' !in s && !IsSpace(s[0]) && !IsSpace(s[|s| - 1])
  }

  /** `filter(Boolean)` on strings: the non-empty items, in order. */
  function DropEmpty(xs: seq<string>): (r: seq<string>)
    ensures |r| <= |xs|
    ensures forall x :: x in r <==> x in xs && x != ""
  {
    if |xs| == 0 then []
    else if xs[0] == "" then DropEmpty(xs[1..])
    else [xs[0]] + DropEmpty(xs[1..])
  }

  /** The comma-list fallback: the comma-separated fields of the text,
      trimmed, with the empty ones dropped, in their order. Every item is
      clean, and the items are exactly the non-empty trimmed fields. */
  function CommaList(s: string): (r: seq<string>)
    ensures forall i :: 0 <= i < |r| ==> CleanItem(r[i])
    ensures forall x :: x in r <==> x != "" && x in TrimAll(Split(s, ','))
  {
    var pieces := Split(s, ',');
    TrimAllClean(pieces);
    DropEmptyClean(TrimAll(pieces));
    DropEmpty(TrimAll(pieces))
  }

  /** Trimming comma-free pieces yields items that are clean unless empty. */
  lemma TrimAllClean(pieces: seq<string>)
    requires forall i :: 0 <= i < |pieces| ==> ',' !in pieces[i]
    ensures forall i :: 0 <= i < |pieces| && TrimAll(pieces)[i] != "" ==> CleanItem(TrimAll(pieces)[i])
  {
    forall i | 0 <= i < |pieces| && TrimAll(pieces)[i] != ""
      ensures CleanItem(TrimAll(pieces)[i])
    {
      var t := TrimAll(pieces)[i];
      assert t == Trim(pieces[i]);
      TrimKeepsOut(pieces[i], ',');
      assert !IsSpace(t[0]) && !IsSpace(t[|t| - 1]);
    }
  }

  /** Dropping the empty items of a list whose other items are clean leaves
      only clean items. */
  lemma DropEmptyClean(xs: seq<string>)
    requires forall i :: 0 <= i < |xs| && xs[i] != "" ==> CleanItem(xs[i])
    ensures forall i :: 0 <= i < |DropEmpty(xs)| ==> CleanItem(DropEmpty(xs)[i])
  {
    var r := DropEmpty(xs);
    forall i | 0 <= i < |r|
      ensures CleanItem(r[i])
    {
      assert r[i] in r;
      var j :| 0 <= j < |xs| && xs[j] == r[i];
    }
  }

  lemma TrimKeepsOut(s: string, c: char)
    requires c !in s
    ensures c !in Trim(s)
  {
    var a := TrimStart(s);
    assert c !in a by {
      assert a == s[|s| - |a|..];
    }
    var b := TrimEnd(a);
    assert b == a[..|b|];
  }

  /** `parseMaybeJSON(value, fallback)`: falsy gives the fallback, an array is
      kept, a JSON text is decoded by the oracle `parse`, and any other string
      falls back to the comma list. */
  function ParseMaybeJson(value: ListField, fallback: seq<string>,
                          parse: string -> Option<seq<string>>): (r: seq<string>)
    ensures !TruthyField(value) ==> r == fallback
    ensures value.List? ==> r == value.items
    ensures value.Text? && value.s != "" && parse(value.s).Some? ==> r == parse(value.s).value
    ensures value.Text? && value.s != "" && parse(value.s).None? ==> r == CommaList(value.s)
  {
    match value
    case Missing => fallback
    case List(items) => items
    case Text(s) =>
      if s == "" then fallback
      else match parse(s)
        case Some(v) => v
        case None => CommaList(s)
  }

  /** A comma-joined list of clean items (non-empty, comma-free, no white space
      at either end) is read back exactly. */
  lemma CommaListRoundTrip(items: seq<string>)
    requires |items| >= 1
    requires forall i :: 0 <= i < |items| ==> CleanItem(items[i])
    ensures CommaList(Join(items, ',')) == items
  {
    SplitJoin(items, ',');
    TrimAllFixed(items);
    DropEmptyFixed(items);
  }

  /** Trimming clean items changes none of them. */
  lemma TrimAllFixed(items: seq<string>)
    requires forall i :: 0 <= i < |items| ==> CleanItem(items[i])
    ensures TrimAll(items) == items
  {
    forall i | 0 <= i < |items|
      ensures TrimAll(items)[i] == items[i]
    {
      TrimFixed(items[i]);
    }
  }

  /** Dropping empty items from a list that has none changes nothing. */
  lemma {:induction false} DropEmptyFixed(xs: seq<string>)
    requires forall i :: 0 <= i < |xs| ==> xs[i] != ""
    ensures DropEmpty(xs) == xs
  {
    if |xs| > 0 {
      DropEmptyFixed(xs[1..]);
      assert xs == [xs[0]] + xs[1..];
    }
  }

  datatype ProductRequest = ProductRequest(
    name: Option<string>,
    price: Option<int>,
    discountPercent: Option<int>,
    sizes: ListField,
    colors: ListField,
    addOns: seq<AddOn>,
    description: string,
    about: string,
    categoryId: Option<CategoryId>,
    hasMainImage: bool)

  datatype ProductError =
    | MissingFields       // 400 name, price, categoryId required
    | InvalidCategory     // 400 Invalid categoryId
    | MainImageRequired   // 400 mainImage is required
    | NotFound            // 404 Product not found
    | ValidationFailed    // 500: the schema refused the document on save

  /** The schema's checks on a product being saved: the (trimmed) name is
      required, the selling price is required and not negative, the discount
      lies in 0..100. */
  predicate Validates(name: string, sellingPrice: Option<int>, discount: int) {
    name != "" && sellingPrice.Some? && sellingPrice.value >= 0 && ValidDiscount(discount)
  }

  /** Saving a new product: the schema is checked first, on the fields as
      sent, and only then does the pre-save hook run. */
  function Insert(p: Product, sellingPrice: Option<int>, now: nat): (r: Result<Product, ProductError>)
    ensures r.Ok? <==> Validates(p.name, sellingPrice, p.discountPercent)
    ensures r.Err? ==> r.error == ValidationFailed
    ensures r.Ok? ==> r.value.price == r.value.sellingPrice && HasDefault(r.value.addOns)
    ensures r.Ok? && sellingPrice.value != 0 ==> r.value.sellingPrice == sellingPrice.value
  {
    if !Validates(p.name, sellingPrice, p.discountPercent) then Err(ValidationFailed)
    else Ok(PreSave(p.(sellingPrice := sellingPrice.value), now))
  }

  /** The request checks of `createProduct`, in the order the handler makes them. */
  function CreateGate(categories: set<CategoryId>, req: ProductRequest): (r: Option<ProductError>)
    ensures r.None? <==> Truthy(req.name) && TruthyNum(req.price) && Truthy(req.categoryId)
                         && req.categoryId.value in categories && req.hasMainImage
    ensures !Truthy(req.name) || !TruthyNum(req.price) || !Truthy(req.categoryId) ==> r == Some(MissingFields)
  {
    if !Truthy(req.name) || !TruthyNum(req.price) || !Truthy(req.categoryId) then Some(MissingFields)
    else if req.categoryId.value !in categories then Some(InvalidCategory)
    else if !req.hasMainImage then Some(MainImageRequired)
    else None
  }

  /** The document `createProduct` builds: the price goes into `price`, the
      selling price is left to the hook. The schema's setters trim the name
      and every size and colour. */
  function Draft(req: ProductRequest, id: ProductId, parse: string -> Option<seq<string>>): Product
    requires Truthy(req.name) && TruthyNum(req.price) && Truthy(req.categoryId)
  {
    Product(id, Trim(req.name.value), "", req.categoryId.value, 0, req.price.value, req.discountPercent.GetOr(0), 0,
            TrimAll(ParseMaybeJson(req.sizes, [], parse)), TrimAll(ParseMaybeJson(req.colors, [], parse)),
            req.addOns, req.description, req.about, true)
  }

  /** `createProduct` as written: the document is sent without a selling price. */
  function CreateProductAsWritten(categories: set<CategoryId>, req: ProductRequest, id: ProductId,
                                  now: nat, parse: string -> Option<seq<string>>): (r: Result<Product, ProductError>)
    ensures CreateGate(categories, req).Some? ==> r == Err(CreateGate(categories, req).value)
  {
    match CreateGate(categories, req)
    case Some(e) => Err(e)
    case None => Insert(Draft(req, id, parse), None, now)
  }

  /** As written, every request that passes the handler's checks is refused
      by the schema: the required selling price is checked before the hook
      could copy the price into it. */
  lemma CreateProductAsWrittenAlwaysFails(categories: set<CategoryId>, req: ProductRequest, id: ProductId,
                                          now: nat, parse: string -> Option<seq<string>>)
    requires CreateGate(categories, req).None?
    ensures CreateProductAsWritten(categories, req, id, now, parse) == Err(ValidationFailed)
  {
  }

  /** `createProduct` as intended: name, price and category are required, the
      category must exist and a main image must be supplied; the price is sent
      as the selling price, and the stored product has passed the schema and
      the pre-save hook. The name, sizes and colours are stored trimmed. */
  function CreateProduct(categories: set<CategoryId>, req: ProductRequest, id: ProductId,
                         now: nat, parse: string -> Option<seq<string>>): (r: Result<Product, ProductError>)
    ensures !Truthy(req.name) || !TruthyNum(req.price) || !Truthy(req.categoryId) ==> r == Err(MissingFields)
    ensures r.Ok? <==> Truthy(req.name) && TruthyNum(req.price) && Truthy(req.categoryId)
                       && req.categoryId.value in categories && req.hasMainImage
                       && Trim(req.name.value) != ""
                       && req.price.value >= 0 && ValidDiscount(req.discountPercent.GetOr(0))
    ensures r.Err? && r.error != MissingFields && r.error != InvalidCategory && r.error != MainImageRequired
            ==> r.error == ValidationFailed
    ensures r.Ok? ==> var p := r.value;
      && p.price == p.sellingPrice == req.price.value
      && p.discountPercent == req.discountPercent.GetOr(0)
      && p.finalPrice == FinalPrice(req.price.value, p.discountPercent)
      && 0 <= p.finalPrice <= p.price
      && p.id == id && p.name == Trim(req.name.value)
      && p.slug == MakeSlug(Trim(req.name.value), now)
      && p.category == req.categoryId.value
      && p.sizes == TrimAll(ParseMaybeJson(req.sizes, [], parse))
      && p.colors == TrimAll(ParseMaybeJson(req.colors, [], parse))
      && p.addOns == EnsureDefaultAddOn(req.addOns)
      && p.description == req.description && p.about == req.about
      && p.isActive
      && HasDefault(p.addOns)
  {
    match CreateGate(categories, req)
    case Some(e) => Err(e)
    case None => Insert(Draft(req, id, parse), Some(req.price.value), now)
  }

  datatype ProductPatch = ProductPatch(
    name: Option<string>,
    price: Option<int>,
    discountPercent: Option<int>,
    categoryId: Option<CategoryId>,
    sizes: ListField,
    colors: ListField,
    addOns: Option<seq<AddOn>>,
    description: Option<string>,
    about: Option<string>,
    isActive: Option<bool>)

  /** The field assignments of `updateProduct`, before the save hook runs.
      The name, sizes and colours pass the schema's `trim` setters; the slug
      is made from the name as sent. */
  function ApplyPatch(p: Product, patch: ProductPatch, now: nat,
                      parse: string -> Option<seq<string>>): Product {
    p.(name := if Truthy(patch.name) then Trim(patch.name.value) else p.name,
       slug := if Truthy(patch.name) then MakeSlug(patch.name.value, now) else p.slug,
       price := if TruthyNum(patch.price) then patch.price.value else p.price,
       discountPercent := patch.discountPercent.GetOr(p.discountPercent),
       category := if Truthy(patch.categoryId) then patch.categoryId.value else p.category,
       sizes := if TruthyField(patch.sizes) then TrimAll(ParseMaybeJson(patch.sizes, [], parse)) else p.sizes,
       colors := if TruthyField(patch.colors) then TrimAll(ParseMaybeJson(patch.colors, [], parse)) else p.colors,
       addOns := patch.addOns.GetOr(p.addOns),
       description := patch.description.GetOr(p.description),
       about := patch.about.GetOr(p.about),
       isActive := patch.isActive.GetOr(p.isActive))
  }

  /** The fields of `updateProduct` other than the prices, after the patch
      and the save hook: every supplied field replaces the stored one. */
  predicate PatchedFields(p: Product, patch: ProductPatch, now: nat, parse: string -> Option<seq<string>>, q: Product) {
    && q.id == p.id
    && (Truthy(patch.name) ==> q.name == Trim(patch.name.value) && q.slug == MakeSlug(patch.name.value, now))
    && (!Truthy(patch.name) ==> q.name == p.name && (p.slug != "" ==> q.slug == p.slug))
    && q.discountPercent == patch.discountPercent.GetOr(p.discountPercent)
    && q.category == (if Truthy(patch.categoryId) then patch.categoryId.value else p.category)
    && q.sizes == (if TruthyField(patch.sizes) then TrimAll(ParseMaybeJson(patch.sizes, [], parse)) else p.sizes)
    && q.colors == (if TruthyField(patch.colors) then TrimAll(ParseMaybeJson(patch.colors, [], parse)) else p.colors)
    && q.addOns == EnsureDefaultAddOn(patch.addOns.GetOr(p.addOns))
    && q.description == patch.description.GetOr(p.description)
    && q.about == patch.about.GetOr(p.about)
    && q.isActive == patch.isActive.GetOr(p.isActive)
  }

  /** `updateProduct`: only supplied fields change (a zero price counts as not
      supplied), a rename regenerates the slug, and an unknown category is
      refused. The whole document is validated before the save hook. */
  function UpdateProduct(p: Product, patch: ProductPatch, categories: set<CategoryId>, now: nat,
                         parse: string -> Option<seq<string>>): (r: Result<Product, ProductError>)
    ensures Truthy(patch.categoryId) && patch.categoryId.value !in categories ==> r == Err(InvalidCategory)
    ensures r.Ok? <==> && !(Truthy(patch.categoryId) && patch.categoryId.value !in categories)
                       && (if Truthy(patch.name) then Trim(patch.name.value) else p.name) != ""
                       && p.sellingPrice >= 0
                       && ValidDiscount(patch.discountPercent.GetOr(p.discountPercent))
    ensures r.Err? && r.error != InvalidCategory ==> r.error == ValidationFailed
    ensures r.Ok? ==> r.value == PreSave(ApplyPatch(p, patch, now, parse), now)
    ensures r.Ok? ==> var q := r.value;
      && PatchedFields(p, patch, now, parse, q)
      && q.sellingPrice == q.price == (if p.sellingPrice != 0 then p.sellingPrice
                                       else if TruthyNum(patch.price) then patch.price.value else p.price)
      && q.finalPrice == FinalPrice(q.sellingPrice, q.discountPercent)
  {
    if Truthy(patch.categoryId) && patch.categoryId.value !in categories then Err(InvalidCategory)
    else
      var q := ApplyPatch(p, patch, now, parse);
      if !Validates(q.name, Some(q.sellingPrice), q.discountPercent) then Err(ValidationFailed)
      else
        SavedPatchFields(p, patch, now, parse, q.sellingPrice);
        Ok(PreSave(q, now))
  }

  /** The corrected update: a new price also becomes the selling price, so the
      save hook keeps it. */
  function UpdateProductIntended(p: Product, patch: ProductPatch, categories: set<CategoryId>, now: nat,
                                 parse: string -> Option<seq<string>>): (r: Result<Product, ProductError>)
    ensures Truthy(patch.categoryId) && patch.categoryId.value !in categories ==> r == Err(InvalidCategory)
    ensures r.Ok? <==> && !(Truthy(patch.categoryId) && patch.categoryId.value !in categories)
                       && (if Truthy(patch.name) then Trim(patch.name.value) else p.name) != ""
                       && (if TruthyNum(patch.price) then patch.price.value else p.sellingPrice) >= 0
                       && ValidDiscount(patch.discountPercent.GetOr(p.discountPercent))
    ensures r.Err? && r.error != InvalidCategory ==> r.error == ValidationFailed
    ensures r.Ok? ==> var a := ApplyPatch(p, patch, now, parse);
      r.value == PreSave(if TruthyNum(patch.price) then a.(sellingPrice := patch.price.value) else a, now)
    ensures r.Ok? ==> var q := r.value;
      && PatchedFields(p, patch, now, parse, q)
      && (TruthyNum(patch.price) ==> q.price == q.sellingPrice == patch.price.value)
      && (!TruthyNum(patch.price) && p.sellingPrice != 0 ==> q.price == q.sellingPrice == p.sellingPrice)
      && q.finalPrice == FinalPrice(q.sellingPrice, q.discountPercent)
  {
    if Truthy(patch.categoryId) && patch.categoryId.value !in categories then Err(InvalidCategory)
    else
      var q := ApplyPatch(p, patch, now, parse);
      var q' := if TruthyNum(patch.price) then q.(sellingPrice := patch.price.value) else q;
      if !Validates(q'.name, Some(q'.sellingPrice), q'.discountPercent) then Err(ValidationFailed)
      else
        SavedPatchFields(p, patch, now, parse, q'.sellingPrice);
        Ok(PreSave(q', now))
  }

  /** The save hook leaves the patched fields as the patch set them, whatever
      selling price the document carries into it. */
  lemma SavedPatchFields(p: Product, patch: ProductPatch, now: nat, parse: string -> Option<seq<string>>,
                         sellingPrice: int)
    requires ValidDiscount(ApplyPatch(p, patch, now, parse).discountPercent)
    ensures PatchedFields(p, patch, now, parse, PreSave(ApplyPatch(p, patch, now, parse).(sellingPrice := sellingPrice), now))
  {
    var a := ApplyPatch(p, patch, now, parse).(sellingPrice := sellingPrice);
    if Truthy(patch.name) {
      assert a.slug == MakeSlug(patch.name.value, now);
      assert |a.slug| >= 1;
    }
  }

  /** What `createProduct` and `updateProduct` leave in the store: a named,
      slugged product whose positive selling price is its price, whose final
      price follows from the discount, and which has a default add-on. */
  predicate Stored(p: Product) {
    && p.name != "" && p.slug != "" && p.sellingPrice > 0 && p.price == p.sellingPrice
    && ValidDiscount(p.discountPercent) && p.finalPrice == FinalPrice(p.sellingPrice, p.discountPercent)
    && HasDefault(p.addOns)
  }

  const EmptyPatch := ProductPatch(None, None, None, None, Missing, Missing, None, None, None, None)

  /** A created product is stored in the shape the updates keep. */
  lemma CreateProductStored(categories: set<CategoryId>, req: ProductRequest, id: ProductId,
                            now: nat, parse: string -> Option<seq<string>>)
    requires CreateProduct(categories, req, id, now, parse).Ok?
    ensures Stored(CreateProduct(categories, req, id, now, parse).value)
  {
    var p := CreateProduct(categories, req, id, now, parse).value;
    assert |p.slug| >= 1;
  }

  /** An update that sends nothing changes nothing, as written and corrected. */
  lemma EmptyUpdateChangesNothing(p: Product, categories: set<CategoryId>, now: nat,
                                  parse: string -> Option<seq<string>>)
    requires Stored(p)
    ensures UpdateProduct(p, EmptyPatch, categories, now, parse) == Ok(p)
    ensures UpdateProductIntended(p, EmptyPatch, categories, now, parse) == Ok(p)
  {
    assert ApplyPatch(p, EmptyPatch, now, parse) == p;
    assert EnsureDefaultAddOn(p.addOns) == p.addOns;
  }

  /** Both updates keep a stored product in its stored shape. */
  lemma UpdateKeepsStored(p: Product, patch: ProductPatch, categories: set<CategoryId>, now: nat,
                          parse: string -> Option<seq<string>>)
    requires Stored(p)
    ensures UpdateProduct(p, patch, categories, now, parse).Ok? ==>
              Stored(UpdateProduct(p, patch, categories, now, parse).value)
    ensures UpdateProductIntended(p, patch, categories, now, parse).Ok? ==>
              Stored(UpdateProductIntended(p, patch, categories, now, parse).value)
  {
    if Truthy(patch.name) {
      assert |MakeSlug(patch.name.value, now)| >= 1;
    }
  }

  /** Saving an updated product again, with nothing sent, changes nothing. */
  lemma UpdateThenResave(p: Product, patch: ProductPatch, categories: set<CategoryId>, now: nat, later: nat,
                         parse: string -> Option<seq<string>>)
    requires Stored(p)
    ensures var r := UpdateProduct(p, patch, categories, now, parse);
      r.Ok? ==> UpdateProduct(r.value, EmptyPatch, categories, later, parse) == r
    ensures var r := UpdateProductIntended(p, patch, categories, now, parse);
      r.Ok? ==> UpdateProductIntended(r.value, EmptyPatch, categories, later, parse) == r
  {
    UpdateKeepsStored(p, patch, categories, now, parse);
    var r := UpdateProduct(p, patch, categories, now, parse);
    if r.Ok? {
      EmptyUpdateChangesNothing(r.value, categories, later, parse);
    }
    var r' := UpdateProductIntended(p, patch, categories, now, parse);
    if r'.Ok? {
      EmptyUpdateChangesNothing(r'.value, categories, later, parse);
    }
  }

  /** As written, a price change on a product whose selling price is already set
      is undone by the save hook: the stored price and final price stay as before. */
  lemma UpdatePriceIsOverwritten(p: Product, patch: ProductPatch, categories: set<CategoryId>, now: nat,
                                 parse: string -> Option<seq<string>>)
    requires Stored(p)
    requires TruthyNum(patch.price) && patch.price.value != p.sellingPrice
    requires patch.discountPercent.None? && !Truthy(patch.categoryId)
    requires Truthy(patch.name) ==> Trim(patch.name.value) != ""
    ensures UpdateProduct(p, patch, categories, now, parse).Ok?
    ensures UpdateProduct(p, patch, categories, now, parse).value.price == p.sellingPrice != patch.price.value
    ensures UpdateProduct(p, patch, categories, now, parse).value.finalPrice == FinalPrice(p.sellingPrice, p.discountPercent)
  {
  }
}

=== FILE: category.dfy ===
/**
 Product categories: created with a unique name, given a slug by the save
 hook when none is stored, updated field by field (a rename regenerates the
 slug), and deleted only while no product refers to them. A category is
 found by its slug first and then by its id.
 */
module Category {
  import opened Common
  import opened Text
  import opened Slug
  import Catalog

  type CategoryId = Catalog.CategoryId

  datatype Category = Category(
    id: CategoryId,
    name: string,
    slug: string,
    description: string,
    defaultUnit: string,
    gst: int,
    isActive: bool)

  datatype CategoryRequest = CategoryRequest(
    name: Option<string>,
    description: Option<string>,
    defaultUnit: Option<string>,
    gst: Option<int>)

  /** A value of the JSON request body, as the update handler receives its
      flag and its rate; fractions, arrays and objects are not modelled. */
  datatype JsonValue = Null | Bool(b: bool) | Num(n: int) | Text(s: string)

  /** `!!v`: null, false, 0 and the empty text are falsy, everything else is truthy. */
  predicate JsTruthy(v: JsonValue) {
    match v
    case Null => false
    case Bool(b) => b
    case Num(n) => n != 0
    case Text(s) => s != ""
  }

  /** Decimal digits after an optional sign. */
  predicate SignedDecimal(t: string) {
    if |t| > 0 && (t[0] == '-' || t[0] == '+') then |t| > 1 && AllDigits(t[1..])
    else |t| > 0 && AllDigits(t)
  }

  function SignedValue(t: string): int
    requires SignedDecimal(t)
  {
    if t[0] == '-' then 0 - DecimalValue(t[1..])
    else if t[0] == '+' then DecimalValue(t[1..])
    else DecimalValue(t)
  }

  /** `Number(v)`, with NaN as None: null and false are 0, true is 1, and a
      text is read after trimming, blank text being 0. */
  function JsNumber(v: JsonValue): (r: Option<int>)
    ensures v.Null? || v == Bool(false) ==> r == Some(0)
    ensures v == Bool(true) ==> r == Some(1)
    ensures v.Num? ==> r == Some(v.n)
    ensures v.Text? ==> (Trim(v.s) == "" ==> r == Some(0))
                        && (Trim(v.s) != "" ==> (r.Some? <==> SignedDecimal(Trim(v.s))))
  {
    match v
    case Null => Some(0)
    case Bool(b) => Some(if b then 1 else 0)
    case Num(n) => Some(n)
    case Text(s) =>
      var t := Trim(s);
      if t == "" then Some(0)
      else if SignedDecimal(t) then Some(SignedValue(t))
      else None
  }

  /** `String(n)` for an integer. */
  function IntToString(n: int): string {
    if n < 0 then "-" + NatToString(-n) else NatToString(n)
  }

  /** A number sent as its decimal text reads back as that number. */
  lemma NumberOfText(n: int)
    ensures JsNumber(Text(IntToString(n))) == Some(n)
  {
    var t := IntToString(n);
    if n < 0 {
      var d := NatToString(-n);
      assert t == "-" + d && t[1..] == d;
      assert IsDigit(d[|d| - 1]) && t[|t| - 1] == d[|d| - 1];
      TrimFixed(t);
      assert SignedDecimal(t) && SignedValue(t) == n;
    } else {
      assert t == NatToString(n);
      assert IsDigit(t[0]) && IsDigit(t[|t| - 1]);
      TrimFixed(t);
      assert SignedDecimal(t) && SignedValue(t) == n;
    }
  }

  /** The coercions the update handler applies: the text "false" is truthy
      while null and 0 are not, and a null rate reads as 0 while the text
      "abc" is not a number. */
  lemma Coercions()
    ensures JsTruthy(Text("false")) && !JsTruthy(Null) && !JsTruthy(Num(0))
    ensures JsNumber(Null) == Some(0) && JsNumber(Text("abc")) == None
  {
    var t := "abc";
    assert t[0] == 'a' && t[|t| - 1] == 'c';
    LetterNotANumber(t);
  }

  /** A text that starts with a letter is not a number. */
  lemma LetterNotANumber(s: string)
    requires |s| > 0 && 'a' <= s[0] <= 'z' && !IsSpace(s[|s| - 1])
    ensures JsNumber(Text(s)) == None
  {
    TrimFixed(s);
    assert Trim(s) == s;
    assert !IsDigit(s[0]);
    assert !SignedDecimal(s);
  }

  /** A patch of the update handler: `None` is a field left undefined, and
      the flag and the rate are the JSON values as sent. */
  datatype CategoryPatch = CategoryPatch(
    name: Option<string>,
    description: Option<string>,
    isActive: Option<JsonValue>,
    defaultUnit: Option<string>,
    gst: Option<JsonValue>)

  /** The sent rate, if any, is a number. */
  predicate GstCasts(patch: CategoryPatch) {
    patch.gst.None? || JsNumber(patch.gst.value).Some?
  }

  datatype CategoryError =
    | NameRequired    // 400 name is required
    | Exists          // 409 Category exists
    | NotFound        // 404 Not found
    | HasProducts     // 400 Category has products, cannot delete
    | ServerError     // 500: the schema or a unique index refused the save

  /** `findOne({ name })`: the first category stored under exactly this
      name. Callers pass the name trimmed, as the schema's `trim` setter
      casts the query value. */
  function FindByName(cats: seq<Category>, name: string): (r: Option<nat>)
    ensures r.Some? ==> r.value < |cats| && cats[r.value].name == name
    ensures r.None? <==> forall j :: 0 <= j < |cats| ==> cats[j].name != name
  {
    if |cats| == 0 then None
    else if cats[0].name == name then Some(0)
    else match FindByName(cats[1..], name)
      case None => None
      case Some(k) => Some(k + 1)
  }

  function FindBySlug(cats: seq<Category>, slug: string): (r: Option<nat>)
    ensures r.Some? ==> r.value < |cats| && cats[r.value].slug == slug
    ensures r.Some? ==> forall j :: 0 <= j < r.value ==> cats[j].slug != slug
    ensures r.None? <==> forall j :: 0 <= j < |cats| ==> cats[j].slug != slug
  {
    if |cats| == 0 then None
    else if cats[0].slug == slug then Some(0)
    else match FindBySlug(cats[1..], slug)
      case None => None
      case Some(k) => Some(k + 1)
  }

  function FindById(cats: seq<Category>, id: CategoryId): (r: Option<nat>)
    ensures r.Some? ==> r.value < |cats| && cats[r.value].id == id
    ensures r.None? <==> forall j :: 0 <= j < |cats| ==> cats[j].id != id
  {
    if |cats| == 0 then None
    else if cats[0].id == id then Some(0)
    else match FindById(cats[1..], id)
      case None => None
      case Some(k) => Some(k + 1)
  }

  /** `findOne({ slug }) || findById(idOrSlug)`: a slug match wins over an id match. */
  function Find(cats: seq<Category>, key: string): (r: Option<nat>)
    ensures r.Some? ==> r.value < |cats| && (cats[r.value].slug == key || cats[r.value].id == key)
    ensures FindBySlug(cats, key).Some? ==> r == FindBySlug(cats, key)
    ensures r.None? <==> forall j :: 0 <= j < |cats| ==> cats[j].slug != key && cats[j].id != key
  {
    match FindBySlug(cats, key)
    case Some(i) => Some(i)
    case None => FindById(cats, key)
  }

  /** The unique indexes on name and slug, and the required trimmed name. */
  predicate Storable(cats: seq<Category>, c: Category, skip: int) {
    c.name != ""
    && forall j :: 0 <= j < |cats| && j != skip ==> cats[j].name != c.name && cats[j].slug != c.slug && cats[j].id != c.id
  }

  /** `createCategory`: a name is required, and a category stored under
      that name, trimmed, is a conflict. The name is stored trimmed; the
      description, unit and GST default to "", "Pcs" and 0; the category is
      active, and the save hook gives it the slug of its name. The new id is
      a parameter. */
  function Create(cats: seq<Category>, req: CategoryRequest, id: CategoryId, now: nat)
    : (r: Result<seq<Category>, CategoryError>)
    ensures !Truthy(req.name) ==> r == Err(NameRequired)
    ensures Truthy(req.name) && FindByName(cats, Trim(req.name.value)).Some? ==> r == Err(Exists)
    ensures r.Ok? <==> && Truthy(req.name) && Trim(req.name.value) != ""
                       && forall j :: 0 <= j < |cats| ==> && cats[j].name != Trim(req.name.value)
                                                          && cats[j].slug != MakeSlug(Trim(req.name.value), now)
                                                          && cats[j].id != id
    ensures r.Err? && r.error != NameRequired && r.error != Exists ==> r.error == ServerError
    ensures r.Ok? ==> && Truthy(req.name) && FindByName(cats, Trim(req.name.value)).None?
                      && |r.value| == |cats| + 1 && r.value[..|cats|] == cats
                      && var c := r.value[|cats|];
                      && c.id == id && c.name == Trim(req.name.value) && c.name != ""
                      && c.slug == MakeSlug(Trim(req.name.value), now)
                      && c.description == req.description.GetOr("")
                      && c.defaultUnit == req.defaultUnit.GetOr("Pcs")
                      && c.gst == req.gst.GetOr(0)
                      && c.isActive
                      && Storable(cats, c, -1)
  {
    if !Truthy(req.name) then Err(NameRequired)
    else if FindByName(cats, Trim(req.name.value)).Some? then Err(Exists)
    else
      var name := Trim(req.name.value);
      var c := Category(id, name, AssignSlug("", name, now), req.description.GetOr(""),
                        req.defaultUnit.GetOr("Pcs"), req.gst.GetOr(0), true);
      if !Storable(cats, c, -1) then Err(ServerError)
      else Ok(cats + [c])
  }

  /** After a successful create the category is found by its slug. */
  lemma CreateThenFind(cats: seq<Category>, req: CategoryRequest, id: CategoryId, now: nat)
    requires Create(cats, req, id, now).Ok?
    ensures var s := Create(cats, req, id, now).value;
      Find(s, s[|cats|].slug) == Some(|cats|)
  {
    var s := Create(cats, req, id, now).value;
    var c := s[|cats|];
    assert s == cats + [c];
    assert Storable(cats, c, -1);
    FindLastSlug(cats, c);
  }

  /** A category appended under a slug no other holds is found by it, last. */
  lemma FindLastSlug(cats: seq<Category>, c: Category)
    requires forall j :: 0 <= j < |cats| ==> cats[j].slug != c.slug
    ensures Find(cats + [c], c.slug) == Some(|cats|)
  {
    var s := cats + [c];
    forall j | 0 <= j < |cats| ensures s[j].slug != c.slug {
      assert s[j] == cats[j];
    }
    assert s[|cats|].slug == c.slug;
  }

  /** A second create under the same name, in any padding, is a conflict. */
  lemma CreateTwiceRefused(cats: seq<Category>, req: CategoryRequest, id: CategoryId, now: nat,
                           req2: CategoryRequest, id2: CategoryId, now2: nat)
    requires Create(cats, req, id, now).Ok?
    requires Truthy(req2.name) && Trim(req2.name.value) == Trim(req.name.value)
    ensures Create(Create(cats, req, id, now).value, req2, id2, now2) == Err(Exists)
  {
    var s := Create(cats, req, id, now).value;
    assert s[|cats|].name == Trim(req2.name.value);
  }

  /** The answer to a key no category matches: the id lookup casts the key,
      and a key that cannot be an id fails with a server error instead of "Not found". */
  function Missing(key: string): (r: CategoryError)
    ensures r == NotFound <==> IsObjectId(key)
    ensures r != NotFound ==> r == ServerError
  {
    if IsObjectId(key) then NotFound else ServerError
  }

  /** `updateCategory`: a truthy name renames the category (stored trimmed)
      and regenerates its slug from the name as sent; every other field
      changes only when supplied: the flag becomes the truthiness of the sent
      value and the rate its `Number` reading. The save fails when the rate is
      not a number, or when the name would clash with another category's, or
      the slug or id would. */
  function Update(cats: seq<Category>, key: string, patch: CategoryPatch, now: nat)
    : (r: Result<seq<Category>, CategoryError>)
    ensures Find(cats, key).None? ==> r == Err(Missing(key))
    ensures Find(cats, key).Some? ==>
      var i := Find(cats, key).value; var c := cats[i];
      var name := if Truthy(patch.name) then Trim(patch.name.value) else c.name;
      var slug := if Truthy(patch.name) then MakeSlug(patch.name.value, now) else AssignSlug(c.slug, c.name, now);
      && (r.Ok? <==> && name != "" && GstCasts(patch)
                     && forall j :: 0 <= j < |cats| && j != i ==> && cats[j].name != name && cats[j].slug != slug
                                                                  && cats[j].id != c.id)
      && (r.Err? ==> r.error == ServerError)
    ensures r.Ok? ==> && Find(cats, key).Some? && |r.value| == |cats|
                      && var i := Find(cats, key).value; var c := cats[i]; var n := r.value[i];
                      && n.id == c.id
                      && (Truthy(patch.name) ==> n.name == Trim(patch.name.value)
                                                 && n.slug == MakeSlug(patch.name.value, now))
                      && (!Truthy(patch.name) ==> n.name == c.name && n.slug == AssignSlug(c.slug, c.name, now))
                      && n.description == patch.description.GetOr(c.description)
                      && n.isActive == (if patch.isActive.Some? then JsTruthy(patch.isActive.value) else c.isActive)
                      && n.defaultUnit == patch.defaultUnit.GetOr(c.defaultUnit)
                      && n.gst == (if patch.gst.Some? then JsNumber(patch.gst.value).value else c.gst)
                      && forall j :: 0 <= j < |cats| && j != i ==> r.value[j] == cats[j]
  {
    match Find(cats, key)
    case None => Err(Missing(key))
    case Some(i) =>
      if !GstCasts(patch) then Err(ServerError)
      else
      var n := Edited(cats[i], patch, now);
      if !Storable(cats, n, i) then Err(ServerError)
      else Ok(cats[i := n])
  }

  /** The category `updateCategory` saves: the patch applied, then the save hook. */
  function Edited(c: Category, patch: CategoryPatch, now: nat): (n: Category)
    requires GstCasts(patch)
    ensures n.id == c.id
    ensures n.name == (if Truthy(patch.name) then Trim(patch.name.value) else c.name)
    ensures n.slug == (if Truthy(patch.name) then MakeSlug(patch.name.value, now) else AssignSlug(c.slug, c.name, now))
    ensures n.description == patch.description.GetOr(c.description)
    ensures n.isActive == (if patch.isActive.Some? then JsTruthy(patch.isActive.value) else c.isActive)
    ensures n.defaultUnit == patch.defaultUnit.GetOr(c.defaultUnit)
    ensures n.gst == (if patch.gst.Some? then JsNumber(patch.gst.value).value else c.gst)
  {
    var n := c.(name := if Truthy(patch.name) then Trim(patch.name.value) else c.name,
                slug := if Truthy(patch.name) then MakeSlug(patch.name.value, now) else c.slug,
                description := patch.description.GetOr(c.description),
                isActive := if patch.isActive.Some? then JsTruthy(patch.isActive.value) else c.isActive,
                defaultUnit := patch.defaultUnit.GetOr(c.defaultUnit),
                gst := if patch.gst.Some? then JsNumber(patch.gst.value).value else c.gst);
    assert Truthy(patch.name) ==> |n.slug| >= 1;
    AssignSlugOf(n, now)
  }

  /** The save hook on an existing category: it keeps a stored slug. */
  function AssignSlugOf(c: Category, now: nat): (r: Category)
    ensures c.slug != "" ==> r == c
  {
    c.(slug := AssignSlug(c.slug, c.name, now))
  }

  /** An empty patch leaves a category that has a slug as it was. */
  lemma EmptyPatchChangesNothing(cats: seq<Category>, key: string, now: nat)
    requires Update(cats, key, CategoryPatch(None, None, None, None, None), now).Ok?
    requires cats[Find(cats, key).value].slug != ""
    ensures Update(cats, key, CategoryPatch(None, None, None, None, None), now).value == cats
  {
    var i := Find(cats, key).value;
    var r := Update(cats, key, CategoryPatch(None, None, None, None, None), now).value;
    assert r[i] == cats[i];
  }

  /** Whether any product refers to the category. */
  predicate InUse(products: map<Catalog.ProductId, Catalog.Product>, id: CategoryId) {
    exists p :: p in products && products[p].category == id
  }

  /** `deleteCategory`: a category some product refers to is kept; otherwise
      exactly that entry is removed. */
  function Delete(cats: seq<Category>, products: map<Catalog.ProductId, Catalog.Product>, key: string)
    : (r: Result<seq<Category>, CategoryError>)
    ensures Find(cats, key).None? ==> r == Err(Missing(key))
    ensures Find(cats, key).Some? ==> (r == Err(HasProducts) <==> InUse(products, cats[Find(cats, key).value].id))
    ensures r.Ok? <==> Find(cats, key).Some? && !InUse(products, cats[Find(cats, key).value].id)
    ensures r.Ok? ==> && Find(cats, key).Some?
                      && var i := Find(cats, key).value;
                      && !InUse(products, cats[i].id) && r.value == cats[..i] + cats[i + 1..]
  {
    match Find(cats, key)
    case None => Err(Missing(key))
    case Some(i) =>
      if InUse(products, cats[i].id) then Err(HasProducts)
      else Ok(cats[..i] + cats[i + 1..])
  }

  /** Every product's category is stored. */
  predicate CategoriesResolve(cats: seq<Category>, products: map<Catalog.ProductId, Catalog.Product>) {
    forall p :: p in products ==> exists j :: 0 <= j < |cats| && cats[j].id == products[p].category
  }

  predicate IdsUnique(cats: seq<Category>) {
    forall i, j :: 0 <= i < j < |cats| ==> cats[i].id != cats[j].id
  }

  /** The delete guard keeps every product's category resolvable. */
  lemma DeleteKeepsReferences(cats: seq<Category>, products: map<Catalog.ProductId, Catalog.Product>, key: string)
    requires IdsUnique(cats) && CategoriesResolve(cats, products)
    requires Delete(cats, products, key).Ok?
    ensures CategoriesResolve(Delete(cats, products, key).value, products)
  {
    var i := Find(cats, key).value;
    var r := Delete(cats, products, key).value;
    forall p | p in products
      ensures exists j :: 0 <= j < |r| && r[j].id == products[p].category
    {
      var j :| 0 <= j < |cats| && cats[j].id == products[p].category;
      assert j != i;
      RemoveAtShift(cats, i, j);
      var k := if j < i then j else j - 1;
      assert r[k].id == products[p].category;
    }
  }

  /** Removing the entry at `i` moves the entry at `j` to the returned position. */
  lemma RemoveAtShift(cats: seq<Category>, i: nat, j: nat)
    requires i < |cats| && j < |cats| && j != i
    ensures var k := if j < i then j else j - 1;
      k < |cats| - 1 && (cats[..i] + cats[i + 1..])[k] == cats[j]
  {
  }

  /** `listCategories`: the active categories. */
  function ListActive(cats: seq<Category>): (r: seq<Category>)
    ensures forall c :: c in r <==> c in cats && c.isActive
    ensures |r| <= |cats|
  {
    if |cats| == 0 then []
    else (if cats[0].isActive then [cats[0]] else []) + ListActive(cats[1..])
  }
}

=== FILE: checkout_cart.dfy ===
/**
 The signed-in checkout path: an order built from the user's saved cart,
 shipped to one of the user's saved addresses. Each line is priced at the
 product's final price plus the line's add-on price; an offer code that is
 sent must name an active, unexpired offer whose minimum the subtotal meets,
 or the order is refused. The percentage discount is rounded first and then
 capped; a flat discount is taken as it is, with no cap and no clamp.
 */
module CartCheckout {
  import opened Common
  import Text
  import Catalog
  import Offers
  import opened Orders
  import Carts
  import Users

  /** One order line from a cart line: the unit price already includes the add-on. */
  function LineOf(p: Catalog.Product, it: Carts.CartItem): OrderItem {
    OrderItem(it.product, p.name, p.finalPrice + it.addOnPrice, it.quantity, it.size, it.color, Some(it.addOnName))
  }

  /** The order lines of a cart whose products all exist, in cart order. */
  function CartLines(products: map<Catalog.ProductId, Catalog.Product>, items: seq<Carts.CartItem>): (r: seq<OrderItem>)
    requires Carts.AllPresent(products, items)
    ensures |r| == |items|
    ensures forall i :: 0 <= i < |items| ==> r[i] == LineOf(products[items[i].product], items[i])
  {
    if |items| == 0 then []
    else [LineOf(products[items[0].product], items[0])] + CartLines(products, items[1..])
  }

  /** The order's lines add up to the cart's amount: what the customer is
      charged is what the lines say, add-ons included. */
  lemma {:induction false} CartLinesTotal(products: map<Catalog.ProductId, Catalog.Product>, items: seq<Carts.CartItem>)
    requires Carts.AllPresent(products, items)
    ensures LinesTotal(CartLines(products, items)) == Carts.CartAmount(products, items)
  {
    if |items| > 0 {
      var first := LineOf(products[items[0].product], items[0]);
      var rest := CartLines(products, items[1..]);
      assert CartLines(products, items) == [first] + rest;
      CartLinesTotal(products, items[1..]);
      LinesTotalAppend([first], rest);
      LinesTotalSingle(first);
      assert first.productPrice * first.quantity == Carts.LineAmount(products[items[0].product], items[0]);
    }
  }

  /** The cart path's offer query: the code (not upper-cased), active, and no
      end date in the past. The query lists the start-date condition too, but under the
      same key as the end-date condition, which replaces it. */
  predicate CartMatches(o: Offers.Offer, code: string, now: int) {
    o.code == code && o.isActive && !(o.endDate.Some? && o.endDate.value < now)
  }

  function CartOffer(offers: seq<Offers.Offer>, code: string, now: int): (r: Option<Offers.Offer>)
    ensures r.Some? ==> r.value in offers && CartMatches(r.value, code, now)
    ensures r.None? <==> forall i :: 0 <= i < |offers| ==> !CartMatches(offers[i], code, now)
  {
    if |offers| == 0 then None
    else if CartMatches(offers[0], code, now) then Some(offers[0])
    else CartOffer(offers[1..], code, now)
  }

  /** The cart path's discount: a percentage of the subtotal rounded to the
      nearest rupee and then capped when a cap is set; a flat value as it is. */
  function CartDiscount(o: Offers.Offer, subtotal: int): (r: int)
    ensures o.discountType == Offers.Percentage ==>
      var d := RoundDiv(subtotal * o.discountValue, 100);
      (o.maxDiscountAmount > 0 ==> r <= o.maxDiscountAmount && (r == d || r == o.maxDiscountAmount) && r <= d)
      && (o.maxDiscountAmount <= 0 ==> 200 * r <= 2 * subtotal * o.discountValue + 100 < 200 * r + 200)
    ensures o.discountType == Offers.Flat ==> r == o.discountValue
  {
    if o.discountType == Offers.Percentage then
      var d := RoundDiv(subtotal * o.discountValue, 100);
      if o.maxDiscountAmount > 0 then Min(d, o.maxDiscountAmount) else d
    else o.discountValue
  }

  datatype CartOrderRequest = CartOrderRequest(
    addressId: Option<string>,
    paymentMethod: Option<string>,
    offerCode: Option<string>)

  datatype CartOrderError =
    | AddressRequired       // 400 Shipping address is required
    | UserNotFound          // 404 User not found
    | AddressNotFound       // 404 Address not found
    | CartEmpty             // 400 Cart is empty
    | ProductUnavailable    // 400 Product ... is not available
    | InvalidOffer          // 400 Invalid or expired offer code
    | MinimumNotMet         // 400 Minimum order amount required
    | Validation            // schema failure at create (500)

  /** The delivery address copied from a saved address by `toObject()`: the
      fields the order's address declares are kept, the saved address has no
      email, and the id, type and default flag are dropped by the schema. */
  function ShippingOf(a: Users.Address): (r: ShippingAddress)
    ensures && r.name == a.name && r.phone == a.phone && r.addressLine1 == a.addressLine1
            && r.addressLine2 == a.addressLine2 && r.city == a.city && r.state == a.state
            && r.pincode == a.pincode && r.country == Some(a.country) && r.email.None?
    ensures Stored(r) == r
    ensures ShippingValid(r) <==> && a.name != "" && a.phone != "" && a.addressLine1 != ""
                                  && a.city != "" && a.state != "" && a.pincode != ""
    ensures Users.ValidAddress(a) ==> ShippingValid(r)
  {
    ShippingAddress(a.name, a.phone, None, a.addressLine1, a.addressLine2, a.city, a.state, a.pincode,
                    Some(a.country))
  }

  /** The discount the cart path grants, or the error it answers with. The
      schema's `trim` setter casts the query's code, so the code is looked up
      trimmed. */
  function OfferDiscount(offers: seq<Offers.Offer>, code: Option<string>, subtotal: int, now: int): (r: Result<int, CartOrderError>)
    ensures !Truthy(code) ==> r == Ok(0)
    ensures Truthy(code) ==> var f := CartOffer(offers, Text.Trim(code.value), now);
      && (f.None? <==> r == Err(InvalidOffer))
      && (r == Err(MinimumNotMet) <==> f.Some? && subtotal < f.value.minOrderAmount)
      && (r.Ok? ==> f.Some? && r.value == CartDiscount(f.value, subtotal))
  {
    if !Truthy(code) then Ok(0)
    else match CartOffer(offers, Text.Trim(code.value), now)
      case None => Err(InvalidOffer)
      case Some(o) =>
        if subtotal < o.minOrderAmount then Err(MinimumNotMet)
        else Ok(CartDiscount(o, subtotal))
  }

  /** The signed-in `placeOrder`. Checks run in this order: address id sent,
      user exists, address is the user's, cart non-empty, every product
      present and active, offer valid and its minimum met. The order records
      the code exactly as sent, the payment method defaulting to "COD", and
      the total subtotal - discount; the user's cart is then emptied and no
      other cart changes. */
  function PlaceCartOrder(users: map<Users.UserId, Users.User>, carts: map<Carts.UserId, Carts.Cart>,
                          products: map<Catalog.ProductId, Catalog.Product>, offers: seq<Offers.Offer>,
                          user: UserId, req: CartOrderRequest, now: int, orderId: OrderId)
    : (r: Result<(Order, map<Carts.UserId, Carts.Cart>), CartOrderError>)
    ensures !Truthy(req.addressId) ==> r == Err(AddressRequired)
    ensures Truthy(req.addressId) && user !in users ==> r == Err(UserNotFound)
    ensures (Truthy(req.addressId) && user in users
             && Users.FindAddress(users[user].addresses, req.addressId.value).None?) ==> r == Err(AddressNotFound)
    ensures (Truthy(req.addressId) && user in users
             && Users.FindAddress(users[user].addresses, req.addressId.value).Some?
             && (user !in carts || |carts[user].items| == 0)) ==> r == Err(CartEmpty)
    ensures (Truthy(req.addressId) && user in users
             && Users.FindAddress(users[user].addresses, req.addressId.value).Some?
             && user in carts && |carts[user].items| > 0) ==>
      var items := carts[user].items;
      && (!Carts.AllAvailable(products, items) ==> r == Err(ProductUnavailable))
      && (Carts.AllAvailable(products, items) ==>
           var d := OfferDiscount(offers, req.offerCode, Carts.CartAmount(products, items), now);
           var a := users[user].addresses[Users.FindAddress(users[user].addresses, req.addressId.value).value];
           && (d.Err? ==> r == Err(d.error))
           && (d.Ok? ==> (r.Ok? <==> ItemsValid(CartLines(products, items)) && ShippingValid(ShippingOf(a))))
           && (d.Ok? && r.Err? ==> r == Err(Validation)))
    ensures r.Ok? ==> && Truthy(req.addressId) && user in users
                      && Users.FindAddress(users[user].addresses, req.addressId.value).Some?
                      && user in carts && |carts[user].items| > 0
                      && Carts.AllAvailable(products, carts[user].items)
    ensures r.Ok? ==> var o := r.value.0; var items := carts[user].items;
      && o.userId == user
      && o.items == CartLines(products, items)
      && o.subtotal == Carts.CartAmount(products, items) == LinesTotal(o.items)
      && OfferDiscount(offers, req.offerCode, o.subtotal, now) == Ok(o.discount)
      && o.total == o.subtotal - o.discount
      && o.offerCode == req.offerCode
      && o.paymentMethod == req.paymentMethod.GetOr("COD")
      && o.status == Pending && o.paymentStatus == PaymentPending
      && o.shippingAddress
         == ShippingOf(users[user].addresses[Users.FindAddress(users[user].addresses, req.addressId.value).value])
      && ItemsValid(o.items) && ShippingValid(o.shippingAddress)
    ensures r.Ok? ==> var c := r.value.1;
      && c.Keys == carts.Keys
      && c[user].items == [] && c[user].totalItems == 0 && c[user].totalAmount == 0
      && forall u :: u in carts && u != user ==> c[u] == carts[u]
  {
    if !Truthy(req.addressId) then Err(AddressRequired)
    else if user !in users then Err(UserNotFound)
    else match Users.FindAddress(users[user].addresses, req.addressId.value)
      case None => Err(AddressNotFound)
      case Some(k) =>
        if user !in carts || |carts[user].items| == 0 then Err(CartEmpty)
        else
          var items := carts[user].items;
          if !Carts.AllAvailable(products, items) then Err(ProductUnavailable)
          else
            var lines := CartLines(products, items);
            var subtotal := Carts.CartAmount(products, items);
            CartLinesTotal(products, items);
            match OfferDiscount(offers, req.offerCode, subtotal, now)
            case Err(e) => Err(e)
            case Ok(discount) =>
              var ship := ShippingOf(users[user].addresses[k]);
              if !ItemsValid(lines) || !ShippingValid(ship) then Err(Validation)
              else
                var o := Order(orderId, user, lines, subtotal, discount, subtotal - discount, req.offerCode,
                               Pending, PaymentPending, req.paymentMethod.GetOr("COD"), ship);
                Ok((o, Carts.ClearCart(carts, user).value))
  }

  /** An offer whose start date is still ahead is applied all the same: only
      the end date is consulted. */
  lemma NotStartedOfferAccepted(o: Offers.Offer, subtotal: int, now: int)
    requires o.isActive && o.startDate == Some(now + 1) && o.endDate.None?
    requires o.code != "" && Text.Trim(o.code) == o.code && o.minOrderAmount <= subtotal
    ensures CartOffer([o], o.code, now) == Some(o)
    ensures OfferDiscount([o], Some(o.code), subtotal, now) == Ok(CartDiscount(o, subtotal))
  {
  }

  /** A flat offer worth more than the subtotal leaves an order with a negative total. */
  lemma NegativeTotal(users: map<Users.UserId, Users.User>, carts: map<Carts.UserId, Carts.Cart>,
                      products: map<Catalog.ProductId, Catalog.Product>, offers: seq<Offers.Offer>,
                      user: UserId, req: CartOrderRequest, now: int, orderId: OrderId)
    requires PlaceCartOrder(users, carts, products, offers, user, req, now, orderId).Ok?
    requires Truthy(req.offerCode)
    requires var f := CartOffer(offers, Text.Trim(req.offerCode.value), now);
      f.Some? && f.value.discountType == Offers.Flat
      && f.value.discountValue > Carts.CartAmount(products, carts[user].items)
    ensures PlaceCartOrder(users, carts, products, offers, user, req, now, orderId).value.0.total < 0
  {
  }

  /** Without an offer code there is no discount and the total is the cart's amount. */
  lemma NoCodeFullPrice(users: map<Users.UserId, Users.User>, carts: map<Carts.UserId, Carts.Cart>,
                        products: map<Catalog.ProductId, Catalog.Product>, offers: seq<Offers.Offer>,
                        user: UserId, req: CartOrderRequest, now: int, orderId: OrderId)
    requires PlaceCartOrder(users, carts, products, offers, user, req, now, orderId).Ok?
    requires !Truthy(req.offerCode)
    ensures var o := PlaceCartOrder(users, carts, products, offers, user, req, now, orderId).value.0;
      o.discount == 0 && o.total == Carts.CartAmount(products, carts[user].items)
  {
  }
}

=== FILE: checkout_compare.dfy ===
/**
 The three checkout paths side by side. Each is modelled on its own; the
 lemmas here say where they agree and where they part: add-on prices, the
 cap on flat discounts, the clamp at zero, the minimum-order rule, the start
 date, and whether an offer is applied at all.
 */
module CheckoutCompare {
  import opened Common
  import opened Text
  import Catalog
  import Offers
  import opened Orders
  import Carts
  import Users
  import PublicCheckout
  import CartCheckout
  import Payments

  /** A cart line sent to the public path as a request line. */
  function RequestOf(it: Carts.CartItem): PublicCheckout.RequestItem {
    PublicCheckout.RequestItem(it.product, Some(it.quantity), it.size, it.color, Some(it.addOnName))
  }

  function RequestsOf(items: seq<Carts.CartItem>): (r: seq<PublicCheckout.RequestItem>)
    ensures |r| == |items|
    ensures forall i :: 0 <= i < |items| ==> r[i] == RequestOf(items[i])
  {
    if |items| == 0 then [] else [RequestOf(items[0])] + RequestsOf(items[1..])
  }

  /** The public path prices a cart's lines exactly as the payment path records
      them: the final price, add-on left out. */
  lemma {:induction false} PublicLinesArePaymentLines(products: map<Catalog.ProductId, Catalog.Product>, items: seq<Carts.CartItem>)
    requires Carts.AllPresent(products, items) && Carts.QuantitiesValid(items)
    ensures PublicCheckout.BuildLines(products, RequestsOf(items)) == Ok(Payments.PaymentLines(products, items))
  {
    if |items| > 0 {
      PublicLinesArePaymentLines(products, items[1..]);
      assert RequestsOf(items)[1..] == RequestsOf(items[1..]);
    }
  }

  /** So the public subtotal of a cart's lines is the cart's amount less its add-ons,
      and equals it when no line has a paid add-on. */
  lemma PublicSubtotalOmitsAddOns(products: map<Catalog.ProductId, Catalog.Product>, items: seq<Carts.CartItem>)
    requires Carts.AllPresent(products, items) && Carts.QuantitiesValid(items)
    ensures PublicCheckout.BuildLines(products, RequestsOf(items)).Ok?
    ensures LinesTotal(PublicCheckout.BuildLines(products, RequestsOf(items)).value)
            == Carts.CartAmount(products, items) - Payments.AddOnAmount(items)
  {
    PublicLinesArePaymentLines(products, items);
    Payments.PaymentLinesShortfall(products, items);
  }

  /** Without an offer the signed-in checkout and the online payment charge the
      same amount, which is what the cart total shows. */
  lemma CartAndPaymentAgreeWithoutOffer(users: map<Users.UserId, Users.User>, carts: map<Carts.UserId, Carts.Cart>,
                                        products: map<Catalog.ProductId, Catalog.Product>, offers: seq<Offers.Offer>,
                                        user: UserId, req: CartCheckout.CartOrderRequest, now: int, id1: OrderId,
                                        hmac: string -> string, pay: Payments.PaymentRequest, id2: OrderId)
    requires CartCheckout.PlaceCartOrder(users, carts, products, offers, user, req, now, id1).Ok?
    requires !Truthy(req.offerCode)
    requires Payments.VerifyPayment(hmac, carts, products, user, pay, id2).Ok?
    ensures CartCheckout.PlaceCartOrder(users, carts, products, offers, user, req, now, id1).value.0.total
            == Payments.VerifyPayment(hmac, carts, products, user, pay, id2).value.0.total
            == Carts.GetCartTotal(carts, user, products).value.totalAmount
  {
  }

  /** A percentage offer with a cap gives the same discount on both offer-taking
      paths: capping the exact amount and then rounding equals rounding and then
      capping. */
  lemma PercentageDiscountsAgree(o: Offers.Offer, subtotal: int)
    requires o.discountType == Offers.Percentage && o.maxDiscountAmount >= 0
    requires PublicCheckout.Eligible(Some(o), subtotal)
    ensures PublicCheckout.ApplyOffer(Some(o), subtotal).discount == CartCheckout.CartDiscount(o, subtotal)
  {
    var exact := subtotal * o.discountValue;
    var cap := o.maxDiscountAmount;
    if cap > 0 {
      assert RoundDiv(100 * cap, 100) == cap;
      if exact > 100 * cap {
        RoundDivMonotone(100 * cap, exact, 100);
      } else {
        RoundDivMonotone(exact, 100 * cap, 100);
      }
    }
  }

  /** A flat offer above its cap: the public path gives the cap, the signed-in path the full value. */
  lemma FlatCapDiffers(o: Offers.Offer, subtotal: int)
    requires o.discountType == Offers.Flat && 0 < o.maxDiscountAmount < o.discountValue
    requires PublicCheckout.Eligible(Some(o), subtotal)
    ensures PublicCheckout.ApplyOffer(Some(o), subtotal).discount == o.maxDiscountAmount
    ensures CartCheckout.CartDiscount(o, subtotal) == o.discountValue
    ensures PublicCheckout.ApplyOffer(Some(o), subtotal).discount < CartCheckout.CartDiscount(o, subtotal)
  {
  }

  /** A flat offer worth more than a non-negative subtotal: the public total is
      clamped to 0, the signed-in total goes negative. */
  lemma ClampDiffers(o: Offers.Offer, subtotal: int)
    requires o.discountType == Offers.Flat && o.maxDiscountAmount == 0
    requires 0 <= subtotal < o.discountValue
    requires PublicCheckout.Eligible(Some(o), subtotal)
    ensures PublicCheckout.ApplyOffer(Some(o), subtotal).total == 0
    ensures subtotal - CartCheckout.CartDiscount(o, subtotal) < 0
  {
  }

  /** A subtotal under a positive minimum: the public path ignores the offer, the signed-in path refuses the order. */
  lemma MinimumDiffers(offers: seq<Offers.Offer>, code: string, subtotal: int, now: int)
    requires code != "" && Trim(code) == code
    requires var f := CartCheckout.CartOffer(offers, code, now);
      f.Some? && 0 < subtotal < f.value.minOrderAmount
    ensures PublicCheckout.ApplyOffer(CartCheckout.CartOffer(offers, code, now), subtotal) == PublicCheckout.Pricing(0, subtotal)
    ensures CartCheckout.OfferDiscount(offers, Some(code), subtotal, now) == Err(CartCheckout.MinimumNotMet)
  {
  }

  /** An upper-case code of an active offer that starts tomorrow and never ends:
      the public path drops it, the signed-in path applies it. */
  lemma StartDateDiffers(o: Offers.Offer, now: int)
    requires o.code != "" && ToUpper(o.code) == o.code && Trim(o.code) == o.code
    requires o.isActive && o.startDate == Some(now + 1) && o.endDate.None?
    ensures PublicCheckout.WindowedOffer([o], Some(o.code), now).None?
    ensures CartCheckout.CartOffer([o], o.code, now) == Some(o)
  {
    assert Offers.StoredCode(o.code) == o.code;
    assert Offers.FindActive([o], o.code) == Some(o);
  }

  /** The code is matched differently: the public path upper-cases it, the
      signed-in path does not, so a lower-case spelling of a stored code only
      works on the public path. */
  lemma CodeCaseDiffers(o: Offers.Offer, now: int)
    requires o.code == "AB" && o.isActive && Offers.InWindow(o, now)
    ensures PublicCheckout.WindowedOffer([o], Some("ab"), now) == Some(o)
    ensures CartCheckout.CartOffer([o], "ab", now).None?
  {
    Offers.StoredCodeAB();
    assert Offers.FindActive([o], "AB") == Some(o);
    assert "ab" != "AB" by {
      assert "ab"[0] != "AB"[0];
    }
  }
}

=== FILE: checkout_public.dfy ===
/**
 The public checkout path: an order built from a list of requested lines,
 priced at each product's final price (add-ons ignored), with an optional
 offer that is silently dropped when it is unknown, inactive or outside its
 window, and a discount clamped so that the total never goes negative.

 The discount is computed exactly in hundredths of a rupee and each of
 discount and total is rounded on its own, as the handler rounds the two
 separately.
 */
module PublicCheckout {
  import opened Common
  import opened Text
  import Catalog
  import Offers
  import opened Orders

  datatype Pricing = Pricing(discount: int, total: int)

  /** The minimum-order rule: a non-zero minimum above the subtotal disqualifies the offer. */
  predicate Eligible(offer: Option<Offers.Offer>, subtotal: int) {
    offer.Some? && !(offer.value.minOrderAmount != 0 && subtotal < offer.value.minOrderAmount)
  }

  /** The uncapped discount in hundredths: subtotal x value for a percentage,
      the value itself for a flat offer. */
  function RawDiscount100(o: Offers.Offer, subtotal: int): int {
    if o.discountType == Offers.Percentage then subtotal * o.discountValue else 100 * o.discountValue
  }

  /** The discount in hundredths after a non-zero cap, which applies to both kinds. */
  function Discount100(o: Offers.Offer, subtotal: int): (r: int)
    ensures r <= RawDiscount100(o, subtotal)
    ensures r == RawDiscount100(o, subtotal) || r == 100 * o.maxDiscountAmount
    ensures o.maxDiscountAmount == 0 ==> r == RawDiscount100(o, subtotal)
    ensures o.maxDiscountAmount > 0 ==> r <= 100 * o.maxDiscountAmount
  {
    var d := RawDiscount100(o, subtotal);
    if o.maxDiscountAmount != 0 && d > 100 * o.maxDiscountAmount then 100 * o.maxDiscountAmount else d
  }

  /** `applyOffer`: no offer, or an offer whose minimum is not met, leaves the
      subtotal untouched; otherwise the discount is the capped exact discount
      rounded to the nearest rupee, and the total is the subtotal minus the
      exact discount, clamped at zero and rounded. */
  function ApplyOffer(offer: Option<Offers.Offer>, subtotal: int): (r: Pricing)
    ensures !Eligible(offer, subtotal) ==> r == Pricing(0, subtotal)
    ensures Eligible(offer, subtotal) ==> r.total >= 0
    ensures Eligible(offer, subtotal) ==> var d := Discount100(offer.value, subtotal);
      && 200 * r.discount <= 2 * d + 100 < 200 * r.discount + 200
      && (d <= 100 * subtotal ==> 200 * r.total <= 2 * (100 * subtotal - d) + 100 < 200 * r.total + 200)
      && (d >= 100 * subtotal ==> r.total == 0)
    ensures Eligible(offer, subtotal) && offer.value.maxDiscountAmount > 0 ==> r.discount <= offer.value.maxDiscountAmount
  {
    if !Eligible(offer, subtotal) then Pricing(0, subtotal)
    else
      var d := Discount100(offer.value, subtotal);
      var r := Pricing(RoundDiv(d, 100), RoundDiv(Max(0, 100 * subtotal - d), 100));
      var cap := offer.value.maxDiscountAmount;
      assert cap > 0 ==> r.discount <= cap by {
        if cap > 0 {
          RoundDivMonotone(d, 100 * cap, 100);
        }
      }
      r
  }

  /** With no offer the discount is 0 and the total is the subtotal. */
  lemma NoOfferNoDiscount(subtotal: int)
    ensures ApplyOffer(None, subtotal) == Pricing(0, subtotal)
  {
  }

  /** A minimum of 0 means no minimum; a positive minimum above the subtotal means no discount. */
  lemma MinimumRule(o: Offers.Offer, subtotal: int)
    ensures o.minOrderAmount == 0 ==> Eligible(Some(o), subtotal)
    ensures o.minOrderAmount > 0 && subtotal < o.minOrderAmount ==> ApplyOffer(Some(o), subtotal) == Pricing(0, subtotal)
  {
  }

  /** A percentage offer without a cap gives the nearest rupee to subtotal x value / 100;
      a flat offer within its cap gives exactly its value. */
  lemma DiscountKinds(o: Offers.Offer, subtotal: int)
    requires Eligible(Some(o), subtotal)
    ensures o.discountType == Offers.Percentage && o.maxDiscountAmount == 0 ==>
      var p := ApplyOffer(Some(o), subtotal);
      200 * p.discount <= 2 * subtotal * o.discountValue + 100 < 200 * p.discount + 200
    ensures o.discountType == Offers.Flat && (o.maxDiscountAmount == 0 || o.discountValue <= o.maxDiscountAmount) ==>
      ApplyOffer(Some(o), subtotal).discount == o.discountValue
  {
  }

  /** Over subtotals that all qualify, a larger subtotal never gives a smaller total. */
  lemma TotalMonotone(o: Offers.Offer, s1: int, s2: int)
    requires Eligible(Some(o), s1) && Eligible(Some(o), s2)
    requires s1 <= s2 && 0 <= o.discountValue <= 100
    ensures ApplyOffer(Some(o), s1).total <= ApplyOffer(Some(o), s2).total
  {
    RemainderMonotone(o, s1, s2);
    RoundDivMonotone(Max(0, 100 * s1 - Discount100(o, s1)), Max(0, 100 * s2 - Discount100(o, s2)), 100);
  }

  /** What is left to pay, in hundredths, grows with the subtotal when the rate is at most 100%. */
  lemma RemainderMonotone(o: Offers.Offer, s1: int, s2: int)
    requires s1 <= s2 && 0 <= o.discountValue <= 100
    ensures 100 * s1 - Discount100(o, s1) <= 100 * s2 - Discount100(o, s2)
  {
    if o.discountType == Offers.Percentage {
      var v := o.discountValue;
      MulMonotone(v, s1, s2);
      MulMonotone(100 - v, s1, s2);
      assert (100 - v) * s1 == 100 * s1 - s1 * v;
      assert (100 - v) * s2 == 100 * s2 - s2 * v;
    }
  }

  /** Separate rounding: a 50% offer on a subtotal of 1 gives a discount of 1
      and a total of 1, which add up to 2. */
  lemma SeparateRoundingExample(o: Offers.Offer)
    requires o.discountType == Offers.Percentage && o.discountValue == 50
    requires o.minOrderAmount == 0 && o.maxDiscountAmount == 0
    ensures ApplyOffer(Some(o), 1) == Pricing(1, 1)
  {
  }

  /** A 20% offer capped at 500 on a subtotal of 10000 gives 500 off and 9500 to pay. */
  lemma CappedPercentageExample(o: Offers.Offer)
    requires o.discountType == Offers.Percentage && o.discountValue == 20
    requires o.minOrderAmount == 0 && o.maxDiscountAmount == 500
    ensures ApplyOffer(Some(o), 10000) == Pricing(500, 9500)
  {
  }

  /** A flat offer larger than the subtotal gives a total of 0, never a negative one. */
  lemma FlatClampExample(o: Offers.Offer)
    requires o.discountType == Offers.Flat && o.discountValue == 150
    requires o.minOrderAmount == 0 && o.maxDiscountAmount == 0
    ensures ApplyOffer(Some(o), 100) == Pricing(150, 0)
  {
  }

  /** One requested line. */
  datatype RequestItem = RequestItem(
    productId: Catalog.ProductId,
    quantity: Option<int>,
    size: Option<string>,
    color: Option<string>,
    addOnName: Option<string>)

  datatype PublicOrderRequest = PublicOrderRequest(
    userId: string,
    items: Option<seq<RequestItem>>,
    shippingAddress: Option<ShippingAddress>,
    offerCode: Option<string>,
    paymentMethod: Option<string>)

  datatype PublicOrderError =
    | ItemsRequired          // 400 userId and items are required
    | InvalidShipping        // 400 shippingAddress is invalid
    | InvalidProduct(id: Catalog.ProductId)  // 400 Invalid productId
    | Validation             // schema failure at create (500)

  /** `Number(item.quantity || 1)`: an absent or zero quantity counts as 1. */
  function Qty(it: RequestItem): (r: int)
    ensures TruthyNum(it.quantity) ==> r == it.quantity.value
    ensures !TruthyNum(it.quantity) ==> r == 1
  {
    if TruthyNum(it.quantity) then it.quantity.value else 1
  }

  /** The order lines: each priced at its product's final price, the add-on
      recorded by name only. The first unknown product rejects the lot. */
  function BuildLines(products: map<Catalog.ProductId, Catalog.Product>, items: seq<RequestItem>): (r: Result<seq<OrderItem>, PublicOrderError>)
    ensures r.Ok? <==> forall i :: 0 <= i < |items| ==> items[i].productId in products
    ensures r.Err? ==> exists i :: 0 <= i < |items| && items[i].productId !in products && r.error == InvalidProduct(items[i].productId)
    ensures r.Ok? ==> |r.value| == |items|
    ensures r.Ok? ==> forall i :: 0 <= i < |items| ==>
      var p := products[items[i].productId];
      && r.value[i].product == items[i].productId
      && r.value[i].productName == p.name
      && r.value[i].productPrice == p.finalPrice
      && r.value[i].quantity == Qty(items[i])
      && r.value[i].addOnName == items[i].addOnName
  {
    if |items| == 0 then Ok([])
    else if items[0].productId !in products then Err(InvalidProduct(items[0].productId))
    else
      var p := products[items[0].productId];
      var line := OrderItem(items[0].productId, p.name, p.finalPrice, Qty(items[0]), items[0].size, items[0].color,
                            items[0].addOnName);
      match BuildLines(products, items[1..])
      case Err(e) => Err(e)
      case Ok(rest) => Ok([line] + rest)
  }

  /** The offer the public path applies: looked up among active offers by the
      code upper-cased (by the handler) and trimmed (by the schema's setter on
      the query value), and dropped when outside its window. */
  function WindowedOffer(offers: seq<Offers.Offer>, code: Option<string>, now: int): (r: Option<Offers.Offer>)
    ensures !Truthy(code) ==> r.None?
    ensures r.Some? ==> r.value in offers && r.value.isActive && r.value.code == Offers.StoredCode(code.value) && Offers.InWindow(r.value, now)
  {
    if !Truthy(code) then None
    else
      var o := Offers.FindActive(offers, Offers.StoredCode(code.value));
      if o.Some? && !Offers.InWindow(o.value, now) then None else o
  }

  /** The public path applies an offer exactly when the administrator's lookup by that code succeeds. */
  lemma WindowAgreesWithLookup(offers: seq<Offers.Offer>, code: string, now: int)
    requires code != ""
    ensures WindowedOffer(offers, Some(code), now).Some? <==> Offers.GetOfferByCode(offers, code, now).Ok?
    ensures WindowedOffer(offers, Some(code), now).Some? ==>
      WindowedOffer(offers, Some(code), now).value == Offers.GetOfferByCode(offers, code, now).value
  {
  }

  /** The checks the public `placeOrder` makes before it reads the products:
      a user, a non-empty item list, and a shipping address with a name and a
      phone. */
  predicate RequestComplete(req: PublicOrderRequest) {
    && req.userId != "" && req.items.Some? && |req.items.value| > 0
    && req.shippingAddress.Some? && req.shippingAddress.value.name != "" && req.shippingAddress.value.phone != ""
  }

  /** The public `placeOrder`: user and items required, a shipping name and
      phone required (the other address fields are left to the schema), every
      product must exist (its active flag is not consulted), subtotal = sum of final price x quantity, the offer applied
      through `ApplyOffer`, the code recorded only when an offer applied, and
      the payment method defaulting to "COD"; the address is stored as sent,
      with the schema's default country. */
  function PlacePublicOrder(req: PublicOrderRequest, products: map<Catalog.ProductId, Catalog.Product>,
                            offers: seq<Offers.Offer>, now: int, orderId: OrderId): (r: Result<Order, PublicOrderError>)
    ensures req.userId == "" || req.items.None? || |req.items.value| == 0 ==> r == Err(ItemsRequired)
    ensures r == Err(InvalidShipping) <==>
      (&& req.userId != "" && req.items.Some? && |req.items.value| > 0
       && (req.shippingAddress.None? || req.shippingAddress.value.name == "" || req.shippingAddress.value.phone == ""))
    ensures r.Ok? <==> && RequestComplete(req) && BuildLines(products, req.items.value).Ok?
                       && ItemsValid(BuildLines(products, req.items.value).value)
                       && ShippingValid(req.shippingAddress.value)
    ensures r == Err(Validation) <==> && RequestComplete(req) && BuildLines(products, req.items.value).Ok?
                                      && !(ItemsValid(BuildLines(products, req.items.value).value)
                                           && ShippingValid(req.shippingAddress.value))
    ensures r.Ok? ==> req.items.Some? && BuildLines(products, req.items.value).Ok?
    ensures r.Ok? ==> var o := r.value;
      && o.items == BuildLines(products, req.items.value).value
      && o.subtotal == LinesTotal(o.items)
      && Pricing(o.discount, o.total) == ApplyOffer(WindowedOffer(offers, req.offerCode, now), o.subtotal)
      && (o.offerCode.Some? <==> WindowedOffer(offers, req.offerCode, now).Some?)
      && (o.offerCode.Some? ==> o.offerCode.value == Offers.StoredCode(req.offerCode.value))
      && o.status == Pending && o.paymentStatus == PaymentPending
      && o.paymentMethod == (if Truthy(req.paymentMethod) then req.paymentMethod.value else "COD")
      && ItemsValid(o.items)
      && req.shippingAddress.Some? && o.shippingAddress == Stored(req.shippingAddress.value)
      && ShippingValid(o.shippingAddress)
    ensures RequestComplete(req) ==> (r.Err? && r.error.InvalidProduct? <==> BuildLines(products, req.items.value).Err?)
  {
    if req.userId == "" || req.items.None? || |req.items.value| == 0 then Err(ItemsRequired)
    else if req.shippingAddress.None? || req.shippingAddress.value.name == "" || req.shippingAddress.value.phone == "" then
      Err(InvalidShipping)
    else match BuildLines(products, req.items.value)
      case Err(e) => Err(e)
      case Ok(lines) =>
        var offer := WindowedOffer(offers, req.offerCode, now);
        var subtotal := LinesTotal(lines);
        var p := ApplyOffer(offer, subtotal);
        var pm := if Truthy(req.paymentMethod) then req.paymentMethod.value else "COD";
        var code := if offer.Some? then Some(offer.value.code) else None;
        if !ItemsValid(lines) || !ShippingValid(req.shippingAddress.value) then Err(Validation)
        else Ok(Order(orderId, req.userId, lines, subtotal, p.discount, p.total, code, Pending, PaymentPending, pm,
                      Stored(req.shippingAddress.value)))
  }

  /** An offer that has not started yet is ignored rather than refused: a
      request that passes the handler's checks is placed at the full subtotal. */
  lemma NotStartedOfferIgnored(req: PublicOrderRequest, products: map<Catalog.ProductId, Catalog.Product>,
                               offers: seq<Offers.Offer>, now: int, orderId: OrderId)
    requires RequestComplete(req) && BuildLines(products, req.items.value).Ok?
    requires ItemsValid(BuildLines(products, req.items.value).value) && ShippingValid(req.shippingAddress.value)
    requires Truthy(req.offerCode)
    requires var f := Offers.FindActive(offers, Offers.StoredCode(req.offerCode.value));
      f.Some? && f.value.startDate.Some? && f.value.startDate.value > now
    ensures PlacePublicOrder(req, products, offers, now, orderId).Ok?
    ensures var o := PlacePublicOrder(req, products, offers, now, orderId).value;
      o.discount == 0 && o.total == o.subtotal && o.offerCode.None?
  {
  }
}

=== FILE: common.dfy ===
/**
 Failure-carrying wrappers shared by every controller model, the JavaScript
 truthiness test used for optional request fields, and `Math.round` over
 exact integer quotients.
 */
module Common {

  /** An optional request field or an optional document field. */
  datatype Option<+T> = None | Some(value: T) {
    function GetOr(default: T): T {
      match this
      case Some(v) => v
      case None => default
    }
  }

  /** Either the handler's successful outcome or the error response it sends. */
  datatype Result<+T, +E> = Ok(value: T) | Err(error: E) {
    predicate IsFailure() {
      Err?
    }

    function PropagateFailure<U>(): Result<U, E>
      requires Err?
    {
      Err(error)
    }

    function Extract(): T
      requires Ok?
    {
      value
    }
  }

  /** JavaScript truthiness of an optional string: present and not "". */
  predicate Truthy(s: Option<string>) {
    s.Some? && s.value != ""
  }

  /** JavaScript truthiness of an optional number: present and not 0. */
  predicate TruthyNum(n: Option<int>) {
    n.Some? && n.value != 0
  }

  /** `Math.round(n / d)` for a positive divisor: the nearest integer to n/d,
      ties going up (towards +infinity), exactly as JavaScript rounds. */
  function RoundDiv(n: int, d: int): (r: int)
    requires d > 0
    ensures 2 * d * r <= 2 * n + d < 2 * d * r + 2 * d
  {
    (2 * n + d) / (2 * d)
  }

  /** Scaling by a non-negative factor keeps order. */
  lemma MulMonotone(k: nat, x: int, y: int)
    requires x <= y
    ensures k * x <= k * y
  {
    assert k * y - k * x == k * (y - x);
  }

  /** Rounding the quotient keeps order. */
  lemma RoundDivMonotone(a: int, b: int, d: int)
    requires d > 0 && a <= b
    ensures RoundDiv(a, d) <= RoundDiv(b, d)
  {
    var ra, rb := RoundDiv(a, d), RoundDiv(b, d);
    if ra > rb {
      MulMonotone(2 * d, rb + 1, ra);
      assert false;
    }
  }

  /** `Math.ceil(n / d)` for a non-negative numerator and a positive divisor. */
  function CeilDiv(n: nat, d: int): (r: nat)
    requires d > 0
    ensures (r - 1) * d < n <= r * d
  {
    (n + d - 1) / d
  }

  function Max(a: int, b: int): int {
    if a >= b then a else b
  }

  function Min(a: int, b: int): int {
    if a <= b then a else b
  }
}

=== FILE: kyc.dfy ===
/**
 Know-your-customer records: one submission per user, checked for a PAN of
 five letters, four digits and a letter (after upper-casing) and an Aadhaar
 number of twelve digits (after removing whitespace), stored normalised and
 pending; an administrator then approves or rejects a pending record once.
 Records are kept in insertion order and addressed by position.
 */
module Kyc {
  import opened Common
  import opened Text
  import Users

  type UserId = string

  datatype KycStatus = Pending | Approved | Rejected

  function StatusName(s: KycStatus): string {
    match s
    case Pending => "pending"
    case Approved => "approved"
    case Rejected => "rejected"
  }

  /** The schema's enum check on `status`. */
  function ParseStatus(s: string): (r: Option<KycStatus>)
    ensures r.Some? ==> StatusName(r.value) == s
    ensures r.None? ==> forall t: KycStatus :: StatusName(t) != s
  {
    if s == "pending" then Some(Pending)
    else if s == "approved" then Some(Approved)
    else if s == "rejected" then Some(Rejected)
    else None
  }

  lemma StatusRoundTrip(t: KycStatus)
    ensures ParseStatus(StatusName(t)) == Some(t)
  {
  }

  /** `^[A-Z]{5}[0-9]{4}[A-Z]{1}$` */
  predicate IsPan(s: string) {
    |s| == 10
    && (forall i :: 0 <= i < 5 ==> IsUpper(s[i]))
    && (forall i :: 5 <= i < 9 ==> IsDigit(s[i]))
    && IsUpper(s[9])
  }

  /** `^[0-9]{12}$` */
  predicate IsAadhaar(s: string) {
    |s| == 12 && AllDigits(s)
  }

  /** The PAN as stored: upper-cased, and accepted exactly when that matches. */
  function NormalisePan(s: string): (r: string)
    ensures |r| == |s| && NoLower(r)
    ensures IsPan(s) ==> r == s
  {
    ToUpperIdempotent(s);
    ToUpper(s)
  }

  /** The Aadhaar number as stored: every whitespace character removed. */
  function NormaliseAadhaar(s: string): (r: string)
    ensures forall i :: 0 <= i < |r| ==> !IsSpace(r[i])
    ensures IsAadhaar(s) ==> r == s
  {
    assert IsAadhaar(s) ==> forall i :: 0 <= i < |s| ==> !IsSpace(s[i]) by {
      if IsAadhaar(s) {
        assert forall i :: 0 <= i < |s| ==> IsDigit(s[i]);
      }
    }
    RemoveSpaces(s)
  }

  /** Normalising twice is normalising once, so a stored number passes the
      controller's check again and the schema's pattern as it is. */
  lemma NormaliseIdempotent(pan: string, aadhaar: string)
    requires IsPan(NormalisePan(pan)) && IsAadhaar(NormaliseAadhaar(aadhaar))
    ensures NormalisePan(NormalisePan(pan)) == NormalisePan(pan)
    ensures NormaliseAadhaar(NormaliseAadhaar(aadhaar)) == NormaliseAadhaar(aadhaar)
  {
  }

  datatype Documents = Documents(
    panImage: Option<string>,
    aadharFrontImage: Option<string>,
    aadharBackImage: Option<string>,
    bankPassbook: Option<string>,
    selfie: Option<string>)

  predicate DocumentsPresent(d: Documents) {
    Truthy(d.panImage) && Truthy(d.aadharFrontImage) && Truthy(d.aadharBackImage)
    && Truthy(d.bankPassbook) && Truthy(d.selfie)
  }

  datatype Record = Record(
    userId: UserId,
    fullName: string,
    email: string,
    phone: string,
    address: string,
    panCard: string,
    aadharCard: string,
    documents: Documents,
    status: KycStatus,
    rejectReason: Option<string>,
    reviewedBy: Option<string>,
    reviewedAt: Option<int>,
    submittedAt: int)

  /** What the schema demands of a stored record. */
  predicate SchemaValid(k: Record) {
    k.userId != "" && k.fullName != "" && k.email != "" && k.phone != "" && k.address != ""
    && IsPan(k.panCard) && IsAadhaar(k.aadharCard) && DocumentsPresent(k.documents)
  }

  /** `KYC.findOne({ userId })`: the first record of the user. */
  function FindByUser(kycs: seq<Record>, u: UserId): (r: Option<nat>)
    ensures r.Some? ==> r.value < |kycs| && kycs[r.value].userId == u
    ensures r.Some? ==> forall j :: 0 <= j < r.value ==> kycs[j].userId != u
    ensures r.None? <==> forall j :: 0 <= j < |kycs| ==> kycs[j].userId != u
  {
    if |kycs| == 0 then None
    else if kycs[0].userId == u then Some(0)
    else match FindByUser(kycs[1..], u)
      case None => None
      case Some(k) => Some(k + 1)
  }

  datatype KycRequest = KycRequest(
    userId: UserId,
    fullName: Option<string>,
    email: Option<string>,
    phone: Option<string>,
    address: Option<string>,
    panCard: Option<string>,
    aadharCard: Option<string>,
    documents: Option<Documents>)

  datatype KycError =
    | UserNotFound                        // 404 User not found
    | AlreadySubmitted(status: KycStatus) // 400 KYC already submitted, with the existing status
    | InvalidPan                          // 400 Invalid PAN card format
    | InvalidAadhaar                      // 400 Invalid Aadhar card format
    | NotFound                            // 404 KYC not found
    | AlreadyReviewed(status: KycStatus)  // 400 KYC is already <status>
    | ReasonRequired                      // 400 Rejection reason is required
    | ServerError                         // 500: a missing field dereferenced, or a schema failure

  /** The record a submission stores: name trimmed and e-mail lower-cased by
      the schema's setters, PAN and Aadhaar normalised, status pending. */
  function NewRecord(req: KycRequest, now: int): Record
    requires req.panCard.Some? && req.aadharCard.Some? && req.documents.Some?
  {
    Record(req.userId, Trim(req.fullName.GetOr("")), ToLower(req.email.GetOr("")), req.phone.GetOr(""),
           req.address.GetOr(""), NormalisePan(req.panCard.value), NormaliseAadhaar(req.aadharCard.value),
           req.documents.value, Pending, None, None, None, now)
  }

  /** `submitKYC`. Checks run in this order: the user exists, has no record
      yet (the error carries that record's status), the PAN and then the
      Aadhaar number pass once normalised; a missing PAN, Aadhaar or document
      set is dereferenced and fails, as does a record the schema refuses. */
  function Submit(users: map<Users.UserId, Users.User>, kycs: seq<Record>, req: KycRequest, now: int)
    : (r: Result<seq<Record>, KycError>)
    ensures req.userId !in users ==> r == Err(UserNotFound)
    ensures req.userId in users && FindByUser(kycs, req.userId).Some? ==>
      r == Err(AlreadySubmitted(kycs[FindByUser(kycs, req.userId).value].status))
    ensures r == Err(InvalidPan) <==>
      && req.userId in users && FindByUser(kycs, req.userId).None?
      && req.panCard.Some? && !IsPan(ToUpper(req.panCard.value))
    ensures r == Err(InvalidAadhaar) <==>
      && req.userId in users && FindByUser(kycs, req.userId).None?
      && req.panCard.Some? && IsPan(ToUpper(req.panCard.value))
      && req.aadharCard.Some? && !IsAadhaar(RemoveSpaces(req.aadharCard.value))
    ensures r.Ok? <==> && req.userId in users && FindByUser(kycs, req.userId).None?
                       && req.panCard.Some? && IsPan(ToUpper(req.panCard.value))
                       && req.aadharCard.Some? && IsAadhaar(RemoveSpaces(req.aadharCard.value))
                       && req.documents.Some? && DocumentsPresent(req.documents.value)
                       && req.userId != "" && Trim(req.fullName.GetOr("")) != "" && Truthy(req.email)
                       && Truthy(req.phone) && Truthy(req.address)
    ensures r.Ok? ==> && req.userId in users && FindByUser(kycs, req.userId).None?
                      && req.panCard.Some? && req.aadharCard.Some? && req.documents.Some?
    ensures r.Ok? ==> && |r.value| == |kycs| + 1 && r.value[..|kycs|] == kycs
                      && var k := r.value[|kycs|];
                      && k.userId == req.userId && k.status == Pending && k.submittedAt == now
                      && k.panCard == ToUpper(req.panCard.value)
                      && k.aadharCard == RemoveSpaces(req.aadharCard.value)
                      && k.rejectReason.None? && k.reviewedAt.None? && k.reviewedBy.None?
                      && SchemaValid(k)
  {
    if req.userId !in users then Err(UserNotFound)
    else match FindByUser(kycs, req.userId)
      case Some(i) => Err(AlreadySubmitted(kycs[i].status))
      case None =>
        if req.panCard.None? then Err(ServerError)
        else if !IsPan(NormalisePan(req.panCard.value)) then Err(InvalidPan)
        else if req.aadharCard.None? then Err(ServerError)
        else if !IsAadhaar(NormaliseAadhaar(req.aadharCard.value)) then Err(InvalidAadhaar)
        else if req.documents.None? then Err(ServerError)
        else
          var k := NewRecord(req, now);
          if !SchemaValid(k) then Err(ServerError)
          else Ok(kycs + [k])
  }

  /** The store keeps at most one record per user. */
  predicate OnePerUser(kycs: seq<Record>) {
    forall i, j :: 0 <= i < j < |kycs| ==> kycs[i].userId != kycs[j].userId
  }

  /** A submission keeps one record per user, and a second submission by the
      same user is always refused with the first record's status, whatever
      that status is: a rejected user cannot resubmit. */
  lemma SubmitOnce(users: map<Users.UserId, Users.User>, kycs: seq<Record>, req: KycRequest, req2: KycRequest,
                   now: int, now2: int)
    requires OnePerUser(kycs)
    requires Submit(users, kycs, req, now).Ok?
    requires req2.userId == req.userId
    ensures OnePerUser(Submit(users, kycs, req, now).value)
    ensures Submit(users, Submit(users, kycs, req, now).value, req2, now2) == Err(AlreadySubmitted(Pending))
  {
    var s := Submit(users, kycs, req, now).value;
    var k := s[|kycs|];
    assert s == kycs + [k];
    AppendNewUser(kycs, k);
    assert s[|kycs|].status == Pending;
  }

  /** A record for a user with none, appended, keeps one record per user
      and is the one found for that user. */
  lemma AppendNewUser(kycs: seq<Record>, k: Record)
    requires OnePerUser(kycs) && FindByUser(kycs, k.userId).None?
    ensures OnePerUser(kycs + [k]) && FindByUser(kycs + [k], k.userId) == Some(|kycs|)
  {
    AppendKeepsOnePerUser(kycs, k);
    FindAppended(kycs, k);
  }

  lemma AppendKeepsOnePerUser(kycs: seq<Record>, k: Record)
    requires OnePerUser(kycs) && forall j :: 0 <= j < |kycs| ==> kycs[j].userId != k.userId
    ensures OnePerUser(kycs + [k])
  {
    var s := kycs + [k];
    forall i, j | 0 <= i < j < |s| ensures s[i].userId != s[j].userId {
      assert s[i] == kycs[i];
      if j < |kycs| {
        assert s[j] == kycs[j];
      }
    }
  }

  lemma FindAppended(kycs: seq<Record>, k: Record)
    requires forall j :: 0 <= j < |kycs| ==> kycs[j].userId != k.userId
    ensures FindByUser(kycs + [k], k.userId) == Some(|kycs|)
  {
    var s := kycs + [k];
    forall j | 0 <= j < |kycs| ensures s[j].userId != k.userId {
      assert s[j] == kycs[j];
    }
    assert s[|kycs|].userId == k.userId;
  }


  /** A lower-case PAN is accepted and stored upper-cased. */
  lemma LowerCasePanAccepted(s: string)
    requires IsPan(ToUpper(s))
    ensures IsPan(NormalisePan(s)) && NoLower(NormalisePan(s))
  {
  }

  /** An Aadhaar number written in groups is accepted and stored without the spaces. */
  lemma GroupedAadhaarAccepted(a: string, b: string, c: string)
    requires |a| == 4 && |b| == 4 && |c| == 4 && AllDigits(a) && AllDigits(b) && AllDigits(c)
    ensures NormaliseAadhaar(a + " " + b + " " + c) == a + b + c
    ensures IsAadhaar(NormaliseAadhaar(a + " " + b + " " + c))
  {
    SpacesRemoved(a, b, c);
    var abc := a + b + c;
    assert forall i :: 0 <= i < 12 ==> IsDigit(abc[i]) by {
      forall i | 0 <= i < 12
        ensures IsDigit(abc[i])
      {
        if i < 4 { assert abc[i] == a[i]; }
        else if i < 8 { assert abc[i] == b[i - 4]; }
        else { assert abc[i] == c[i - 8]; }
      }
    }
  }

  /** A string of digits has no whitespace to remove. */
  lemma DigitsUnchanged(s: string)
    requires AllDigits(s)
    ensures RemoveSpaces(s) == s
  {
    assert forall i :: 0 <= i < |s| ==> IsDigit(s[i]);
  }

  lemma SpacesRemoved(a: string, b: string, c: string)
    requires AllDigits(a) && AllDigits(b) && AllDigits(c)
    ensures RemoveSpaces(a + " " + b + " " + c) == a + b + c
  {
    DigitsUnchanged(a);
    DigitsUnchanged(b);
    DigitsUnchanged(c);
    var sp := " ";
    assert RemoveSpaces(sp) == [];
    var s1 := a + sp;
    RemoveSpacesAppend(a, sp);
    assert RemoveSpaces(s1) == a;
    var s2 := s1 + b;
    RemoveSpacesAppend(s1, b);
    assert RemoveSpaces(s2) == a + b;
    var s3 := s2 + sp;
    RemoveSpacesAppend(s2, sp);
    assert RemoveSpaces(s3) == a + b;
    RemoveSpacesAppend(s3, c);
    assert RemoveSpaces(s3 + c) == a + b + c;
    assert a + " " + b + " " + c == s3 + c;
  }

  /** Removing spaces distributes over concatenation. */
  lemma {:induction false} RemoveSpacesAppend(s: string, t: string)
    ensures RemoveSpaces(s + t) == RemoveSpaces(s) + RemoveSpaces(t)
    decreases |s|
  {
    if |s| == 0 {
      assert s + t == t;
    } else {
      assert (s + t)[1..] == s[1..] + t;
      RemoveSpacesAppend(s[1..], t);
    }
  }

  /** `approveKYC`: only a pending record is approved; the review is stamped
      and any reason cleared; nothing else changes. */
  function Approve(kycs: seq<Record>, id: nat, admin: Option<string>, now: int): (r: Result<seq<Record>, KycError>)
    ensures id >= |kycs| ==> r == Err(NotFound)
    ensures id < |kycs| && kycs[id].status != Pending ==> r == Err(AlreadyReviewed(kycs[id].status))
    ensures r.Ok? <==> id < |kycs| && kycs[id].status == Pending
    ensures r.Ok? ==> && |r.value| == |kycs|
                      && r.value[id] == kycs[id].(status := Approved, reviewedBy := admin, reviewedAt := Some(now),
                                                  rejectReason := None)
                      && forall j :: 0 <= j < |kycs| && j != id ==> r.value[j] == kycs[j]
  {
    if id >= |kycs| then Err(NotFound)
    else if kycs[id].status != Pending then Err(AlreadyReviewed(kycs[id].status))
    else Ok(kycs[id := kycs[id].(status := Approved, reviewedBy := admin, reviewedAt := Some(now), rejectReason := None)])
  }

  /** A reason is blank when missing, empty or only whitespace. */
  predicate Blank(reason: Option<string>) {
    !Truthy(reason) || Trim(reason.value) == ""
  }

  /** `rejectKYC`: a blank reason is refused before the record is looked up;
      only a pending record is rejected, keeping the reason as sent. */
  function Reject(kycs: seq<Record>, id: nat, admin: Option<string>, reason: Option<string>, now: int)
    : (r: Result<seq<Record>, KycError>)
    ensures Blank(reason) ==> r == Err(ReasonRequired)
    ensures !Blank(reason) && id >= |kycs| ==> r == Err(NotFound)
    ensures r.Ok? <==> !Blank(reason) && id < |kycs| && kycs[id].status == Pending
    ensures r.Ok? ==> && |r.value| == |kycs|
                      && r.value[id] == kycs[id].(status := Rejected, reviewedBy := admin, reviewedAt := Some(now),
                                                  rejectReason := reason)
                      && r.value[id].rejectReason.Some? && Trim(r.value[id].rejectReason.value) != ""
                      && forall j :: 0 <= j < |kycs| && j != id ==> r.value[j] == kycs[j]
  {
    if Blank(reason) then Err(ReasonRequired)
    else if id >= |kycs| then Err(NotFound)
    else if kycs[id].status != Pending then Err(AlreadyReviewed(kycs[id].status))
    else Ok(kycs[id := kycs[id].(status := Rejected, reviewedBy := admin, reviewedAt := Some(now), rejectReason := reason)])
  }

  /** A review is final: once a record is approved or rejected neither action
      succeeds on it again, and the refusal names the status it reached. */
  lemma ReviewIsFinal(kycs: seq<Record>, id: nat, admin: Option<string>, admin2: Option<string>,
                      reason: Option<string>, now: int, now2: int)
    requires id < |kycs| && kycs[id].status == Pending
    ensures var a := Approve(kycs, id, admin, now).value;
      && Approve(a, id, admin2, now2) == Err(AlreadyReviewed(Approved))
      && (!Blank(reason) ==> Reject(a, id, admin2, reason, now2) == Err(AlreadyReviewed(Approved)))
    ensures !Blank(reason) ==> var b := Reject(kycs, id, admin, reason, now).value;
      && Approve(b, id, admin2, now2) == Err(AlreadyReviewed(Rejected))
      && Reject(b, id, admin2, reason, now2) == Err(AlreadyReviewed(Rejected))
  {
  }

  /** Reviews keep the store's shape: one record per user, each with its user. */
  lemma ReviewKeepsUsers(kycs: seq<Record>, id: nat, admin: Option<string>, reason: Option<string>, now: int)
    requires OnePerUser(kycs)
    ensures Approve(kycs, id, admin, now).Ok? ==> OnePerUser(Approve(kycs, id, admin, now).value)
    ensures Reject(kycs, id, admin, reason, now).Ok? ==> OnePerUser(Reject(kycs, id, admin, reason, now).value)
  {
    var ra := Approve(kycs, id, admin, now);
    if ra.Ok? {
      forall i, j | 0 <= i < j < |kycs| ensures ra.value[i].userId != ra.value[j].userId {
        assert ra.value[i].userId == kycs[i].userId && ra.value[j].userId == kycs[j].userId;
      }
    }
    var rr := Reject(kycs, id, admin, reason, now);
    if rr.Ok? {
      forall i, j | 0 <= i < j < |kycs| ensures rr.value[i].userId != rr.value[j].userId {
        assert rr.value[i].userId == kycs[i].userId && rr.value[j].userId == kycs[j].userId;
      }
    }
  }

  /** The number of records in a status. */
  function CountStatus(kycs: seq<Record>, s: KycStatus): (r: nat)
    ensures r <= |kycs|
  {
    if |kycs| == 0 then 0 else (if kycs[0].status == s then 1 else 0) + CountStatus(kycs[1..], s)
  }

  /** `getKYCStats`: the three status counts add up to the total. */
  lemma {:induction false} StatsPartition(kycs: seq<Record>)
    ensures CountStatus(kycs, Pending) + CountStatus(kycs, Approved) + CountStatus(kycs, Rejected) == |kycs|
  {
    if |kycs| > 0 {
      StatsPartition(kycs[1..]);
    }
  }
}

=== FILE: offers.dfy ===
/**
 The Offer record (a discount code) and the administrator's handlers:
 creation with normalisation, lookup by code with the validity window,
 partial update and deletion. The offer collection is a sequence in
 storage order; a query returns its first match.
 */
module Offers {
  import opened Common
  import opened Text

  type OfferId = string

  datatype DiscountType = Percentage | Flat

  function DiscountTypeName(t: DiscountType): string {
    match t
    case Percentage => "percentage"
    case Flat => "flat"
  }

  /** The schema's enum check on `discountType`. */
  function ParseDiscountType(s: string): (r: Option<DiscountType>)
    ensures r.Some? <==> s == "percentage" || s == "flat"
    ensures r.Some? ==> DiscountTypeName(r.value) == s
  {
    if s == "percentage" then Some(Percentage)
    else if s == "flat" then Some(Flat)
    else None
  }

  lemma DiscountTypeRoundTrip(t: DiscountType)
    ensures ParseDiscountType(DiscountTypeName(t)) == Some(t)
  {
  }

  /** minOrderAmount and maxDiscountAmount use 0 for "no minimum" and "no cap". */
  datatype Offer = Offer(
    id: OfferId,
    code: string,
    title: string,
    description: string,
    discountType: DiscountType,
    discountValue: int,
    minOrderAmount: int,
    maxDiscountAmount: int,
    startDate: Option<int>,
    endDate: Option<int>,
    isActive: bool)

  /** Not before its start date and not after its end date; an absent bound is no bound. */
  predicate InWindow(o: Offer, now: int) {
    !(o.startDate.Some? && o.startDate.value > now) && !(o.endDate.Some? && o.endDate.value < now)
  }

  predicate CodesUnique(offers: seq<Offer>) {
    forall i, j :: 0 <= i < j < |offers| ==> offers[i].code != offers[j].code
  }

  /** `Offer.findOne({ code, isActive: true })`: the first active offer with that exact code. */
  function FindActive(offers: seq<Offer>, code: string): (r: Option<Offer>)
    ensures r.Some? ==> r.value in offers && r.value.code == code && r.value.isActive
    ensures r.None? <==> forall i :: 0 <= i < |offers| ==> !(offers[i].code == code && offers[i].isActive)
  {
    if |offers| == 0 then None
    else if offers[0].code == code && offers[0].isActive then Some(offers[0])
    else FindActive(offers[1..], code)
  }

  function IndexOfId(offers: seq<Offer>, id: OfferId): (r: Option<nat>)
    ensures r.Some? ==> r.value < |offers| && offers[r.value].id == id
    ensures r.None? ==> forall i :: 0 <= i < |offers| ==> offers[i].id != id
  {
    if |offers| == 0 then None
    else if offers[0].id == id then Some(0)
    else match IndexOfId(offers[1..], id)
      case None => None
      case Some(k) => Some(k + 1)
  }

  predicate CodeTaken(offers: seq<Offer>, code: string) {
    exists i :: 0 <= i < |offers| && offers[i].code == code
  }

  datatype OfferRequest = OfferRequest(
    code: Option<string>,
    title: Option<string>,
    description: Option<string>,
    discountType: Option<string>,
    discountValue: Option<int>,
    minOrderAmount: Option<int>,
    maxDiscountAmount: Option<int>,
    startDate: Option<int>,
    endDate: Option<int>)

  datatype OfferError =
    | MissingFields        // 400 code, title, discountType, discountValue required
    | CodeExists           // 409 Code already exists
    | InvalidDiscountType  // schema enum failure (500)
    | CodeRequired         // schema `required` failure on the trimmed code (500)
    | DuplicateKey         // unique index on code (500)
    | NotFound             // 404 Offer not found
    | NotStarted           // 400 Offer not started
    | Expired              // 400 Offer expired

  /** The four fields the create handler insists on are truthy. */
  predicate FieldsPresent(req: OfferRequest) {
    Truthy(req.code) && Truthy(req.title) && Truthy(req.discountType) && TruthyNum(req.discountValue)
  }

  /** The request passes the handler's own checks: the fields are present and
      no stored code equals the trimmed code. */
  predicate PassesHandler(offers: seq<Offer>, req: OfferRequest) {
    FieldsPresent(req) && !CodeTaken(offers, Trim(req.code.value))
  }

  /** The stored form of a code: upper-cased by the handler, trimmed by the schema. */
  function StoredCode(code: string): (r: string)
    ensures NoLower(r)
    ensures |r| > 0 ==> !IsSpace(r[0]) && !IsSpace(r[|r| - 1])
  {
    ToUpperIdempotent(code);
    TrimNoLower(ToUpper(code));
    Trim(ToUpper(code))
  }

  /** `createOffer`: the four required fields must be truthy (so a discount value
      of 0 is refused); the duplicate check compares the code trimmed (the
      schema's `trim` setter casts the query value) but not upper-cased, while
      the stored code is upper-cased and trimmed; minimum and cap default to 0.
      A code of white space only is truthy, but trims to "" and so fails the
      schema's `required` rule; the save reports it with any enum failure, and
      the model names the type first. */
  function CreateOffer(offers: seq<Offer>, req: OfferRequest, id: OfferId): (r: Result<Offer, OfferError>)
    ensures !FieldsPresent(req) ==> r == Err(MissingFields)
    ensures r == Err(CodeExists) <==> FieldsPresent(req) && CodeTaken(offers, Trim(req.code.value))
    ensures r == Err(InvalidDiscountType) <==> PassesHandler(offers, req)
                                               && ParseDiscountType(req.discountType.value).None?
    ensures r == Err(CodeRequired) <==> && PassesHandler(offers, req)
                                        && ParseDiscountType(req.discountType.value).Some?
                                        && StoredCode(req.code.value) == ""
    ensures r == Err(DuplicateKey) <==> && PassesHandler(offers, req)
                                        && ParseDiscountType(req.discountType.value).Some?
                                        && StoredCode(req.code.value) != ""
                                        && CodeTaken(offers, StoredCode(req.code.value))
    ensures r.Ok? <==> && PassesHandler(offers, req)
                       && ParseDiscountType(req.discountType.value).Some?
                       && StoredCode(req.code.value) != ""
                       && !CodeTaken(offers, StoredCode(req.code.value))
    ensures r.Ok? ==> var o := r.value;
      && o.code == StoredCode(req.code.value) && o.code != ""
      && o.discountValue == req.discountValue.value
      && o.minOrderAmount == req.minOrderAmount.GetOr(0)
      && o.maxDiscountAmount == req.maxDiscountAmount.GetOr(0)
      && o.startDate == req.startDate && o.endDate == req.endDate
      && o.isActive
    ensures r.Ok? && CodesUnique(offers) ==> CodesUnique(offers + [r.value])
  {
    if !FieldsPresent(req) then Err(MissingFields)
    else if CodeTaken(offers, Trim(req.code.value)) then Err(CodeExists)
    else match ParseDiscountType(req.discountType.value)
      case None => Err(InvalidDiscountType)
      case Some(t) =>
        var code := StoredCode(req.code.value);
        if code == "" then Err(CodeRequired)
        else if CodeTaken(offers, code) then Err(DuplicateKey)
        else
          var o := Offer(id, code, req.title.value, req.description.GetOr(""), t, req.discountValue.value,
                         req.minOrderAmount.GetOr(0), req.maxDiscountAmount.GetOr(0),
                         req.startDate, req.endDate, true);
          AppendFreshCode(offers, o);
          Ok(o)
  }

  /** An offer whose code no stored offer has keeps the codes unique. */
  lemma AppendFreshCode(offers: seq<Offer>, o: Offer)
    requires !CodeTaken(offers, o.code)
    ensures CodesUnique(offers) ==> CodesUnique(offers + [o])
  {
    var s := offers + [o];
    if CodesUnique(offers) {
      forall i, j | 0 <= i < j < |s| ensures s[i].code != s[j].code {
        if j == |offers| {
          assert s[i] == offers[i];
        } else {
          assert s[i] == offers[i] && s[j] == offers[j];
        }
      }
    }
  }

  /** The duplicate check does not upper-case the code: a lower-case spelling
      of a stored code passes it and is stopped only by the unique index. */
  lemma LowerCaseDuplicateSlipsPastCheck(stored: Offer, req: OfferRequest)
    requires stored.code == "AB"
    requires req.code == Some("ab") && req.title == Some("t") && req.discountType == Some("flat")
    requires req.discountValue == Some(10)
    ensures CreateOffer([stored], req, "new") == Err(DuplicateKey)
  {
    AbPassesTrimmedCheck();
    StoredCodeAB();
    var offers := [stored];
    assert !CodeTaken(offers, "ab") by {
      assert offers[0].code != "ab";
    }
    assert CodeTaken(offers, "AB") by {
      assert offers[0].code == "AB";
    }
    assert ParseDiscountType("flat") == Some(Flat);
  }

  /** A code of spaces only passes the handler's `!code` check and a store of
      non-blank codes has no match for it, but the schema trims it to "" and
      refuses it as missing. */
  lemma BlankCodeRefused(offers: seq<Offer>, req: OfferRequest, id: OfferId)
    requires forall i :: 0 <= i < |offers| ==> offers[i].code != ""
    requires req.code == Some("  ") && req.title == Some("t") && req.discountType == Some("flat")
    requires req.discountValue == Some(10)
    ensures CreateOffer(offers, req, id) == Err(CodeRequired)
  {
    BlankCodeTrims();
    assert !CodeTaken(offers, "");
    assert ParseDiscountType("flat") == Some(Flat);
  }

  lemma BlankCodeTrims()
    ensures Trim("  ") == "" && StoredCode("  ") == ""
  {
    var s := "  ";
    assert forall i :: 0 <= i < |s| ==> IsSpace(s[i]);
    var u := ToUpper(s);
    assert forall i :: 0 <= i < |u| ==> IsSpace(u[i]) by {
      forall i | 0 <= i < |u| ensures IsSpace(u[i]) {
        assert u[i] == UpperChar(s[i]);
      }
    }
  }

  lemma AbPassesTrimmedCheck()
    ensures Trim("ab") == "ab" && "ab" != "AB"
  {
    TrimLowerAB();
    assert "ab"[0] != "AB"[0];
  }

  lemma StoredCodeAB()
    ensures StoredCode("ab") == "AB"
  {
    UpperAB();
    TrimAB();
  }

  lemma TrimAB()
    ensures Trim("AB") == "AB"
  {
    var s := "AB";
    assert s[0] == 'A' && s[|s| - 1] == 'B';
    TrimFixed(s);
  }

  lemma TrimLowerAB()
    ensures Trim("ab") == "ab"
  {
    var s := "ab";
    assert s[0] == 'a' && s[|s| - 1] == 'b';
    TrimFixed(s);
  }

  lemma UpperAB()
    ensures ToUpper("ab") == "AB"
  {
    var u := ToUpper("ab");
    assert u[0] == UpperChar('a') == 'A';
    assert u[1] == UpperChar('b') == 'B';
  }

  /** `getOfferByCode`: the code is upper-cased by the handler and trimmed by
      the schema's setter on the query value, so it is looked up in its stored
      form; an unknown or inactive code, a future start and a past end are
      three distinct errors, so both window bounds are inclusive. */
  function GetOfferByCode(offers: seq<Offer>, code: string, now: int): (r: Result<Offer, OfferError>)
    ensures r.Ok? ==> r.value in offers && r.value.isActive && r.value.code == StoredCode(code) && InWindow(r.value, now)
    ensures FindActive(offers, StoredCode(code)).None? <==> r == Err(NotFound)
    ensures r == Err(NotStarted) ==> var f := FindActive(offers, StoredCode(code));
      f.Some? && f.value.startDate.Some? && f.value.startDate.value > now
    ensures r == Err(Expired) ==> var f := FindActive(offers, StoredCode(code));
      f.Some? && f.value.endDate.Some? && f.value.endDate.value < now
    ensures var f := FindActive(offers, StoredCode(code));
      f.Some? && f.value.startDate.Some? && f.value.startDate.value > now ==> r == Err(NotStarted)
    ensures var f := FindActive(offers, StoredCode(code));
      (f.Some? && !(f.value.startDate.Some? && f.value.startDate.value > now)
       && f.value.endDate.Some? && f.value.endDate.value < now) ==> r == Err(Expired)
    ensures r.Ok? <==> FindActive(offers, StoredCode(code)).Some? && InWindow(FindActive(offers, StoredCode(code)).value, now)
    ensures r.Ok? ==> r.value == FindActive(offers, StoredCode(code)).value
  {
    match FindActive(offers, StoredCode(code))
    case None => Err(NotFound)
    case Some(o) =>
      if o.startDate.Some? && o.startDate.value > now then Err(NotStarted)
      else if o.endDate.Some? && o.endDate.value < now then Err(Expired)
      else Ok(o)
  }

  datatype OfferPatch = OfferPatch(
    title: Option<string>,
    description: Option<string>,
    discountType: Option<string>,
    discountValue: Option<int>,
    minOrderAmount: Option<int>,
    maxDiscountAmount: Option<int>,
    startDate: Option<int>,
    endDate: Option<int>,
    isActive: Option<bool>)

  /** `updateOffer`: a truthy title or type, any supplied number, description or
      flag, and a supplied date replace the stored value; a type outside the
      enumeration fails the save; the code is never touched, and no other
      offer changes. */
  function UpdateOffer(offers: seq<Offer>, id: OfferId, patch: OfferPatch): (r: Result<seq<Offer>, OfferError>)
    ensures IndexOfId(offers, id).None? ==> r == Err(NotFound)
    ensures IndexOfId(offers, id).Some? ==>
      (r == Err(InvalidDiscountType) <==> Truthy(patch.discountType) && ParseDiscountType(patch.discountType.value).None?)
    ensures r.Ok? <==> IndexOfId(offers, id).Some?
                       && (Truthy(patch.discountType) ==> ParseDiscountType(patch.discountType.value).Some?)
    ensures r.Ok? ==> |r.value| == |offers|
    ensures r.Ok? ==> forall i :: 0 <= i < |offers| && i != IndexOfId(offers, id).value ==> r.value[i] == offers[i]
    ensures r.Ok? ==> var k := IndexOfId(offers, id).value; var o := offers[k]; var n := r.value[k];
      && n.id == o.id && n.code == o.code
      && n.title == (if Truthy(patch.title) then patch.title.value else o.title)
      && n.description == patch.description.GetOr(o.description)
      && n.discountType == (if Truthy(patch.discountType) then ParseDiscountType(patch.discountType.value).value
                            else o.discountType)
      && n.discountValue == patch.discountValue.GetOr(o.discountValue)
      && n.minOrderAmount == patch.minOrderAmount.GetOr(o.minOrderAmount)
      && n.maxDiscountAmount == patch.maxDiscountAmount.GetOr(o.maxDiscountAmount)
      && n.startDate == (if patch.startDate.Some? then patch.startDate else o.startDate)
      && n.endDate == (if patch.endDate.Some? then patch.endDate else o.endDate)
      && n.isActive == patch.isActive.GetOr(o.isActive)
    ensures r.Ok? && CodesUnique(offers) ==> CodesUnique(r.value)
  {
    match IndexOfId(offers, id)
    case None => Err(NotFound)
    case Some(k) =>
      var o := offers[k];
      var t := if Truthy(patch.discountType) then ParseDiscountType(patch.discountType.value) else Some(o.discountType);
      if t.None? then Err(InvalidDiscountType)
      else
        var n := o.(title := if Truthy(patch.title) then patch.title.value else o.title,
                    description := patch.description.GetOr(o.description),
                    discountType := t.value,
                    discountValue := patch.discountValue.GetOr(o.discountValue),
                    minOrderAmount := patch.minOrderAmount.GetOr(o.minOrderAmount),
                    maxDiscountAmount := patch.maxDiscountAmount.GetOr(o.maxDiscountAmount),
                    startDate := if patch.startDate.Some? then patch.startDate else o.startDate,
                    endDate := if patch.endDate.Some? then patch.endDate else o.endDate,
                    isActive := patch.isActive.GetOr(o.isActive));
        Ok(offers[k := n])
  }

  /** An update that supplies nothing leaves the offers as they were. */
  lemma EmptyUpdateChangesNothing(offers: seq<Offer>, id: OfferId)
    requires IndexOfId(offers, id).Some?
    ensures UpdateOffer(offers, id, OfferPatch(None, None, None, None, None, None, None, None, None)) == Ok(offers)
  {
    var k := IndexOfId(offers, id).value;
    assert offers[k := offers[k]] == offers;
  }

  /** An update followed by the same update is the update once. */
  lemma UpdateIdempotent(offers: seq<Offer>, id: OfferId, patch: OfferPatch)
    requires UpdateOffer(offers, id, patch).Ok?
    ensures var once := UpdateOffer(offers, id, patch).value;
      IndexOfId(once, id) == IndexOfId(offers, id) && UpdateOffer(once, id, patch) == Ok(once)
  {
    var once := UpdateOffer(offers, id, patch).value;
    var k := IndexOfId(offers, id).value;
    IndexOfIdStable(offers, once, id);
    assert once[k := once[k]] == once;
  }

  /** Two stores with the same ids in the same places find an id at the same place. */
  lemma {:induction false} IndexOfIdStable(a: seq<Offer>, b: seq<Offer>, id: OfferId)
    requires |a| == |b| && forall i :: 0 <= i < |a| ==> a[i].id == b[i].id
    ensures IndexOfId(a, id) == IndexOfId(b, id)
  {
    if |a| > 0 {
      IndexOfIdStable(a[1..], b[1..], id);
    }
  }

  /** `deleteOffer`: an unknown id is an error; otherwise exactly that offer goes. */
  function DeleteOffer(offers: seq<Offer>, id: OfferId): (r: Result<seq<Offer>, OfferError>)
    ensures r.Err? <==> forall i :: 0 <= i < |offers| ==> offers[i].id != id
    ensures r.Ok? ==> var k := IndexOfId(offers, id).value;
      r.value == offers[..k] + offers[k + 1..] && |r.value| == |offers| - 1
  {
    match IndexOfId(offers, id)
    case None => Err(NotFound)
    case Some(k) => Ok(offers[..k] + offers[k + 1..])
  }
}

=== FILE: orders.dfy ===
/**
 The Order record shared by the three checkout paths, its status and
 payment-status enumerations, and the three handlers that touch an order
 after it exists: the administrator's status update, the owner's
 cancellation and the owner's tracking view. Orders are stored by id.
 */
module Orders {
  import opened Common

  type OrderId = string
  type UserId = string
  type ProductId = string

  datatype OrderStatus = Pending | Confirmed | Shipped | Delivered | Cancelled
  datatype PaymentStatus = PaymentPending | Paid | Failed

  function StatusName(s: OrderStatus): string {
    match s
    case Pending => "pending"
    case Confirmed => "confirmed"
    case Shipped => "shipped"
    case Delivered => "delivered"
    case Cancelled => "cancelled"
  }

  /** The schema's enum check on `status`. */
  function ParseStatus(s: string): (r: Option<OrderStatus>)
    ensures r.Some? ==> StatusName(r.value) == s
    ensures r.None? ==> forall t: OrderStatus :: StatusName(t) != s
  {
    if s == "pending" then Some(Pending)
    else if s == "confirmed" then Some(Confirmed)
    else if s == "shipped" then Some(Shipped)
    else if s == "delivered" then Some(Delivered)
    else if s == "cancelled" then Some(Cancelled)
    else None
  }

  lemma StatusRoundTrip(t: OrderStatus)
    ensures ParseStatus(StatusName(t)) == Some(t)
  {
  }

  function PaymentStatusName(s: PaymentStatus): string {
    match s
    case PaymentPending => "pending"
    case Paid => "paid"
    case Failed => "failed"
  }

  /** The schema's enum check on `paymentStatus`. */
  function ParsePaymentStatus(s: string): (r: Option<PaymentStatus>)
    ensures r.Some? ==> PaymentStatusName(r.value) == s
    ensures r.None? ==> forall t: PaymentStatus :: PaymentStatusName(t) != s
  {
    if s == "pending" then Some(PaymentPending)
    else if s == "paid" then Some(Paid)
    else if s == "failed" then Some(Failed)
    else None
  }

  lemma PaymentStatusRoundTrip(t: PaymentStatus)
    ensures ParsePaymentStatus(PaymentStatusName(t)) == Some(t)
  {
  }

  /** An order line: a snapshot of the product's name and unit price at checkout. */
  datatype OrderItem = OrderItem(
    product: ProductId,
    productName: string,
    productPrice: int,
    quantity: int,
    size: Option<string>,
    color: Option<string>,
    addOnName: Option<string>)

  /** The delivery address copied into the order. An absent country is the
      schema's default only once the order is stored (see `Stored`). */
  datatype ShippingAddress = ShippingAddress(
    name: string,
    phone: string,
    email: Option<string>,
    addressLine1: string,
    addressLine2: Option<string>,
    city: string,
    state: string,
    pincode: string,
    country: Option<string>)

  const DefaultCountry := "India"

  /** The address as the order schema stores it: a missing country becomes
      "India" and every field sent is kept. */
  function Stored(a: ShippingAddress): (r: ShippingAddress)
    ensures a.country.Some? ==> r == a
    ensures r.country == Some(if a.country.Some? then a.country.value else DefaultCountry)
    ensures r.(country := a.country) == a
    ensures ShippingValid(r) <==> ShippingValid(a)
  {
    if a.country.Some? then a else a.(country := Some(DefaultCountry))
  }

  /** The schema's required fields of an order's address. */
  predicate ShippingValid(a: ShippingAddress) {
    a.name != "" && a.phone != "" && a.addressLine1 != "" && a.city != "" && a.state != "" && a.pincode != ""
  }

  datatype Order = Order(
    id: OrderId,
    userId: UserId,
    items: seq<OrderItem>,
    subtotal: int,
    discount: int,
    total: int,
    offerCode: Option<string>,
    status: OrderStatus,
    paymentStatus: PaymentStatus,
    paymentMethod: string,
    shippingAddress: ShippingAddress)

  /** The schema's `quantity: { min: 1 }` on every line. */
  predicate ItemsValid(items: seq<OrderItem>) {
    forall i :: 0 <= i < |items| ==> items[i].quantity >= 1
  }

  /** The sum of unit price times quantity over the lines. */
  function LinesTotal(items: seq<OrderItem>): int {
    if |items| == 0 then 0
    else LinesTotal(items[..|items| - 1]) + items[|items| - 1].productPrice * items[|items| - 1].quantity
  }

  /** A single line totals its price times its quantity. */
  lemma LinesTotalSingle(x: OrderItem)
    ensures LinesTotal([x]) == x.productPrice * x.quantity
  {
    assert [x][..0] == [];
  }

  lemma {:induction false} LinesTotalAppend(items: seq<OrderItem>, extra: seq<OrderItem>)
    ensures LinesTotal(items + extra) == LinesTotal(items) + LinesTotal(extra)
    decreases |extra|
  {
    if |extra| == 0 {
      assert items + extra == items;
    } else {
      var last := extra[|extra| - 1];
      LinesTotalAppend(items, extra[..|extra| - 1]);
      assert (items + extra)[..|items + extra| - 1] == items + extra[..|extra| - 1];
    }
  }

  /** Lines with non-negative prices and valid quantities add up to a non-negative total. */
  lemma {:induction false} LinesTotalNonNegative(items: seq<OrderItem>)
    requires ItemsValid(items)
    requires forall i :: 0 <= i < |items| ==> items[i].productPrice >= 0
    ensures LinesTotal(items) >= 0
  {
    if |items| > 0 {
      var last := items[|items| - 1];
      LinesTotalNonNegative(items[..|items| - 1]);
      MulMonotone(last.quantity, 0, last.productPrice);
    }
  }

  datatype OrderError =
    | NotFound          // 404 Order not found
    | InvalidStatus     // schema enum failure at save (500)
    | CannotCancel      // 400 Order cannot be cancelled

  /** The administrator's `updateOrderStatus`: a truthy status or payment status
      is written; a value outside the enumeration is refused by the schema at
      save. There is no transition rule: any status may follow any other. */
  function UpdateOrderStatus(orders: map<OrderId, Order>, id: OrderId, status: Option<string>,
                             paymentStatus: Option<string>): (r: Result<map<OrderId, Order>, OrderError>)
    ensures id !in orders ==> r == Err(NotFound)
    ensures r.Ok? <==> id in orders
                       && (Truthy(status) ==> ParseStatus(status.value).Some?)
                       && (Truthy(paymentStatus) ==> ParsePaymentStatus(paymentStatus.value).Some?)
    ensures r.Ok? ==> r.value.Keys == orders.Keys
    ensures r.Ok? ==> forall k :: k in orders && k != id ==> r.value[k] == orders[k]
    ensures r.Ok? ==> var o := orders[id]; var n := r.value[id];
      && n == o.(status := n.status, paymentStatus := n.paymentStatus)
      && StatusName(n.status) == (if Truthy(status) then status.value else StatusName(o.status))
      && PaymentStatusName(n.paymentStatus)
         == (if Truthy(paymentStatus) then paymentStatus.value else PaymentStatusName(o.paymentStatus))
  {
    if id !in orders then Err(NotFound)
    else
      var o := orders[id];
      var s := if Truthy(status) then ParseStatus(status.value) else Some(o.status);
      var p := if Truthy(paymentStatus) then ParsePaymentStatus(paymentStatus.value) else Some(o.paymentStatus);
      if s.None? || p.None? then Err(InvalidStatus)
      else Ok(orders[id := o.(status := s.value, paymentStatus := p.value)])
  }

  /** Nothing stops an administrator from reopening a cancelled order. */
  lemma CancelledCanBeReopened(orders: map<OrderId, Order>, id: OrderId)
    requires id in orders && orders[id].status == Cancelled
    ensures UpdateOrderStatus(orders, id, Some("pending"), None).Ok?
    ensures UpdateOrderStatus(orders, id, Some("pending"), None).value[id].status == Pending
  {
  }

  /** The owner's `cancelOrder`: an order that does not exist or belongs to
      someone else is "not found"; only a pending order may be cancelled, and
      only its status changes. */
  function CancelOrder(orders: map<OrderId, Order>, id: OrderId, user: UserId): (r: Result<map<OrderId, Order>, OrderError>)
    ensures r == Err(NotFound) <==> id !in orders || orders[id].userId != user
    ensures r.Ok? <==> id in orders && orders[id].userId == user && orders[id].status == Pending
    ensures r.Ok? ==> r.value == orders[id := orders[id].(status := Cancelled)]
  {
    if id !in orders || orders[id].userId != user then Err(NotFound)
    else if orders[id].status != Pending then Err(CannotCancel)
    else Ok(orders[id := orders[id].(status := Cancelled)])
  }

  /** A cancelled order cannot be cancelled again, and a second attempt changes nothing. */
  lemma CancelNotRepeatable(orders: map<OrderId, Order>, id: OrderId, user: UserId)
    requires CancelOrder(orders, id, user).Ok?
    ensures CancelOrder(CancelOrder(orders, id, user).value, id, user) == Err(CannotCancel)
  {
  }

  /** The forward path of fulfilment; cancelled and delivered orders have no successor. */
  function Next(s: OrderStatus): Option<OrderStatus> {
    match s
    case Pending => Some(Confirmed)
    case Confirmed => Some(Shipped)
    case Shipped => Some(Delivered)
    case Delivered => None
    case Cancelled => None
  }

  /** `trackOrder`'s step table: pending 1 through delivered 4, cancelled 0. */
  function TrackingStep(s: OrderStatus): (r: nat)
    ensures r <= 4
    ensures r == 0 <==> s == Cancelled
  {
    match s
    case Pending => 1
    case Confirmed => 2
    case Shipped => 3
    case Delivered => 4
    case Cancelled => 0
  }

  function TrackingMessage(s: OrderStatus): string {
    match s
    case Pending => "Order placed successfully"
    case Confirmed => "Order confirmed by seller"
    case Shipped => "Order shipped"
    case Delivered => "Order delivered"
    case Cancelled => "Order cancelled"
  }

  /** Each step of fulfilment advances the tracker by exactly one. */
  lemma TrackingAdvances(s: OrderStatus)
    requires Next(s).Some?
    ensures TrackingStep(Next(s).value) == TrackingStep(s) + 1
  {
  }

  /** Distinct statuses have distinct steps, so the step identifies the status. */
  lemma TrackingStepInjective(s: OrderStatus, t: OrderStatus)
    requires TrackingStep(s) == TrackingStep(t)
    ensures s == t
  {
  }
}

=== FILE: payments.dfy ===
/**
 The online-payment path: a gateway order for an amount in paise, and the
 order created once the gateway's signature over "order_id|payment_id"
 checks out. The HMAC is a parameter; what the gateway does with the order
 request is not part of this model. The order is built from the cart at
 full price: an offer code is recorded but never applied.
 */
module Payments {
  import opened Common
  import opened Text
  import Catalog
  import opened Orders
  import Carts

  /** The request sent to the gateway. */
  datatype GatewayOrder = GatewayOrder(amount: int, currency: string, receipt: string)

  datatype PaymentError =
    | AmountRequired        // 400 Amount is required
    | VerificationFailed    // 400 Payment verification failed
    | CartEmpty             // 400 Cart is empty
    | ServerError           // 500 a line whose product is gone, or a schema failure at create

  /** `createPaymentOrder`: a falsy amount is refused; the gateway is asked for
      the amount in paise, the currency defaulting to "INR" and the receipt to
      "receipt_" followed by the current time in milliseconds. */
  function CreatePaymentOrder(amount: Option<int>, currency: Option<string>, receipt: Option<string>, now: nat)
    : (r: Result<GatewayOrder, PaymentError>)
    ensures r.Err? <==> !TruthyNum(amount)
    ensures r.Ok? ==> r.value.amount == 100 * amount.value && r.value.amount / 100 == amount.value
    ensures r.Ok? ==> r.value.currency == currency.GetOr("INR")
    ensures r.Ok? && Truthy(receipt) ==> r.value.receipt == receipt.value
    ensures r.Ok? && !Truthy(receipt) ==> var s := r.value.receipt;
      StartsWith(s, "receipt_") && AllDigits(s[8..]) && DecimalValue(s[8..]) == now
  {
    if !TruthyNum(amount) then Err(AmountRequired)
    else
      var rec := if Truthy(receipt) then receipt.value else "receipt_" + NatToString(now);
      assert !Truthy(receipt) ==> rec[8..] == NatToString(now);
      Ok(GatewayOrder(amount.value * 100, currency.GetOr("INR"), rec))
  }

  /** The message the gateway signs. */
  function SignatureMessage(orderId: string, paymentId: string): string {
    orderId + "|" + paymentId
  }

  /** The check: the HMAC of the message must equal the signature sent. */
  predicate SignatureValid(hmac: string -> string, orderId: string, paymentId: string, signature: string) {
    hmac(SignatureMessage(orderId, paymentId)) == signature
  }

  /** The message determines the pair it was built from when the order id
      holds no "|", as gateway ids do not. */
  lemma SignatureMessageInjective(o1: string, p1: string, o2: string, p2: string)
    requires '|' !in o1 && '|' !in o2
    requires SignatureMessage(o1, p1) == SignatureMessage(o2, p2)
    ensures o1 == o2 && p1 == p2
  {
    var m := SignatureMessage(o1, p1);
    SplitAfterPrefix(o1, p1, '|');
    SplitAfterPrefix(o2, p2, '|');
    assert Split(m, '|')[0] == o1;
    assert Split(m, '|')[0] == o2;
    assert m[|o1| + 1..] == p1;
  }

  /** Without that restriction two different pairs share a message. */
  lemma SignatureMessageAmbiguous()
    ensures SignatureMessage("a|b", "c") == SignatureMessage("a", "b|c")
  {
  }

  /** The payment path's order line: the unit price is the product's final
      price, without the add-on the subtotal charges for. */
  function PaymentLine(p: Catalog.Product, it: Carts.CartItem): OrderItem {
    OrderItem(it.product, p.name, p.finalPrice, it.quantity, it.size, it.color, Some(it.addOnName))
  }

  function PaymentLines(products: map<Catalog.ProductId, Catalog.Product>, items: seq<Carts.CartItem>): (r: seq<OrderItem>)
    requires Carts.AllPresent(products, items)
    ensures |r| == |items|
    ensures forall i :: 0 <= i < |items| ==> r[i] == PaymentLine(products[items[i].product], items[i])
  {
    if |items| == 0 then []
    else [PaymentLine(products[items[0].product], items[0])] + PaymentLines(products, items[1..])
  }

  /** What the add-ons contribute to a cart's amount. */
  function AddOnAmount(items: seq<Carts.CartItem>): int {
    if |items| == 0 then 0 else items[0].addOnPrice * items[0].quantity + AddOnAmount(items[1..])
  }

  /** The recorded lines fall short of the charged subtotal by exactly the add-ons. */
  lemma {:induction false} PaymentLinesShortfall(products: map<Catalog.ProductId, Catalog.Product>, items: seq<Carts.CartItem>)
    requires Carts.AllPresent(products, items)
    ensures LinesTotal(PaymentLines(products, items)) + AddOnAmount(items) == Carts.CartAmount(products, items)
  {
    if |items| > 0 {
      var it := items[0];
      var first := PaymentLine(products[it.product], it);
      PaymentLinesShortfall(products, items[1..]);
      LinesTotalAppend([first], PaymentLines(products, items[1..]));
      assert [first][..0] == [];
      var f := products[it.product].finalPrice;
      assert (f + it.addOnPrice) * it.quantity == f * it.quantity + it.addOnPrice * it.quantity;
    }
  }

  datatype PaymentRequest = PaymentRequest(
    orderId: string,
    paymentId: string,
    signature: string,
    shippingAddress: Option<ShippingAddress>,
    offerCode: Option<string>)

  /** `verifyPaymentAndCreateOrder`: a signature mismatch is refused first; then
      an absent or empty cart; a line whose product is gone fails the handler.
      The order is confirmed and paid by "Online", its total is its subtotal,
      the discount is 0, and the code (default "") is stored unused. The
      user's cart is emptied in place, without its save hook. */
  function VerifyPayment(hmac: string -> string, carts: map<Carts.UserId, Carts.Cart>,
                         products: map<Catalog.ProductId, Catalog.Product>, user: UserId,
                         req: PaymentRequest, id: OrderId)
    : (r: Result<(Order, map<Carts.UserId, Carts.Cart>), PaymentError>)
    ensures !SignatureValid(hmac, req.orderId, req.paymentId, req.signature) ==> r == Err(VerificationFailed)
    ensures (SignatureValid(hmac, req.orderId, req.paymentId, req.signature)
             && (user !in carts || |carts[user].items| == 0)) ==> r == Err(CartEmpty)
    ensures r.Ok? <==> && SignatureValid(hmac, req.orderId, req.paymentId, req.signature)
                       && user in carts && |carts[user].items| > 0
                       && Carts.AllPresent(products, carts[user].items)
                       && req.shippingAddress.Some? && ShippingValid(req.shippingAddress.value)
                       && Carts.QuantitiesValid(carts[user].items)
    ensures r.Ok? ==> var o := r.value.0; var items := carts[user].items;
      && o.userId == user
      && o.items == PaymentLines(products, items)
      && o.subtotal == Carts.CartAmount(products, items)
      && LinesTotal(o.items) == o.subtotal - AddOnAmount(items)
      && o.discount == 0 && o.total == o.subtotal
      && o.offerCode == Some(req.offerCode.GetOr(""))
      && o.status == Confirmed && o.paymentStatus == Paid && o.paymentMethod == "Online"
      && o.shippingAddress == Stored(req.shippingAddress.value)
    ensures r.Ok? ==> var c := r.value.1;
      && c.Keys == carts.Keys
      && c[user] == carts[user].(items := [], totalItems := 0, totalAmount := 0)
      && forall u :: u in carts && u != user ==> c[u] == carts[u]
  {
    if !SignatureValid(hmac, req.orderId, req.paymentId, req.signature) then Err(VerificationFailed)
    else if user !in carts || |carts[user].items| == 0 then Err(CartEmpty)
    else
      var items := carts[user].items;
      if !Carts.AllPresent(products, items) then Err(ServerError)
      else
        var lines := PaymentLines(products, items);
        var subtotal := Carts.CartAmount(products, items);
        PaymentLinesShortfall(products, items);
        assert ItemsValid(lines) <==> Carts.QuantitiesValid(items);
        if !ItemsValid(lines) || req.shippingAddress.None? || !ShippingValid(req.shippingAddress.value) then
          Err(ServerError)
        else
          var o := Order(id, user, lines, subtotal, 0, subtotal, Some(req.offerCode.GetOr("")),
                         Confirmed, Paid, "Online", Stored(req.shippingAddress.value));
          Ok((o, carts[user := carts[user].(items := [], totalItems := 0, totalAmount := 0)]))
  }

  /** A line with a paid add-on makes the order's lines add up to less than it charged. */
  lemma AddOnMakesLinesUndercount(hmac: string -> string, carts: map<Carts.UserId, Carts.Cart>,
                                  products: map<Catalog.ProductId, Catalog.Product>, user: UserId,
                                  req: PaymentRequest, id: OrderId)
    requires VerifyPayment(hmac, carts, products, user, req, id).Ok?
    requires AddOnAmount(carts[user].items) > 0
    ensures var o := VerifyPayment(hmac, carts, products, user, req, id).value.0;
      LinesTotal(o.items) < o.total
  {
  }
}

=== FILE: referral.dfy ===
/**
 The multi-level referral scheme: one account per user with a unique
 referral code, the link to the account that referred it, referral counters
 per level and earnings; and a ledger of bonus transactions.

 When a new user joins with a code, the code's owner gets a level-1 referral
 and a 500 bonus; the walk then follows `referredBy` upwards, giving the next
 account a level-2 referral and 250, and the one after that a level-3
 referral and 100. The walk stops after level 3, at an account with no
 referrer, or at a referrer that has no account.

 Accounts are a sequence in storage order (a query returns its first
 match); the ledger is a sequence in insertion order. The random suffix of
 a new code comes from a parameter: the draws the generator would make.
 */
module Referrals {
  import opened Common
  import opened Text

  type UserId = string

  datatype Rates = Rates(level1: int, level2: int, level3: int)

  /** The schema's default commission rates, in percent; the cascade never reads them. */
  const DefaultRates: Rates := Rates(10, 5, 2)

  datatype ReferralEntry = ReferralEntry(userId: UserId, level: int, joinedAt: int, isActive: bool, totalEarned: int)

  datatype Account = Account(
    userId: UserId,
    referralCode: string,
    referredBy: Option<UserId>,
    totalReferrals: int,
    activeReferrals: int,
    level1Referrals: int,
    level2Referrals: int,
    level3Referrals: int,
    totalEarnings: int,
    availableBalance: int,
    pendingWithdrawal: int,
    monthlyEarnings: int,
    referrals: seq<ReferralEntry>,
    rates: Rates,
    isActive: bool)

  /** A fresh account: every counter and balance 0, no referrals, default rates, active. */
  function NewAccount(userId: UserId, code: string, referredBy: Option<UserId>): Account {
    Account(userId, code, referredBy, 0, 0, 0, 0, 0, 0, 0, 0, 0, [], DefaultRates, true)
  }

  datatype TxType = ReferralBonus | Task | Withdrawal | Bonus | Commission
  datatype TxStatus = TxPending | Completed | TxFailed

  function TxTypeName(t: TxType): string {
    match t
    case ReferralBonus => "referral"
    case Task => "task"
    case Withdrawal => "withdrawal"
    case Bonus => "bonus"
    case Commission => "commission"
  }

  /** The schema's enum check on a transaction's `type`. */
  function ParseTxType(s: string): (r: Option<TxType>)
    ensures r.Some? ==> TxTypeName(r.value) == s
    ensures r.None? ==> forall t: TxType :: TxTypeName(t) != s
  {
    if s == "referral" then Some(ReferralBonus)
    else if s == "task" then Some(Task)
    else if s == "withdrawal" then Some(Withdrawal)
    else if s == "bonus" then Some(Bonus)
    else if s == "commission" then Some(Commission)
    else None
  }

  lemma TxTypeRoundTrip(t: TxType)
    ensures ParseTxType(TxTypeName(t)) == Some(t)
  {
  }

  function TxStatusName(s: TxStatus): string {
    match s
    case TxPending => "pending"
    case Completed => "completed"
    case TxFailed => "failed"
  }

  function ParseTxStatus(s: string): (r: Option<TxStatus>)
    ensures r.Some? ==> TxStatusName(r.value) == s
    ensures r.None? ==> forall t: TxStatus :: TxStatusName(t) != s
  {
    if s == "pending" then Some(TxPending)
    else if s == "completed" then Some(Completed)
    else if s == "failed" then Some(TxFailed)
    else None
  }

  lemma TxStatusRoundTrip(t: TxStatus)
    ensures ParseTxStatus(TxStatusName(t)) == Some(t)
  {
  }

  /** A ledger entry; `level` is 1, 2, 3 or absent. */
  datatype Transaction = Transaction(
    userId: UserId,
    txType: TxType,
    amount: int,
    description: string,
    relatedUser: Option<UserId>,
    level: Option<int>,
    status: TxStatus,
    date: int)

  /** The schema's checks on a ledger entry. */
  predicate ValidTransaction(t: Transaction) {
    t.description != "" && (t.level.Some? ==> 1 <= t.level.value <= 3)
  }

  /** The fixed bonus per level. */
  function LevelBonus(level: int): (r: int)
    requires 1 <= level <= 3
    ensures r > 0
    ensures level == 1 ==> r == 500
    ensures level == 2 ==> r == 250
    ensures level == 3 ==> r == 100
  {
    if level == 1 then 500 else if level == 2 then 250 else 100
  }

  /** The bonus falls strictly with the level. */
  lemma LevelBonusDecreasing(l1: int, l2: int)
    requires 1 <= l1 < l2 <= 3
    ensures LevelBonus(l2) < LevelBonus(l1)
  {
  }

  function LevelDescription(level: nat): string {
    if level == 1 then "Level 1 Referral Bonus" else "Level " + NatToString(level) + " Referral Commission"
  }

  /** The ledger entry for a credit at a level: a "referral" at level 1, a
      "commission" above it, naming the joiner as the related user. */
  function LevelTx(referrer: UserId, newUser: UserId, level: int, now: int): (r: Transaction)
    requires 1 <= level <= 3
    ensures ValidTransaction(r)
    ensures r.userId == referrer && r.relatedUser == Some(newUser) && r.level == Some(level)
    ensures r.amount == LevelBonus(level) && r.status == Completed
    ensures r.txType == (if level == 1 then ReferralBonus else Commission)
  {
    Transaction(referrer, if level == 1 then ReferralBonus else Commission, LevelBonus(level),
                LevelDescription(level), Some(newUser), Some(level), Completed, now)
  }

  /** One account's share of a join: a new active entry at the level, one more
      total and active referral, one more at that level, and the level's bonus
      added to earnings, balance and month. Nothing else changes. */
  function Credit(a: Account, newUser: UserId, level: int, now: int): (r: Account)
    requires 1 <= level <= 3
    ensures r.userId == a.userId && r.referralCode == a.referralCode && r.referredBy == a.referredBy
    ensures r.rates == a.rates && r.isActive == a.isActive && r.pendingWithdrawal == a.pendingWithdrawal
    ensures r.referrals == a.referrals + [ReferralEntry(newUser, level, now, true, 0)]
    ensures r.totalReferrals == a.totalReferrals + 1 && r.activeReferrals == a.activeReferrals + 1
    ensures r.level1Referrals == a.level1Referrals + (if level == 1 then 1 else 0)
    ensures r.level2Referrals == a.level2Referrals + (if level == 2 then 1 else 0)
    ensures r.level3Referrals == a.level3Referrals + (if level == 3 then 1 else 0)
    ensures r.totalEarnings == a.totalEarnings + LevelBonus(level)
    ensures r.availableBalance == a.availableBalance + LevelBonus(level)
    ensures r.monthlyEarnings == a.monthlyEarnings + LevelBonus(level)
  {
    var b := LevelBonus(level);
    a.(referrals := a.referrals + [ReferralEntry(newUser, level, now, true, 0)],
       totalReferrals := a.totalReferrals + 1,
       activeReferrals := a.activeReferrals + 1,
       level1Referrals := if level == 1 then a.level1Referrals + 1 else a.level1Referrals,
       level2Referrals := if level == 2 then a.level2Referrals + 1 else a.level2Referrals,
       level3Referrals := if level == 3 then a.level3Referrals + 1 else a.level3Referrals,
       totalEarnings := a.totalEarnings + b,
       availableBalance := a.availableBalance + b,
       monthlyEarnings := a.monthlyEarnings + b)
  }

  /** The counters and balances agree with the referral list: what the
      cascade keeps true of an account that starts at zero. */
  predicate Balanced(a: Account) {
    && a.totalReferrals == a.activeReferrals == a.level1Referrals + a.level2Referrals + a.level3Referrals
    && |a.referrals| == a.totalReferrals
    && a.totalEarnings == a.availableBalance == a.monthlyEarnings
    && a.totalEarnings == 500 * a.level1Referrals + 250 * a.level2Referrals + 100 * a.level3Referrals
  }

  lemma NewAccountBalanced(userId: UserId, code: string, referredBy: Option<UserId>)
    ensures Balanced(NewAccount(userId, code, referredBy))
    ensures NewAccount(userId, code, referredBy).rates == Rates(10, 5, 2)
  {
  }

  lemma CreditBalanced(a: Account, newUser: UserId, level: int, now: int)
    requires 1 <= level <= 3 && Balanced(a)
    ensures Balanced(Credit(a, newUser, level, now))
  {
  }

  /** `findOne({ userId })`: the first account of that user. */
  function IndexOfUser(accounts: seq<Account>, u: UserId): (r: Option<nat>)
    ensures r.Some? ==> r.value < |accounts| && accounts[r.value].userId == u
    ensures r.Some? ==> forall j :: 0 <= j < r.value ==> accounts[j].userId != u
    ensures r.None? <==> forall j :: 0 <= j < |accounts| ==> accounts[j].userId != u
  {
    if |accounts| == 0 then None
    else if accounts[0].userId == u then Some(0)
    else match IndexOfUser(accounts[1..], u)
      case None => None
      case Some(k) => Some(k + 1)
  }

  /** `findOne({ referralCode })`: the first account holding exactly that code. */
  function IndexOfCode(accounts: seq<Account>, code: string): (r: Option<nat>)
    ensures r.Some? ==> r.value < |accounts| && accounts[r.value].referralCode == code
    ensures r.None? <==> forall j :: 0 <= j < |accounts| ==> accounts[j].referralCode != code
  {
    if |accounts| == 0 then None
    else if accounts[0].referralCode == code then Some(0)
    else match IndexOfCode(accounts[1..], code)
      case None => None
      case Some(k) => Some(k + 1)
  }

  /** The unique indexes on user and code. */
  predicate WellFormed(accounts: seq<Account>) {
    forall i, j :: 0 <= i < j < |accounts| ==>
      accounts[i].userId != accounts[j].userId && accounts[i].referralCode != accounts[j].referralCode
  }

  predicate IsCodeChar(c: char) {
    IsUpper(c) || IsDigit(c)
  }

  /** Six characters drawn from A-Z and 0-9. */
  predicate ValidSuffix(s: string) {
    |s| == 6 && forall i :: 0 <= i < 6 ==> IsCodeChar(s[i])
  }

  /** The shape of a generated code: "KS4" and six characters from A-Z0-9. */
  predicate CodeShape(code: string) {
    |code| == 9 && StartsWith(code, "KS4") && forall i :: 0 <= i < 9 ==> IsCodeChar(code[i])
  }

  predicate CodeUsed(accounts: seq<Account>, code: string) {
    exists j :: 0 <= j < |accounts| && accounts[j].referralCode == code
  }

  /** The generator's retry loop: the first drawn code no account holds. */
  function GenerateCode(accounts: seq<Account>, draws: seq<string>): (r: string)
    requires forall i :: 0 <= i < |draws| ==> ValidSuffix(draws[i])
    requires exists i :: 0 <= i < |draws| && !CodeUsed(accounts, "KS4" + draws[i])
    ensures CodeShape(r) && NoLower(r)
    ensures !CodeUsed(accounts, r)
    ensures exists i :: 0 <= i < |draws| && r == "KS4" + draws[i]
                        && forall j :: 0 <= j < i ==> CodeUsed(accounts, "KS4" + draws[j])
  {
    assert ValidSuffix(draws[0]);
    var code := "KS4" + draws[0];
    assert |code| == 9 && code[..3] == "KS4";
    assert forall i :: 3 <= i < 9 ==> code[i] == draws[0][i - 3];
    if !CodeUsed(accounts, code) then code
    else
      assert forall i :: 0 <= i < |draws[1..]| ==> draws[1..][i] == draws[i + 1];
      GenerateCode(accounts, draws[1..])
  }

  /** Two stores holding the same accounts, as far as who they are and who
      referred them: what crediting never changes. */
  predicate SameIdentities(a: seq<Account>, b: seq<Account>) {
    |a| == |b|
    && forall j :: 0 <= j < |a| ==>
      a[j].userId == b[j].userId && a[j].referralCode == b[j].referralCode && a[j].referredBy == b[j].referredBy
  }

  /** The walk above level 1, as `handleMultiLevelReferral` does it: give up
      past level 3 or when the referrer has no account; otherwise credit the
      referrer, record the commission, and continue with its own referrer. */
  function Cascade(accounts: seq<Account>, ledger: seq<Transaction>, referrer: UserId, newUser: UserId,
                   level: int, now: int): (r: (seq<Account>, seq<Transaction>))
    requires level >= 1
    ensures SameIdentities(r.0, accounts)
    ensures |ledger| <= |r.1| <= |ledger| + Max(0, 4 - level)
    ensures r.1[..|ledger|] == ledger
    decreases 4 - level
  {
    if level > 3 then (accounts, ledger)
    else match IndexOfUser(accounts, referrer)
      case None => (accounts, ledger)
      case Some(k) =>
        var a := accounts[k];
        var acc := accounts[k := Credit(a, newUser, level, now)];
        var led := ledger + [LevelTx(referrer, newUser, level, now)];
        if a.referredBy.Some? then
          var r := Cascade(acc, led, a.referredBy.value, newUser, level + 1, now);
          assert r.1[..|led|] == led;
          assert led[..|ledger|] == ledger;
          r
        else (acc, led)
  }

  datatype ReferralError =
    | InvalidCode        // 404 Invalid referral code
    | Validation         // schema failure creating the account (500)
    | DuplicateAccount   // unique index on userId (500)
    | InvalidUserId      // 400 Invalid User ID format
    | UserNotFound       // 404 User not found

  /** The corrected account creation: a user id is required, one account per
      user, and the code is generated before the document is checked. */
  function CreateAccount(accounts: seq<Account>, userId: UserId, referredBy: Option<UserId>,
                         draws: seq<string>): (r: Result<seq<Account>, ReferralError>)
    requires forall i :: 0 <= i < |draws| ==> ValidSuffix(draws[i])
    requires exists i :: 0 <= i < |draws| && !CodeUsed(accounts, "KS4" + draws[i])
    ensures r.Ok? <==> userId != "" && IndexOfUser(accounts, userId).None?
    ensures r.Ok? ==> |r.value| == |accounts| + 1 && r.value[..|accounts|] == accounts
    ensures r.Ok? ==> var a := r.value[|accounts|];
      && a == NewAccount(userId, a.referralCode, referredBy)
      && CodeShape(a.referralCode) && !CodeUsed(accounts, a.referralCode)
    ensures r.Ok? && WellFormed(accounts) ==> WellFormed(r.value)
  {
    if userId == "" then Err(Validation)
    else if IndexOfUser(accounts, userId).Some? then Err(DuplicateAccount)
    else
      var a := NewAccount(userId, GenerateCode(accounts, draws), referredBy);
      var r := accounts + [a];
      assert r[..|accounts|] == accounts;
      Ok(r)
  }

  /** Account creation as the schema declares it: the code is `required`, and
      the checks run before the save hook that would fill it in, so an account
      created without a code is refused. */
  function CreateAccountAsWritten(accounts: seq<Account>, userId: UserId, referredBy: Option<UserId>,
                                  code: Option<string>): (r: Result<seq<Account>, ReferralError>)
    ensures !Truthy(code) ==> r == Err(Validation)
    ensures r.Ok? ==> |r.value| == |accounts| + 1 && r.value[|accounts|].referralCode == code.value
  {
    if userId == "" || !Truthy(code) then Err(Validation)
    else if IndexOfUser(accounts, userId).Some? then Err(DuplicateAccount)
    else Ok(accounts + [NewAccount(userId, code.value, referredBy)])
  }

  /** `addReferral` as written: the new account is created without a code. */
  function AddReferralAsWritten(accounts: seq<Account>, ledger: seq<Transaction>, code: string,
                                newUser: UserId, now: int): (r: Result<(seq<Account>, seq<Transaction>), ReferralError>)
    ensures IndexOfCode(accounts, ToUpper(code)).None? ==> r == Err(InvalidCode)
  {
    match IndexOfCode(accounts, ToUpper(code))
    case None => Err(InvalidCode)
    case Some(k) =>
      var created :- CreateAccountAsWritten(accounts, newUser, Some(accounts[k].userId), None);
      var acc := created[k := Credit(created[k], newUser, 1, now)];
      var led := ledger + [LevelTx(accounts[k].userId, newUser, 1, now)];
      if accounts[k].referredBy.Some? then Ok(Cascade(acc, led, accounts[k].referredBy.value, newUser, 2, now))
      else Ok((acc, led))
  }

  /** As written, no join with a valid code ever succeeds: nobody is credited
      and the ledger is untouched. */
  lemma AddReferralAsWrittenAlwaysFails(accounts: seq<Account>, ledger: seq<Transaction>, code: string,
                                        newUser: UserId, now: int)
    ensures AddReferralAsWritten(accounts, ledger, code, newUser, now).Err?
    ensures IndexOfCode(accounts, ToUpper(code)).Some? ==> AddReferralAsWritten(accounts, ledger, code, newUser, now) == Err(Validation)
  {
  }

  /** The credits of one join, starting with the code's owner at position `k`:
      level 1 for the owner, then the walk from the owner's referrer at level 2. */
  function Join(accounts: seq<Account>, ledger: seq<Transaction>, k: nat, newUser: UserId, now: int)
    : (r: (seq<Account>, seq<Transaction>))
    requires k < |accounts|
    ensures SameIdentities(r.0, accounts)
    ensures |ledger| + 1 <= |r.1| <= |ledger| + 3 && r.1[..|ledger|] == ledger
    ensures r.1[|ledger|] == LevelTx(accounts[k].userId, newUser, 1, now)
  {
    var referrer := accounts[k];
    var acc := accounts[k := Credit(referrer, newUser, 1, now)];
    var led := ledger + [LevelTx(referrer.userId, newUser, 1, now)];
    if referrer.referredBy.Some? then
      var c := Cascade(acc, led, referrer.referredBy.value, newUser, 2, now);
      assert c.1[..|led|] == led;
      assert c.1[|ledger|] == led[|ledger|];
      assert led[..|ledger|] == ledger;
      c
    else (acc, led)
  }

  /** `addReferral` with account creation corrected: the code must be held by
      an account (compared upper-cased: the schema's `uppercase` setter casts
      the query value too); the joiner's account is created, linked to the
      code's owner; the owner is credited at level 1 and the walk carries on
      from the owner's referrer at level 2. The result also gives the joiner's
      new code. */
  function AddReferral(accounts: seq<Account>, ledger: seq<Transaction>, code: string, newUser: UserId,
                       draws: seq<string>, now: int): (r: Result<(seq<Account>, seq<Transaction>, string), ReferralError>)
    requires forall i :: 0 <= i < |draws| ==> ValidSuffix(draws[i])
    requires exists i :: 0 <= i < |draws| && !CodeUsed(accounts, "KS4" + draws[i])
    ensures IndexOfCode(accounts, ToUpper(code)).None? ==> r == Err(InvalidCode)
    ensures r.Ok? <==> IndexOfCode(accounts, ToUpper(code)).Some? && newUser != "" && IndexOfUser(accounts, newUser).None?
    ensures r.Ok? ==> var k := IndexOfCode(accounts, ToUpper(code)).value;
      && var created := CreateAccount(accounts, newUser, Some(accounts[k].userId), draws).value;
      && r.value.2 == created[|accounts|].referralCode
      && (r.value.0, r.value.1) == Join(created, ledger, k, newUser, now)
  {
    match IndexOfCode(accounts, ToUpper(code))
    case None => Err(InvalidCode)
    case Some(k) =>
      var created :- CreateAccount(accounts, newUser, Some(accounts[k].userId), draws);
      var j := Join(created, ledger, k, newUser, now);
      Ok((j.0, j.1, created[|accounts|].referralCode))
  }

  /** What a successful join leaves behind: one more account, the joiner's,
      linked to the code's owner and holding a fresh code of the generated
      shape; between one and three new ledger entries, the first being the
      owner's level-1 bonus. */
  lemma AddReferralShape(accounts: seq<Account>, ledger: seq<Transaction>, code: string, newUser: UserId,
                         draws: seq<string>, now: int)
    requires forall i :: 0 <= i < |draws| ==> ValidSuffix(draws[i])
    requires exists i :: 0 <= i < |draws| && !CodeUsed(accounts, "KS4" + draws[i])
    requires AddReferral(accounts, ledger, code, newUser, draws, now).Ok?
    ensures var r := AddReferral(accounts, ledger, code, newUser, draws, now).value;
      var k := IndexOfCode(accounts, ToUpper(code)).value;
      && |r.0| == |accounts| + 1
      && |ledger| + 1 <= |r.1| <= |ledger| + 3 && r.1[..|ledger|] == ledger
      && r.1[|ledger|] == LevelTx(accounts[k].userId, newUser, 1, now)
      && r.0[|accounts|].userId == newUser
      && r.0[|accounts|].referredBy == Some(accounts[k].userId)
      && r.0[|accounts|].referralCode == r.2
      && CodeShape(r.2) && !CodeUsed(accounts, r.2)
  {
    var k := IndexOfCode(accounts, ToUpper(code)).value;
    var created := CreateAccount(accounts, newUser, Some(accounts[k].userId), draws).value;
  }

  /** `verifyReferralCode`: the code is upper-cased before the lookup. */
  function VerifyReferralCode(accounts: seq<Account>, code: string): (r: bool)
    ensures r <==> CodeUsed(accounts, ToUpper(code))
  {
    IndexOfCode(accounts, ToUpper(code)).Some?
  }

  /** A text without lower-case letters is its own upper-case form. */
  lemma ToUpperNoLower(s: string)
    requires NoLower(s)
    ensures ToUpper(s) == s
  {
  }

  /** A code that `verifyReferralCode` accepts is accepted by the join too:
      both compare the upper-cased code, the one by hand and the other
      through the schema's `uppercase` setter on the query value. */
  lemma VerifyThenAddAgree(accounts: seq<Account>, ledger: seq<Transaction>, code: string, newUser: UserId,
                           draws: seq<string>, now: int)
    requires forall i :: 0 <= i < |draws| ==> ValidSuffix(draws[i])
    requires exists i :: 0 <= i < |draws| && !CodeUsed(accounts, "KS4" + draws[i])
    requires newUser != "" && IndexOfUser(accounts, newUser).None?
    ensures VerifyReferralCode(accounts, code) <==> AddReferral(accounts, ledger, code, newUser, draws, now).Ok?
  {
    if VerifyReferralCode(accounts, code) {
      var j :| 0 <= j < |accounts| && accounts[j].referralCode == ToUpper(code);
      assert IndexOfCode(accounts, ToUpper(code)).Some?;
    }
  }

  /** The newest-first order of the listing: later ledger entries come first. */
  function Newest(ledger: seq<Transaction>): (r: seq<Transaction>)
    ensures |r| == |ledger|
    ensures forall i :: 0 <= i < |ledger| ==> r[i] == ledger[|ledger| - 1 - i]
  {
    if |ledger| == 0 then [] else [ledger[|ledger| - 1]] + Newest(ledger[..|ledger| - 1])
  }

  predicate Listed(t: Transaction, user: UserId, txType: Option<string>) {
    t.userId == user && (Truthy(txType) && txType.value != "all" ==> TxTypeName(t.txType) == txType.value)
  }

  function FilterListed(ts: seq<Transaction>, user: UserId, txType: Option<string>): (r: seq<Transaction>)
    ensures |r| <= |ts|
    ensures forall t :: t in r <==> t in ts && Listed(t, user, txType)
  {
    if |ts| == 0 then []
    else if Listed(ts[0], user, txType) then [ts[0]] + FilterListed(ts[1..], user, txType)
    else FilterListed(ts[1..], user, txType)
  }

  /** `getMLMTransactions`: a user id that is not ObjectId-shaped is refused,
      then one no user holds; otherwise the user's entries, of the requested
      type unless none or "all" is asked for, newest first, at most `limit` of
      them (default 50; a limit of 0 means no limit). `users` holds the ids of
      the registered users. */
  function ListTransactions(users: set<UserId>, ledger: seq<Transaction>, user: UserId, txType: Option<string>,
                            limit: Option<nat>): (r: Result<seq<Transaction>, ReferralError>)
    ensures !IsObjectId(user) ==> r == Err(InvalidUserId)
    ensures IsObjectId(user) && user !in users ==> r == Err(UserNotFound)
    ensures r.Ok? <==> IsObjectId(user) && user in users
    ensures r.Ok? ==> forall t :: t in r.value ==> t in ledger && Listed(t, user, txType)
    ensures r.Ok? ==> var n := limit.GetOr(50); var all := FilterListed(Newest(ledger), user, txType);
      && (n == 0 || |all| <= n ==> r.value == all)
      && (n > 0 && |all| > n ==> r.value == all[..n])
    ensures r.Ok? && limit.GetOr(50) > 0 ==> |r.value| <= limit.GetOr(50)
  {
    if !IsObjectId(user) then Err(InvalidUserId)
    else if user !in users then Err(UserNotFound)
    else
      var n := limit.GetOr(50);
      var all := FilterListed(Newest(ledger), user, txType);
      assert forall t :: t in Newest(ledger) ==> t in ledger;
      if n == 0 || |all| <= n then Ok(all)
      else
        assert forall t :: t in all[..n] ==> t in all;
        Ok(all[..n])
  }

  /** With "all", or no type, the listing holds every entry of the user up to the limit. */
  lemma ListAllTypes(users: set<UserId>, ledger: seq<Transaction>, user: UserId, t: Transaction)
    requires t in ledger && t.userId == user && IsObjectId(user) && user in users
    ensures t in ListTransactions(users, ledger, user, Some("all"), Some(0)).value
    ensures t in ListTransactions(users, ledger, user, None, Some(0)).value
  {
    var i :| 0 <= i < |ledger| && ledger[i] == t;
    assert Newest(ledger)[|ledger| - 1 - i] == t;
  }
}

=== FILE: referral_props.dfy ===
/**
 The referral walk made explicit. `Chain` lists the accounts the walk
 visits and the level each is credited at; `ApplyPath` credits a list of
 such steps in order. The cascade is exactly the fold of its chain, so what
 a join does is read off a path of at most three steps: how many ledger
 entries it writes, who is paid what, and who is left alone.
 */
module ReferralProps {
  import opened Common
  import opened Referrals
  import Text

  /** One credit: the account at `index` gets a referral at `level`. */
  datatype Step = Step(index: nat, level: int)

  predicate StepsValid(accounts: seq<Account>, path: seq<Step>) {
    forall i :: 0 <= i < |path| ==> path[i].index < |accounts| && 1 <= path[i].level <= 3
  }

  /** The accounts the walk from `start` visits, each with its level: it stops
      past level 3 or where no account holds the referrer. */
  function Chain(accounts: seq<Account>, start: UserId, level: int): (r: seq<Step>)
    requires level >= 1
    ensures |r| <= Max(0, 4 - level)
    ensures forall i :: 0 <= i < |r| ==> r[i].index < |accounts| && r[i].level == level + i && r[i].level <= 3
    decreases 4 - level
  {
    if level > 3 then []
    else match IndexOfUser(accounts, start)
      case None => []
      case Some(k) =>
        if accounts[k].referredBy.Some? then [Step(k, level)] + Chain(accounts, accounts[k].referredBy.value, level + 1)
        else [Step(k, level)]
  }

  /** One level of the walk, from the account at `k` holding `start`. */
  lemma ChainUnfold(accounts: seq<Account>, start: UserId, level: int, k: nat)
    requires 1 <= level <= 3 && IndexOfUser(accounts, start) == Some(k)
    ensures Chain(accounts, start, level)
            == if accounts[k].referredBy.Some?
               then [Step(k, level)] + Chain(accounts, accounts[k].referredBy.value, level + 1)
               else [Step(k, level)]
  {
  }

  /** The walk from a referrer no account holds visits nothing. */
  lemma ChainMissing(accounts: seq<Account>, start: UserId, level: int)
    requires level >= 1 && IndexOfUser(accounts, start).None?
    ensures Chain(accounts, start, level) == []
  {
  }

  /** Each step's account names the next step's account as its referrer. */
  predicate LinksUp(accounts: seq<Account>, r: seq<Step>)
    requires forall i :: 0 <= i < |r| ==> r[i].index < |accounts|
  {
    forall i :: 0 <= i < |r| - 1 ==>
      accounts[r[i].index].referredBy.Some?
      && IndexOfUser(accounts, accounts[r[i].index].referredBy.value) == Some(r[i + 1].index)
  }

  /** A step whose referrer holds the first account of a linked path, put in
      front of it, keeps it linked. */
  lemma LinksUpCons(accounts: seq<Account>, s: Step, rest: seq<Step>)
    requires s.index < |accounts| && forall i :: 0 <= i < |rest| ==> rest[i].index < |accounts|
    requires LinksUp(accounts, rest)
    requires |rest| > 0 ==> accounts[s.index].referredBy.Some?
                            && IndexOfUser(accounts, accounts[s.index].referredBy.value) == Some(rest[0].index)
    ensures LinksUp(accounts, [s] + rest)
  {
    var r := [s] + rest;
    forall i | 0 <= i < |r| - 1
      ensures accounts[r[i].index].referredBy.Some?
      ensures IndexOfUser(accounts, accounts[r[i].index].referredBy.value) == Some(r[i + 1].index)
    {
      assert r[i + 1] == rest[i];
      if i > 0 {
        assert r[i] == rest[i - 1];
      }
    }
  }

  /** The walk's last step: the account holding `start` has no referrer, or
      the walk is at level 3. */
  lemma ChainLinksEnd(accounts: seq<Account>, start: UserId, level: int, k: nat)
    requires 1 <= level <= 3 && IndexOfUser(accounts, start) == Some(k)
    requires accounts[k].referredBy.None? || level == 3
    ensures Chain(accounts, start, level) == [Step(k, level)]
    ensures LinksUp(accounts, [Step(k, level)])
  {
    ChainUnfold(accounts, start, level, k);
    if accounts[k].referredBy.Some? {
      assert Chain(accounts, accounts[k].referredBy.value, level + 1) == [];
    }
  }

  /** A step that goes on: the links of the walk from the referrer extend to
      the walk from `start`. */
  lemma ChainLinksStep(accounts: seq<Account>, start: UserId, level: int, k: nat)
    requires 1 <= level < 3 && IndexOfUser(accounts, start) == Some(k) && accounts[k].referredBy.Some?
    requires var rest := Chain(accounts, accounts[k].referredBy.value, level + 1);
      && (|rest| > 0 ==> IndexOfUser(accounts, accounts[k].referredBy.value) == Some(rest[0].index))
      && LinksUp(accounts, rest)
    ensures var r := Chain(accounts, start, level);
      |r| > 0 && r[0].index == k && LinksUp(accounts, r)
  {
    ChainUnfold(accounts, start, level, k);
    LinksUpCons(accounts, Step(k, level), Chain(accounts, accounts[k].referredBy.value, level + 1));
  }

  /** The walk follows the referrer links: it starts at the account holding
      `start`, and each step's account names the next step's account as its
      referrer. */
  lemma {:induction false} ChainLinks(accounts: seq<Account>, start: UserId, level: int)
    requires 1 <= level <= 3
    ensures var r := Chain(accounts, start, level);
      && (|r| > 0 <==> IndexOfUser(accounts, start).Some?)
      && (|r| > 0 ==> IndexOfUser(accounts, start) == Some(r[0].index))
      && LinksUp(accounts, r)
    decreases 4 - level
  {
    var found := IndexOfUser(accounts, start);
    if found.None? {
      ChainMissing(accounts, start, level);
    } else {
      var next := accounts[found.value].referredBy;
      if next.Some? && level < 3 {
        ChainLinks(accounts, next.value, level + 1);
        ChainLinksStep(accounts, start, level, found.value);
      } else {
        ChainLinksEnd(accounts, start, level, found.value);
      }
    }
  }

  /** Credit each step in turn, writing its ledger entry. */
  function ApplyPath(accounts: seq<Account>, ledger: seq<Transaction>, path: seq<Step>, newUser: UserId, now: int)
    : (r: (seq<Account>, seq<Transaction>))
    requires StepsValid(accounts, path)
    ensures SameIdentities(r.0, accounts)
    decreases |path|
  {
    if |path| == 0 then (accounts, ledger)
    else
      var k, l := path[0].index, path[0].level;
      ApplyPath(accounts[k := Credit(accounts[k], newUser, l, now)],
                ledger + [LevelTx(accounts[k].userId, newUser, l, now)], path[1..], newUser, now)
  }

  /** Looking a user up gives the same answer in stores with the same identities. */
  lemma {:induction false} IndexOfUserStable(a: seq<Account>, b: seq<Account>, u: UserId)
    requires SameIdentities(a, b)
    ensures IndexOfUser(a, u) == IndexOfUser(b, u)
  {
    if |a| > 0 {
      IndexOfUserStable(a[1..], b[1..], u);
    }
  }

  /** So the walk visits the same accounts however they have been credited. */
  lemma {:induction false} ChainStable(a: seq<Account>, b: seq<Account>, start: UserId, level: int)
    requires level >= 1 && SameIdentities(a, b)
    ensures Chain(a, start, level) == Chain(b, start, level)
    decreases 4 - level
  {
    IndexOfUserStable(a, b, start);
    var found := IndexOfUser(a, start);
    if level <= 3 && found.Some? {
      var k := found.value;
      var next := a[k].referredBy;
      assert b[k].referredBy == next;
      ChainUnfold(a, start, level, k);
      ChainUnfold(b, start, level, k);
      if next.Some? {
        ChainStable(a, b, next.value, level + 1);
      }
    }
  }


  /** The cascade is the fold of its chain. */
  lemma {:induction false} CascadeIsPathFold(accounts: seq<Account>, ledger: seq<Transaction>, start: UserId,
                                             newUser: UserId, level: int, now: int)
    requires level >= 1
    ensures Cascade(accounts, ledger, start, newUser, level, now)
            == ApplyPath(accounts, ledger, Chain(accounts, start, level), newUser, now)
    decreases 4 - level
  {
    if level <= 3 {
      match IndexOfUser(accounts, start)
      case None =>
      case Some(k) =>
        var a := accounts[k];
        var acc := accounts[k := Credit(a, newUser, level, now)];
        var led := ledger + [LevelTx(start, newUser, level, now)];
        if a.referredBy.Some? {
          CascadeIsPathFold(acc, led, a.referredBy.value, newUser, level + 1, now);
          ChainStable(acc, accounts, a.referredBy.value, level + 1);
          var path := Chain(accounts, start, level);
          assert path[1..] == Chain(accounts, a.referredBy.value, level + 1);
        }
    }
  }

  /** The steps of a join through the code's owner at `k`: the owner at level 1,
      then the walk from the owner's referrer at level 2. */
  function JoinPath(accounts: seq<Account>, k: nat): (r: seq<Step>)
    requires k < |accounts|
    ensures 1 <= |r| <= 3 && r[0] == Step(k, 1)
    ensures StepsValid(accounts, r)
    ensures forall i :: 0 <= i < |r| ==> r[i].level == i + 1
  {
    if accounts[k].referredBy.Some? then [Step(k, 1)] + Chain(accounts, accounts[k].referredBy.value, 2)
    else [Step(k, 1)]
  }

  lemma JoinIsPathFold(accounts: seq<Account>, ledger: seq<Transaction>, k: nat, newUser: UserId, now: int)
    requires k < |accounts|
    ensures Join(accounts, ledger, k, newUser, now) == ApplyPath(accounts, ledger, JoinPath(accounts, k), newUser, now)
  {
    var a := accounts[k];
    var acc := accounts[k := Credit(a, newUser, 1, now)];
    var led := ledger + [LevelTx(a.userId, newUser, 1, now)];
    if a.referredBy.Some? {
      CascadeIsPathFold(acc, led, a.referredBy.value, newUser, 2, now);
      ChainStable(acc, accounts, a.referredBy.value, 2);
      assert JoinPath(accounts, k)[1..] == Chain(accounts, a.referredBy.value, 2);
    }
  }

  /** One step of the fold: the first account is credited and its entry
      written, and the rest of the path is still valid for the new store. */
  lemma ApplyPathStep(accounts: seq<Account>, ledger: seq<Transaction>, path: seq<Step>, newUser: UserId, now: int)
    requires StepsValid(accounts, path) && |path| > 0
    ensures var k, l := path[0].index, path[0].level;
      var acc := accounts[k := Credit(accounts[k], newUser, l, now)];
      && SameIdentities(acc, accounts)
      && StepsValid(acc, path[1..])
      && ApplyPath(accounts, ledger, path, newUser, now)
         == ApplyPath(acc, ledger + [LevelTx(accounts[k].userId, newUser, l, now)], path[1..], newUser, now)
  {
    var acc := accounts[path[0].index := Credit(accounts[path[0].index], newUser, path[0].level, now)];
    var rest := path[1..];
    forall j | 0 <= j < |rest|
      ensures rest[j].index < |acc| && 1 <= rest[j].level <= 3
    {
      assert rest[j] == path[j + 1];
    }
  }

  /** The fold writes one entry per step, in order, each naming the joiner. */
  lemma {:induction false} ApplyPathLedger(accounts: seq<Account>, ledger: seq<Transaction>, path: seq<Step>,
                                           newUser: UserId, now: int)
    requires StepsValid(accounts, path)
    ensures var r := ApplyPath(accounts, ledger, path, newUser, now);
      && |r.1| == |ledger| + |path| && r.1[..|ledger|] == ledger
      && forall i :: 0 <= i < |path| ==>
           r.1[|ledger| + i] == LevelTx(accounts[path[i].index].userId, newUser, path[i].level, now)
    decreases |path|
  {
    if |path| > 0 {
      var k, l := path[0].index, path[0].level;
      var acc := accounts[k := Credit(accounts[k], newUser, l, now)];
      var e := LevelTx(accounts[k].userId, newUser, l, now);
      var led := ledger + [e];
      ApplyPathStep(accounts, ledger, path, newUser, now);
      ApplyPathLedger(acc, led, path[1..], newUser, now);
      LedgerCons(ApplyPath(acc, led, path[1..], newUser, now).1, ledger, led, e, accounts, acc, path, newUser, now);
    }
  }

  /** The entries written after the first step's entry, read back against
      the store before that step: the first step's entry comes first. */
  lemma LedgerCons(q: seq<Transaction>, ledger: seq<Transaction>, led: seq<Transaction>, e: Transaction,
                   accounts: seq<Account>, acc: seq<Account>, path: seq<Step>, newUser: UserId, now: int)
    requires StepsValid(accounts, path) && |path| > 0 && SameIdentities(acc, accounts) && StepsValid(acc, path[1..])
    requires e == LevelTx(accounts[path[0].index].userId, newUser, path[0].level, now) && led == ledger + [e]
    requires |q| == |led| + |path[1..]| && q[..|led|] == led
    requires forall i :: 0 <= i < |path[1..]| ==>
      q[|led| + i] == LevelTx(acc[path[1..][i].index].userId, newUser, path[1..][i].level, now)
    ensures |q| == |ledger| + |path| && q[..|ledger|] == ledger
    ensures forall i :: 0 <= i < |path| ==>
      q[|ledger| + i] == LevelTx(accounts[path[i].index].userId, newUser, path[i].level, now)
  {
    assert q[..|ledger|] == q[..|led|][..|ledger|];
    forall i | 0 <= i < |path|
      ensures q[|ledger| + i] == LevelTx(accounts[path[i].index].userId, newUser, path[i].level, now)
    {
      if i == 0 {
        assert q[|ledger|] == q[..|led|][|ledger|];
      } else {
        assert path[1..][i - 1] == path[i];
        assert acc[path[i].index].userId == accounts[path[i].index].userId;
        assert q[|led| + (i - 1)] == LevelTx(acc[path[1..][i - 1].index].userId, newUser, path[1..][i - 1].level, now);
      }
    }
  }

  /** The sum of the bonuses the steps pay to the account at `j`. */
  function BonusAt(path: seq<Step>, j: nat): int
    requires forall i :: 0 <= i < |path| ==> 1 <= path[i].level <= 3
  {
    if |path| == 0 then 0
    else (if path[0].index == j then LevelBonus(path[0].level) else 0) + BonusAt(path[1..], j)
  }

  /** The number of steps at the account at `j`. */
  function CountAt(path: seq<Step>, j: nat): nat {
    if |path| == 0 then 0 else (if path[0].index == j then 1 else 0) + CountAt(path[1..], j)
  }

  /** Each account gains exactly the referrals and bonuses of its own steps;
      an account with no step is left exactly as it was. */
  lemma {:induction false} ApplyPathAccount(accounts: seq<Account>, ledger: seq<Transaction>, path: seq<Step>,
                                            newUser: UserId, now: int, j: nat)
    requires StepsValid(accounts, path) && j < |accounts|
    ensures var a := accounts[j]; var b := ApplyPath(accounts, ledger, path, newUser, now).0[j];
      && b.totalReferrals == a.totalReferrals + CountAt(path, j)
      && b.activeReferrals == a.activeReferrals + CountAt(path, j)
      && |b.referrals| == |a.referrals| + CountAt(path, j)
      && b.totalEarnings == a.totalEarnings + BonusAt(path, j)
      && b.availableBalance == a.availableBalance + BonusAt(path, j)
      && b.monthlyEarnings == a.monthlyEarnings + BonusAt(path, j)
      && b.rates == a.rates && b.pendingWithdrawal == a.pendingWithdrawal && b.isActive == a.isActive
      && (CountAt(path, j) == 0 ==> b == a)
    decreases |path|
  {
    if |path| > 0 {
      var k, l := path[0].index, path[0].level;
      var acc := accounts[k := Credit(accounts[k], newUser, l, now)];
      var led := ledger + [LevelTx(accounts[k].userId, newUser, l, now)];
      ApplyPathAccount(acc, led, path[1..], newUser, now, j);
    }
  }

  /** Crediting a path keeps every account balanced. */
  lemma {:induction false} ApplyPathBalanced(accounts: seq<Account>, ledger: seq<Transaction>, path: seq<Step>,
                                             newUser: UserId, now: int)
    requires StepsValid(accounts, path)
    requires forall j :: 0 <= j < |accounts| ==> Balanced(accounts[j])
    ensures var r := ApplyPath(accounts, ledger, path, newUser, now).0;
      forall j :: 0 <= j < |r| ==> Balanced(r[j])
    decreases |path|
  {
    if |path| > 0 {
      var k, l := path[0].index, path[0].level;
      CreditBalanced(accounts[k], newUser, l, now);
      var acc := accounts[k := Credit(accounts[k], newUser, l, now)];
      assert forall j :: 0 <= j < |acc| ==> Balanced(acc[j]);
      var led := ledger + [LevelTx(accounts[k].userId, newUser, l, now)];
      ApplyPathBalanced(acc, led, path[1..], newUser, now);
      assert ApplyPath(accounts, ledger, path, newUser, now) == ApplyPath(acc, led, path[1..], newUser, now);
    }
  }

  /** The total paid out along a join's path: 500, 750 or 850. */
  function PathPayout(path: seq<Step>): int
    requires forall i :: 0 <= i < |path| ==> 1 <= path[i].level <= 3
  {
    if |path| == 0 then 0 else LevelBonus(path[0].level) + PathPayout(path[1..])
  }

  lemma JoinPayout(accounts: seq<Account>, k: nat)
    requires k < |accounts|
    ensures var p := JoinPath(accounts, k);
      PathPayout(p) == (if |p| == 1 then 500 else if |p| == 2 then 750 else 850)
  {
    var p := JoinPath(accounts, k);
    var q := p[1..];
    if |p| >= 2 {
      assert q[0].level == 2;
      var t := q[1..];
      if |p| == 3 {
        assert t[0].level == 3;
        assert t[1..] == [];
        assert PathPayout(t) == 100;
      } else {
        assert t == [];
      }
      assert PathPayout(q) == 250 + PathPayout(t);
    } else {
      assert q == [];
    }
  }

  /** The store a successful join credits, with the joiner's account added,
      and the position of the code's owner in it. */
  function Joined(accounts: seq<Account>, code: string, newUser: UserId, draws: seq<string>): (r: (seq<Account>, nat))
    requires forall i :: 0 <= i < |draws| ==> ValidSuffix(draws[i])
    requires exists i :: 0 <= i < |draws| && !CodeUsed(accounts, "KS4" + draws[i])
    requires IndexOfCode(accounts, Text.ToUpper(code)).Some? && newUser != "" && IndexOfUser(accounts, newUser).None?
    ensures |r.0| == |accounts| + 1 && r.0[..|accounts|] == accounts && r.1 < |accounts|
    ensures r.0[|accounts|] == NewAccount(newUser, r.0[|accounts|].referralCode, Some(accounts[r.1].userId))
  {
    var k := IndexOfCode(accounts, Text.ToUpper(code)).value;
    (CreateAccount(accounts, newUser, Some(accounts[k].userId), draws).value, k)
  }

  /** A successful join is the fold of its path through the store with the
      joiner's account added: one to three steps at levels 1, 2, 3 in order,
      the first at the code's owner. */
  lemma AddReferralFold(accounts: seq<Account>, ledger: seq<Transaction>, code: string, newUser: UserId,
                        draws: seq<string>, now: int)
    requires forall i :: 0 <= i < |draws| ==> ValidSuffix(draws[i])
    requires exists i :: 0 <= i < |draws| && !CodeUsed(accounts, "KS4" + draws[i])
    requires AddReferral(accounts, ledger, code, newUser, draws, now).Ok?
    ensures var r := AddReferral(accounts, ledger, code, newUser, draws, now).value;
      var c := Joined(accounts, code, newUser, draws);
      && (r.0, r.1) == ApplyPath(c.0, ledger, JoinPath(c.0, c.1), newUser, now)
      && c.1 == IndexOfCode(accounts, Text.ToUpper(code)).value
  {
    var c := Joined(accounts, code, newUser, draws);
    JoinIsPathFold(c.0, ledger, c.1, newUser, now);
  }

  /** `led` is `base` followed by one entry per step of `p`, entry `i`
      paying the step's account at level `i + 1` for the joiner. */
  predicate WritesPath(led: seq<Transaction>, base: seq<Transaction>, accounts: seq<Account>, p: seq<Step>,
                       newUser: UserId, now: int)
  {
    && |led| == |base| + |p| && led[..|base|] == base
    && forall i :: 0 <= i < |p| ==>
         && p[i].index < |accounts| && p[i].level == i + 1 && i < 3
         && led[|base| + i] == LevelTx(accounts[p[i].index].userId, newUser, i + 1, now)
         && led[|base| + i].relatedUser == Some(newUser)
  }

  /** On a path whose levels count up from 1, entry `i` pays level `i + 1`. */
  lemma ApplyPathLevelLedger(accounts: seq<Account>, ledger: seq<Transaction>, p: seq<Step>,
                             newUser: UserId, now: int)
    requires StepsValid(accounts, p) && forall i :: 0 <= i < |p| ==> p[i].level == i + 1
    ensures WritesPath(ApplyPath(accounts, ledger, p, newUser, now).1, ledger, accounts, p, newUser, now)
  {
    ApplyPathLedger(accounts, ledger, p, newUser, now);
  }

  /** A join writes exactly one ledger entry per step of its path, after the
      existing ones, each naming the joiner. */
  lemma AddReferralLedger(accounts: seq<Account>, ledger: seq<Transaction>, code: string, newUser: UserId,
                          draws: seq<string>, now: int)
    requires forall i :: 0 <= i < |draws| ==> ValidSuffix(draws[i])
    requires exists i :: 0 <= i < |draws| && !CodeUsed(accounts, "KS4" + draws[i])
    requires AddReferral(accounts, ledger, code, newUser, draws, now).Ok?
    ensures var r := AddReferral(accounts, ledger, code, newUser, draws, now).value;
      var c := Joined(accounts, code, newUser, draws);
      WritesPath(r.1, ledger, c.0, JoinPath(c.0, c.1), newUser, now)
  {
    var c := Joined(accounts, code, newUser, draws);
    var p := JoinPath(c.0, c.1);
    var r := AddReferral(accounts, ledger, code, newUser, draws, now).value;
    var q := ApplyPath(c.0, ledger, p, newUser, now);
    assert r.1 == q.1 by {
      AddReferralFold(accounts, ledger, code, newUser, draws, now);
    }
    ApplyPathLevelLedger(c.0, ledger, p, newUser, now);
  }

  /** Each account gains exactly its own steps' referrals and bonuses; an
      account off the path, beyond level 3 above the owner included, is left
      exactly as it was. */
  lemma AddReferralEarnings(accounts: seq<Account>, ledger: seq<Transaction>, code: string, newUser: UserId,
                            draws: seq<string>, now: int, j: nat)
    requires forall i :: 0 <= i < |draws| ==> ValidSuffix(draws[i])
    requires exists i :: 0 <= i < |draws| && !CodeUsed(accounts, "KS4" + draws[i])
    requires AddReferral(accounts, ledger, code, newUser, draws, now).Ok?
    requires j <= |accounts|
    ensures var r := AddReferral(accounts, ledger, code, newUser, draws, now).value;
      var c := Joined(accounts, code, newUser, draws);
      var p := JoinPath(c.0, c.1);
      && r.0[j].totalEarnings == c.0[j].totalEarnings + BonusAt(p, j)
      && r.0[j].availableBalance == c.0[j].availableBalance + BonusAt(p, j)
      && r.0[j].totalReferrals == c.0[j].totalReferrals + CountAt(p, j)
      && (CountAt(p, j) == 0 ==> r.0[j] == c.0[j])
  {
    var c := Joined(accounts, code, newUser, draws);
    AddReferralFold(accounts, ledger, code, newUser, draws, now);
    ApplyPathAccount(c.0, ledger, JoinPath(c.0, c.1), newUser, now, j);
  }

  /** A join keeps every account balanced when they all were. */
  lemma AddReferralBalanced(accounts: seq<Account>, ledger: seq<Transaction>, code: string, newUser: UserId,
                            draws: seq<string>, now: int)
    requires forall i :: 0 <= i < |draws| ==> ValidSuffix(draws[i])
    requires exists i :: 0 <= i < |draws| && !CodeUsed(accounts, "KS4" + draws[i])
    requires AddReferral(accounts, ledger, code, newUser, draws, now).Ok?
    requires forall j :: 0 <= j < |accounts| ==> Balanced(accounts[j])
    ensures var r := AddReferral(accounts, ledger, code, newUser, draws, now).value;
      forall j :: 0 <= j < |r.0| ==> Balanced(r.0[j])
  {
    var c := Joined(accounts, code, newUser, draws);
    AddReferralFold(accounts, ledger, code, newUser, draws, now);
    NewAccountBalanced(newUser, c.0[|accounts|].referralCode, Some(accounts[c.1].userId));
    forall j | 0 <= j < |c.0|
      ensures Balanced(c.0[j])
    {
      if j < |accounts| {
        assert c.0[j] == c.0[..|accounts|][j];
      }
    }
    ApplyPathBalanced(c.0, ledger, JoinPath(c.0, c.1), newUser, now);
  }

  /** Three links above the owner at 0, all ids distinct: the path stops at level 3. */
  lemma {:induction false} ThreeLinkPath(a: seq<Account>)
    requires |a| >= 4
    requires forall i, j :: 0 <= i < j < 4 ==> a[i].userId != a[j].userId
    requires a[0].referredBy == Some(a[1].userId)
    requires a[1].referredBy == Some(a[2].userId)
    requires a[2].referredBy == Some(a[3].userId)
    ensures JoinPath(a, 0) == [Step(0, 1), Step(1, 2), Step(2, 3)]
  {
    assert a[0].userId != a[1].userId;
    assert IndexOfUser(a, a[1].userId) == Some(1) by {
      assert a[1..][0].userId == a[1].userId;
      assert IndexOfUser(a[1..], a[1].userId) == Some(0);
    }
    assert IndexOfUser(a, a[2].userId) == Some(2) by {
      assert a[1..][1..][0].userId == a[2].userId;
      assert IndexOfUser(a[1..][1..], a[2].userId) == Some(0);
      assert IndexOfUser(a[1..], a[2].userId) == Some(1);
    }
    var c2 := Chain(a, a[2].userId, 3);
    assert |c2| <= 1;
    assert c2 == [Step(2, 3)];
    assert Chain(a, a[1].userId, 2) == [Step(1, 2)] + c2;
  }

  /** The bonuses and step counts of the three-step path from account 0 upwards. */
  lemma ThreeStepBonuses()
    ensures var p := [Step(0, 1), Step(1, 2), Step(2, 3)];
      BonusAt(p, 0) == 500 && BonusAt(p, 1) == 250 && BonusAt(p, 2) == 100 && CountAt(p, 3) == 0
  {
    var p := [Step(0, 1), Step(1, 2), Step(2, 3)];
    var q := [Step(1, 2), Step(2, 3)];
    var t := [Step(2, 3)];
    assert p[1..] == q && q[1..] == t && t[1..] == [];
    assert BonusAt(t, 2) == 100 && BonusAt(t, 1) == 0 && BonusAt(t, 0) == 0 && CountAt(t, 3) == 0;
    assert BonusAt(q, 2) == 100 && BonusAt(q, 1) == 250 && BonusAt(q, 0) == 0 && CountAt(q, 3) == 0;
  }

  /** Joining through the bottom of a four-deep chain: the code's owner is
      account 0, the store keeps the four accounts in front, and the path
      climbs three of them. */
  lemma FourDeepJoined(accounts: seq<Account>, newUser: UserId, draws: seq<string>)
    requires forall i :: 0 <= i < |draws| ==> ValidSuffix(draws[i])
    requires exists i :: 0 <= i < |draws| && !CodeUsed(accounts, "KS4" + draws[i])
    requires |accounts| == 4 && WellFormed(accounts)
    requires accounts[0].referredBy == Some(accounts[1].userId)
    requires accounts[1].referredBy == Some(accounts[2].userId)
    requires accounts[2].referredBy == Some(accounts[3].userId)
    requires newUser != "" && forall j :: 0 <= j < 4 ==> accounts[j].userId != newUser
    requires Text.NoLower(accounts[0].referralCode)
    ensures IndexOfCode(accounts, Text.ToUpper(accounts[0].referralCode)) == Some(0)
    ensures IndexOfUser(accounts, newUser).None?
    ensures var c := Joined(accounts, accounts[0].referralCode, newUser, draws);
      && c.1 == 0
      && c.0[0] == accounts[0] && c.0[1] == accounts[1] && c.0[2] == accounts[2] && c.0[3] == accounts[3]
      && JoinPath(c.0, 0) == [Step(0, 1), Step(1, 2), Step(2, 3)]
  {
    var code := accounts[0].referralCode;
    ToUpperNoLower(code);
    assert IndexOfCode(accounts, Text.ToUpper(code)) == Some(0);
    assert IndexOfUser(accounts, newUser).None?;
    var c := Joined(accounts, code, newUser, draws);
    var a := c.0;
    assert a[0] == accounts[0] && a[1] == accounts[1] && a[2] == accounts[2] && a[3] == accounts[3] by {
      assert a[..4] == accounts;
    }
    ThreeLinkPath(a);
  }

  /** A chain four accounts deep, joined through the bottom one: 500, 250 and
      100 go to the first three, and the fourth is untouched. */
  lemma FourDeepChain(accounts: seq<Account>, ledger: seq<Transaction>, newUser: UserId,
                      draws: seq<string>, now: int)
    requires forall i :: 0 <= i < |draws| ==> ValidSuffix(draws[i])
    requires exists i :: 0 <= i < |draws| && !CodeUsed(accounts, "KS4" + draws[i])
    requires |accounts| == 4 && WellFormed(accounts)
    requires accounts[0].referredBy == Some(accounts[1].userId)
    requires accounts[1].referredBy == Some(accounts[2].userId)
    requires accounts[2].referredBy == Some(accounts[3].userId)
    requires newUser != "" && forall j :: 0 <= j < 4 ==> accounts[j].userId != newUser
    requires Text.NoLower(accounts[0].referralCode)
    ensures AddReferral(accounts, ledger, accounts[0].referralCode, newUser, draws, now).Ok?
    ensures var r := AddReferral(accounts, ledger, accounts[0].referralCode, newUser, draws, now).value;
      && |r.1| == |ledger| + 3
      && r.0[0].totalEarnings == accounts[0].totalEarnings + 500
      && r.0[1].totalEarnings == accounts[1].totalEarnings + 250
      && r.0[2].totalEarnings == accounts[2].totalEarnings + 100
      && r.0[3] == accounts[3]
  {
    var code := accounts[0].referralCode;
    FourDeepJoined(accounts, newUser, draws);
    ThreeStepBonuses();
    AddReferralLedger(accounts, ledger, code, newUser, draws, now);
    AddReferralEarnings(accounts, ledger, code, newUser, draws, now, 0);
    AddReferralEarnings(accounts, ledger, code, newUser, draws, now, 1);
    AddReferralEarnings(accounts, ledger, code, newUser, draws, now, 2);
    AddReferralEarnings(accounts, ledger, code, newUser, draws, now, 3);
  }
}

=== FILE: shops.dfy ===
/**
 Shops of the inventory panel: created by an administrator with a unique
 username and a password stored as sent, and signed in with those two. The
 sign-in does not say whether the username or the password was wrong.
 */
module Shops {
  import opened Common

  type ShopId = string

  datatype ShopStatus = Active | Inactive

  datatype Shop = Shop(
    id: ShopId,
    shopName: string,
    ownerName: string,
    contactNumber: string,
    email: Option<string>,
    address: string,
    city: string,
    state: string,
    pincode: string,
    licenseNumber: Option<string>,
    gstNumber: Option<string>,
    username: string,
    password: string,
    status: ShopStatus,
    image: Option<string>)

  /** A shop as the sign-in returns it: every field but the password. */
  datatype ShopInfo = ShopInfo(
    id: ShopId,
    shopName: string,
    ownerName: string,
    contactNumber: string,
    email: Option<string>,
    address: string,
    city: string,
    state: string,
    pincode: string,
    licenseNumber: Option<string>,
    gstNumber: Option<string>,
    username: string,
    status: ShopStatus,
    image: Option<string>)

  datatype ShopRequest = ShopRequest(
    shopName: Option<string>,
    ownerName: Option<string>,
    contactNumber: Option<string>,
    email: Option<string>,
    address: Option<string>,
    city: Option<string>,
    state: Option<string>,
    pincode: Option<string>,
    licenseNumber: Option<string>,
    gstNumber: Option<string>,
    username: Option<string>,
    password: Option<string>,
    image: Option<string>)

  datatype ShopError =
    | FieldsMissing        // 400 Required fields are missing
    | UsernameTaken        // 400 Username already taken
    | CredentialsRequired  // 400 Username and password required
    | InvalidCredentials   // 401 Invalid credentials
    | ShopInactive         // 403 Shop is currently inactive. Contact Admin.

  const TokenPrefix := "dummy-shop-token-"

  /** The nine fields the create handler insists on. */
  predicate RequiredPresent(req: ShopRequest) {
    Truthy(req.shopName) && Truthy(req.ownerName) && Truthy(req.contactNumber) && Truthy(req.address)
    && Truthy(req.city) && Truthy(req.state) && Truthy(req.pincode) && Truthy(req.username)
    && Truthy(req.password)
  }

  /** `findOne({ username })`: the first shop with that username. */
  function FindByUsername(shops: seq<Shop>, username: string): (r: Option<nat>)
    ensures r.Some? ==> r.value < |shops| && shops[r.value].username == username
    ensures r.None? <==> forall j :: 0 <= j < |shops| ==> shops[j].username != username
  {
    if |shops| == 0 then None
    else if shops[0].username == username then Some(0)
    else match FindByUsername(shops[1..], username)
      case None => None
      case Some(k) => Some(k + 1)
  }

  predicate UsernamesUnique(shops: seq<Shop>) {
    forall i, j :: 0 <= i < j < |shops| ==> shops[i].username != shops[j].username
  }

  /** `createShop`: all nine required fields must be non-empty and the
      username free; the shop starts active with every field as sent. */
  function Create(shops: seq<Shop>, req: ShopRequest, id: ShopId): (r: Result<seq<Shop>, ShopError>)
    ensures !RequiredPresent(req) ==> r == Err(FieldsMissing)
    ensures RequiredPresent(req) ==> (r == Err(UsernameTaken) <==> FindByUsername(shops, req.username.value).Some?)
    ensures r.Ok? <==> RequiredPresent(req) && FindByUsername(shops, req.username.value).None?
    ensures r.Ok? ==> && RequiredPresent(req)
                      && |r.value| == |shops| + 1 && r.value[..|shops|] == shops
                      && var s := r.value[|shops|];
                      && s.id == id && s.username == req.username.value && s.password == req.password.value
                      && s.shopName == req.shopName.value && s.ownerName == req.ownerName.value
                      && s.contactNumber == req.contactNumber.value && s.address == req.address.value
                      && s.city == req.city.value && s.state == req.state.value && s.pincode == req.pincode.value
                      && s.email == req.email && s.licenseNumber == req.licenseNumber
                      && s.gstNumber == req.gstNumber && s.image == req.image
                      && s.status == Active
    ensures r.Ok? && UsernamesUnique(shops) ==> UsernamesUnique(r.value)
  {
    if !RequiredPresent(req) then Err(FieldsMissing)
    else if FindByUsername(shops, req.username.value).Some? then Err(UsernameTaken)
    else
      Ok(shops + [Shop(id, req.shopName.value, req.ownerName.value, req.contactNumber.value, req.email,
                       req.address.value, req.city.value, req.state.value, req.pincode.value,
                       req.licenseNumber, req.gstNumber, req.username.value, req.password.value,
                       Active, req.image)])
  }

  /** Everything but the password. */
  function InfoOf(s: Shop): (r: ShopInfo)
    ensures r.id == s.id && r.username == s.username && r.status == s.status
  {
    ShopInfo(s.id, s.shopName, s.ownerName, s.contactNumber, s.email, s.address, s.city, s.state,
             s.pincode, s.licenseNumber, s.gstNumber, s.username, s.status, s.image)
  }

  /** Two shops that differ only in their password show the same information. */
  lemma InfoHidesPassword(s: Shop, password: string)
    ensures InfoOf(s.(password := password)) == InfoOf(s)
  {
  }

  /** `shopLogin`: both credentials are required; an unknown username and a
      wrong password give the same refusal; only a shop whose password
      matched is told it is inactive; a successful sign-in returns the shop
      without its password and the token "dummy-shop-token-" + id. */
  function Login(shops: seq<Shop>, username: Option<string>, password: Option<string>)
    : (r: Result<(ShopInfo, string), ShopError>)
    ensures !Truthy(username) || !Truthy(password) ==> r == Err(CredentialsRequired)
    ensures Truthy(username) && Truthy(password) ==>
      var k := FindByUsername(shops, username.value);
      && (r == Err(InvalidCredentials) <==> k.None? || shops[k.value].password != password.value)
      && (r == Err(ShopInactive) <==> k.Some? && shops[k.value].password == password.value
                                       && shops[k.value].status == Inactive)
    ensures r.Ok? <==> && Truthy(username) && Truthy(password)
                       && var k := FindByUsername(shops, username.value);
                       && k.Some? && shops[k.value].password == password.value && shops[k.value].status == Active
    ensures r.Ok? ==> && Truthy(username) && Truthy(password)
                      && var k := FindByUsername(shops, username.value);
                      && k.Some? && shops[k.value].password == password.value
                      && shops[k.value].status == Active
                      && r.value == (InfoOf(shops[k.value]), TokenPrefix + shops[k.value].id)
  {
    if !Truthy(username) || !Truthy(password) then Err(CredentialsRequired)
    else match FindByUsername(shops, username.value)
      case None => Err(InvalidCredentials)
      case Some(k) =>
        var s := shops[k];
        if s.password != password.value then Err(InvalidCredentials)
        else if s.status == Inactive then Err(ShopInactive)
        else Ok((InfoOf(s), TokenPrefix + s.id))
  }

  /** A complete request with a free username creates a shop, which then
      signs in with that username and password. */
  lemma CreateThenLogin(shops: seq<Shop>, req: ShopRequest, id: ShopId)
    requires RequiredPresent(req) && FindByUsername(shops, req.username.value).None?
    ensures Create(shops, req, id).Ok?
    ensures var after := Create(shops, req, id).value;
      Login(after, req.username, req.password) == Ok((InfoOf(after[|shops|]), TokenPrefix + id))
  {
    var r := Create(shops, req, id);
    assert r.Ok?;
    var after := r.value;
    var s := after[|shops|];
    assert s.username == req.username.value && s.password == req.password.value;
    assert s.status == Active && s.id == id;
    assert after == shops + [s] by {
      assert |after| == |shops| + 1 && after[..|shops|] == shops;
    }
    FindAfterAppend(shops, s, req.username.value);
    assert FindByUsername(after, req.username.value) == Some(|shops|);
  }

  /** A username no stored shop has is found at the shop appended with it. */
  lemma {:induction false} FindAfterAppend(shops: seq<Shop>, s: Shop, username: string)
    requires FindByUsername(shops, username).None? && s.username == username
    ensures FindByUsername(shops + [s], username) == Some(|shops|)
  {
    if |shops| > 0 {
      assert (shops + [s])[1..] == shops[1..] + [s];
      FindAfterAppend(shops[1..], s, username);
    }
  }

  /** An inactive shop learns nothing from a wrong password: the answer is
      the one an unknown username gets. */
  lemma InactiveNotRevealed(shops: seq<Shop>, username: string, password: string)
    requires username != "" && password != ""
    requires FindByUsername(shops, username).Some?
    requires shops[FindByUsername(shops, username).value].status == Inactive
    requires shops[FindByUsername(shops, username).value].password != password
    ensures Login(shops, Some(username), Some(password)) == Login([], Some(username), Some(password))
  {
  }
}

=== FILE: slug.dfy ===
/**
 The slug rule shared by the Product, Category and Blog pre-save hooks and by
 the product and category rename handlers:

   name.toLowerCase().replace(/[^a-z0-9]+/g, "-").replace(/(^-|-$)+/g, "") + "-" + Date.now()

 The clock reading is a parameter.
 */
module Slug {
  import opened Text

  predicate IsSlugChar(c: char) {
    IsLower(c) || IsDigit(c)
  }

  /** The letters and digits of a string, in order: what a slug must keep. */
  function Kept(s: string): string {
    if |s| == 0 then ""
    else if IsSlugChar(s[0]) then [s[0]] + Kept(s[1..])
    else Kept(s[1..])
  }

  predicate NoDoubleDash(s: string) {
    forall i :: 0 <= i < |s| - 1 ==> !(s[i] == '-' && s[i + 1] == '-')
  }

  predicate SlugAlphabet(s: string) {
    forall i :: 0 <= i < |s| ==> IsSlugChar(s[i]) || s[i] == '-'
  }

  /** A normalised slug body: [a-z0-9] words separated by single dashes. */
  predicate WellFormedBase(s: string) {
    && SlugAlphabet(s)
    && NoDoubleDash(s)
    && (|s| > 0 ==> s[0] != '-' && s[|s| - 1] != '-')
  }

  /** Drops the rest of a run of non-[a-z0-9] characters. */
  function SkipRun(s: string): (r: string)
    ensures |r| <= |s|
    ensures |r| > 0 ==> IsSlugChar(r[0])
    ensures Kept(r) == Kept(s)
  {
    if |s| > 0 && !IsSlugChar(s[0]) then SkipRun(s[1..]) else s
  }

  /** `.replace(/[^a-z0-9]+/g, "-")`: every maximal run of other characters becomes one dash. */
  function CollapseRuns(s: string): (r: string)
    ensures SlugAlphabet(r)
    ensures NoDoubleDash(r)
    ensures |r| > 0 ==> |s| > 0 && (r[0] == '-' <==> !IsSlugChar(s[0]))
    ensures Kept(r) == Kept(s)
    decreases |s|
  {
    if |s| == 0 then ""
    else if IsSlugChar(s[0]) then
      var r := [s[0]] + CollapseRuns(s[1..]);
      assert Kept(r) == [s[0]] + Kept(CollapseRuns(s[1..]));
      r
    else
      var rest := CollapseRuns(SkipRun(s[1..]));
      var r := "-" + rest;
      assert Kept(r) == Kept(rest);
      r
  }

  /** `.replace(/(^-|-$)+/g, "")`: one leading and one trailing dash removed. */
  function StripDashes(t: string): (r: string)
    requires NoDoubleDash(t)
    ensures NoDoubleDash(r)
    ensures |r| > 0 ==> r[0] != '-' && r[|r| - 1] != '-'
    ensures SlugAlphabet(t) ==> SlugAlphabet(r)
    ensures Kept(r) == Kept(t)
    ensures (|t| > 0 ==> t[0] != '-' && t[|t| - 1] != '-') ==> r == t
  {
    var a := if |t| > 0 && t[0] == '-' then t[1..] else t;
    assert Kept(a) == Kept(t);
    if |a| > 0 && a[|a| - 1] == '-' then
      var r := a[..|a| - 1];
      KeptDropLastDash(a);
      r
    else a
  }

  lemma {:induction false} KeptDropLastDash(a: string)
    requires |a| > 0 && a[|a| - 1] == '-'
    ensures Kept(a[..|a| - 1]) == Kept(a)
  {
    if |a| > 1 {
      KeptDropLastDash(a[1..]);
      assert a[1..][..|a[1..]| - 1] == a[..|a| - 1][1..];
    }
  }

  /** The normalised part of a slug: lower-cased, runs of other characters
      collapsed to one dash, no dash at either end, and exactly the letters
      and digits of the lower-cased name, in order. */
  function SlugBase(name: string): (r: string)
    ensures WellFormedBase(r)
    ensures Kept(r) == Kept(ToLower(name))
  {
    StripDashes(CollapseRuns(ToLower(name)))
  }

  /** The full slug: the normalised name, a dash, then the millisecond clock reading. */
  function MakeSlug(name: string, now: nat): (r: string)
    ensures |r| == |SlugBase(name)| + 1 + |NatToString(now)|
    ensures r[..|SlugBase(name)|] == SlugBase(name) && r[|SlugBase(name)|] == '-'
    ensures r[|SlugBase(name)| + 1..] == NatToString(now)
  {
    SlugBase(name) + "-" + NatToString(now)
  }

  /** The pre-save rule: a slug is derived only when none is stored and a name is present. */
  function AssignSlug(slug: string, name: string, now: nat): (r: string)
    ensures slug != "" ==> r == slug
    ensures slug == "" && name != "" ==> r == MakeSlug(name, now)
    ensures slug == "" && name == "" ==> r == ""
  {
    if slug == "" && name != "" then MakeSlug(name, now) else slug
  }

  /** A well-formed slug body passes through the run collapse unchanged. */
  lemma {:induction false} CollapseFixed(s: string)
    requires SlugAlphabet(s) && NoDoubleDash(s)
    ensures CollapseRuns(s) == s
  {
    if |s| > 0 {
      CollapseFixed(s[1..]);
      if !IsSlugChar(s[0]) {
        assert |s| == 1 || IsSlugChar(s[1]);
        assert SkipRun(s[1..]) == s[1..];
      }
      assert s == [s[0]] + s[1..];
    }
  }

  lemma LowerFixed(s: string)
    requires SlugAlphabet(s)
    ensures ToLower(s) == s
  {
  }

  /** Normalising a normalised slug body changes nothing. */
  lemma SlugBaseIdempotent(name: string)
    ensures SlugBase(SlugBase(name)) == SlugBase(name)
  {
    var b := SlugBase(name);
    LowerFixed(b);
    CollapseFixed(b);
  }
}

=== FILE: text.dfy ===
/**
 The string primitives the handlers rely on: ASCII case mapping, the `\s`
 class, trimming, splitting on a separator, prefixes, and decimal rendering
 of natural numbers (timestamps in slugs, counters in reference ids).
 Case mapping and `\s` cover ASCII only.
 */
module Text {

  predicate IsUpper(c: char) { 'A' <= c <= 'Z' }
  predicate IsLower(c: char) { 'a' <= c <= 'z' }
  predicate IsDigit(c: char) { '0' <= c <= '9' }
  predicate IsHexDigit(c: char) { IsDigit(c) || 'a' <= c <= 'f' || 'A' <= c <= 'F' }

  /** The only strings the store can cast to a document id: 24 hexadecimal digits. */
  predicate IsObjectId(s: string) {
    |s| == 24 && forall i :: 0 <= i < 24 ==> IsHexDigit(s[i])
  }

  /** The ASCII members of JavaScript's `\s`: space, tab, LF, VT, FF, CR. */
  predicate IsSpace(c: char) {
    c == ' ' || c == '\t' || c == '\n' || c == '\U{B}' || c == '\U{C}' || c == '\r'
  }

  function UpperChar(c: char): (r: char)
    ensures !IsLower(r)
    ensures !IsLower(c) ==> r == c
  {
    if IsLower(c) then (c as int - 32) as char else c
  }

  function LowerChar(c: char): (r: char)
    ensures !IsUpper(r)
    ensures !IsUpper(c) ==> r == c
  {
    if IsUpper(c) then (c as int + 32) as char else c
  }

  /** `String.prototype.toUpperCase` on ASCII. */
  function ToUpper(s: string): (r: string)
    ensures |r| == |s|
    ensures forall i :: 0 <= i < |s| ==> r[i] == UpperChar(s[i])
  {
    seq(|s|, i requires 0 <= i < |s| => UpperChar(s[i]))
  }

  /** `String.prototype.toLowerCase` on ASCII. */
  function ToLower(s: string): (r: string)
    ensures |r| == |s|
    ensures forall i :: 0 <= i < |s| ==> r[i] == LowerChar(s[i])
  {
    seq(|s|, i requires 0 <= i < |s| => LowerChar(s[i]))
  }

  predicate NoLower(s: string) {
    forall i :: 0 <= i < |s| ==> !IsLower(s[i])
  }

  /** Upper-casing is idempotent and leaves no lower-case letter. */
  lemma ToUpperIdempotent(s: string)
    ensures NoLower(ToUpper(s))
    ensures ToUpper(ToUpper(s)) == ToUpper(s)
  {
  }

  /** Lower-casing is idempotent. */
  lemma ToLowerIdempotent(s: string)
    ensures ToLower(ToLower(s)) == ToLower(s)
  {
  }

  /** A text with no white space at either end is already trimmed. */
  lemma TrimFixed(s: string)
    requires s != "" && !IsSpace(s[0]) && !IsSpace(s[|s| - 1])
    ensures Trim(s) == s
  {
  }

  /** Trimming a text without lower-case letters leaves none. */
  lemma TrimNoLower(s: string)
    requires NoLower(s)
    ensures NoLower(Trim(s))
  {
    var a := TrimStart(s);
    forall i | 0 <= i < |a|
      ensures !IsLower(a[i])
    {
      assert a[i] == s[|s| - |a| + i];
    }
    var b := TrimEnd(a);
    forall i | 0 <= i < |b|
      ensures !IsLower(b[i])
    {
      assert b[i] == a[i];
    }
    assert Trim(s) == b;
  }

  predicate StartsWith(s: string, prefix: string) {
    |prefix| <= |s| && s[..|prefix|] == prefix
  }

  function TrimStart(s: string): (r: string)
    ensures |r| <= |s| && r == s[|s| - |r|..]
    ensures |r| > 0 ==> !IsSpace(r[0])
    ensures forall i :: 0 <= i < |s| - |r| ==> IsSpace(s[i])
  {
    if |s| > 0 && IsSpace(s[0]) then
      var r := TrimStart(s[1..]);
      assert s[1..][|s| - 1 - |r|..] == s[|s| - |r|..];
      assert forall i :: 1 <= i < |s| - |r| ==> s[i] == s[1..][i - 1];
      r
    else s
  }

  function TrimEnd(s: string): (r: string)
    ensures |r| <= |s| && r == s[..|r|]
    ensures |r| > 0 ==> !IsSpace(r[|r| - 1])
    ensures forall i :: |r| <= i < |s| ==> IsSpace(s[i])
  {
    if |s| > 0 && IsSpace(s[|s| - 1]) then TrimEnd(s[..|s| - 1]) else s
  }

  /** `String.prototype.trim`: the longest infix without white space at either end. */
  function Trim(s: string): (r: string)
    ensures |r| <= |s|
    ensures |r| > 0 ==> !IsSpace(r[0]) && !IsSpace(r[|r| - 1])
    ensures (forall i :: 0 <= i < |s| ==> IsSpace(s[i])) ==> r == ""
  {
    TrimEnd(TrimStart(s))
  }

  /** Each item trimmed, as an array of trimmed strings stores it. */
  function TrimAll(items: seq<string>): (r: seq<string>)
    ensures |r| == |items| && forall i :: 0 <= i < |items| ==> r[i] == Trim(items[i])
  {
    seq(|items|, i requires 0 <= i < |items| => Trim(items[i]))
  }

  /** `s.replace(/\s/g, "")`. */
  function RemoveSpaces(s: string): (r: string)
    ensures |r| <= |s|
    ensures forall i :: 0 <= i < |r| ==> !IsSpace(r[i])
    ensures (forall i :: 0 <= i < |s| ==> !IsSpace(s[i])) ==> r == s
  {
    if |s| == 0 then ""
    else if IsSpace(s[0]) then RemoveSpaces(s[1..])
    else [s[0]] + RemoveSpaces(s[1..])
  }

  /** The inverse of `Split`: the pieces glued back with the separator between them. */
  function Join(parts: seq<string>, sep: char): string {
    if |parts| == 0 then ""
    else if |parts| == 1 then parts[0]
    else parts[0] + [sep] + Join(parts[1..], sep)
  }

  /** `s.split(sep)` for a one-character separator: never empty, no piece holds the
      separator, and joining the pieces gives back `s`. */
  function Split(s: string, sep: char): (r: seq<string>)
    ensures |r| >= 1
    ensures forall i :: 0 <= i < |r| ==> sep !in r[i]
    ensures Join(r, sep) == s
  {
    if |s| == 0 then [""]
    else
      var rest := Split(s[1..], sep);
      if s[0] == sep then
        assert Join([""] + rest, sep) == "" + [sep] + Join(rest, sep);
        [""] + rest
      else
        var r := [[s[0]] + rest[0]] + rest[1..];
        assert |rest| > 1 ==> Join(rest, sep) == rest[0] + [sep] + Join(rest[1..], sep);
        assert |rest| > 1 ==> Join(r, sep) == r[0] + [sep] + Join(r[1..], sep);
        assert r[1..] == rest[1..];
        assert s == [s[0]] + s[1..];
        r
  }

  /** Splitting the join of separator-free pieces gives the pieces back. */
  lemma {:induction false} SplitJoin(parts: seq<string>, sep: char)
    requires |parts| >= 1
    requires forall i :: 0 <= i < |parts| ==> sep !in parts[i]
    ensures Split(Join(parts, sep), sep) == parts
  {
    if |parts| == 1 {
      NoSepSplit(parts[0], sep);
    } else {
      SplitJoin(parts[1..], sep);
      SplitAfterPrefix(parts[0], Join(parts[1..], sep), sep);
    }
  }

  lemma {:induction false} NoSepSplit(s: string, sep: char)
    requires sep !in s
    ensures Split(s, sep) == [s]
  {
    if |s| > 0 {
      NoSepSplit(s[1..], sep);
      assert [s[0]] + s[1..] == s;
    }
  }

  lemma {:induction false} SplitAfterPrefix(p: string, t: string, sep: char)
    requires sep !in p
    ensures Split(p + [sep] + t, sep) == [p] + Split(t, sep)
  {
    if |p| == 0 {
      assert p + [sep] + t == [sep] + t;
      SplitSepFirst(t, sep);
    } else {
      var u := p[1..] + [sep] + t;
      SplitAfterPrefix(p[1..], t, sep);
      assert p + [sep] + t == [p[0]] + u;
      SplitCharFirst(p[0], u, sep);
      assert [p[0]] + p[1..] == p;
    }
  }

  /** A leading separator closes an empty first piece. */
  lemma SplitSepFirst(t: string, sep: char)
    ensures Split([sep] + t, sep) == [""] + Split(t, sep)
  {
    assert ([sep] + t)[1..] == t;
  }

  /** A leading other character joins the first piece. */
  lemma SplitCharFirst(c: char, u: string, sep: char)
    requires c != sep
    ensures var rest := Split(u, sep);
      Split([c] + u, sep) == [[c] + rest[0]] + rest[1..]
  {
    assert ([c] + u)[1..] == u;
  }

  function Repeat(c: char, n: nat): (r: string)
    ensures |r| == n && forall i :: 0 <= i < n ==> r[i] == c
  {
    if n == 0 then "" else [c] + Repeat(c, n - 1)
  }

  /** `s.padStart(width, c)`. */
  function PadStart(s: string, width: nat, c: char): (r: string)
    ensures |r| == if |s| >= width then |s| else width
    ensures r[|r| - |s|..] == s
    ensures forall i :: 0 <= i < |r| - |s| ==> r[i] == c
  {
    if |s| >= width then s else Repeat(c, width - |s|) + s
  }

  predicate AllDigits(s: string) {
    forall i :: 0 <= i < |s| ==> IsDigit(s[i])
  }

  function DigitChar(d: nat): (c: char)
    requires d < 10
    ensures IsDigit(c)
  {
    ('0' as int + d) as char
  }

  function DigitValue(c: char): nat
    requires IsDigit(c)
  {
    c as int - '0' as int
  }

  /** The number a string of decimal digits denotes. */
  function DecimalValue(s: string): nat
    requires AllDigits(s)
  {
    if |s| == 0 then 0
    else DecimalValue(s[..|s| - 1]) * 10 + DigitValue(s[|s| - 1])
  }

  /** `String(n)` for a natural number: canonical decimal digits. */
  function NatToString(n: nat): (r: string)
    ensures |r| >= 1 && AllDigits(r)
    ensures r[0] != '0' || r == "0"
    ensures DecimalValue(r) == n
  {
    if n < 10 then [DigitChar(n)]
    else
      var r := NatToString(n / 10) + [DigitChar(n % 10)];
      assert r[..|r| - 1] == NatToString(n / 10);
      r
  }

  /** Leading zeros do not change the value, so zero-padding keeps the number. */
  lemma {:induction false} LeadingZeros(z: nat, s: string)
    requires AllDigits(s)
    ensures AllDigits(Repeat('0', z) + s)
    ensures DecimalValue(Repeat('0', z) + s) == DecimalValue(s)
  {
    if |s| == 0 {
      ZerosValue(z);
      assert Repeat('0', z) + s == Repeat('0', z);
    } else {
      var p := Repeat('0', z) + s;
      LeadingZeros(z, s[..|s| - 1]);
      assert p[..|p| - 1] == Repeat('0', z) + s[..|s| - 1];
    }
  }

  lemma {:induction false} ZerosValue(z: nat)
    ensures AllDigits(Repeat('0', z))
    ensures DecimalValue(Repeat('0', z)) == 0
  {
    if z > 0 {
      ZerosValue(z - 1);
      var r := Repeat('0', z);
      assert r == Repeat('0', z - 1) + ['0'] by {
        RepeatSnoc(z - 1);
      }
      assert r[..|r| - 1] == Repeat('0', z - 1);
    }
  }

  lemma {:induction false} RepeatSnoc(n: nat)
    ensures Repeat('0', n + 1) == Repeat('0', n) + ['0']
  {
    if n > 0 {
      RepeatSnoc(n - 1);
    }
  }
}

=== FILE: user_auth.dfy ===
/**
 The customer authentication step in front of every protected route: the
 bearer token is taken from the Authorization header, its signature and
 expiry are checked by a verifier given as a parameter, and the claims must
 name an active user whose email and token version they repeat.
 */
module UserAuth {
  import opened Common
  import opened Text
  import Users

  const Prefix := "Bearer "

  /** The claims signed at login: the user id, the email and the token version. */
  datatype Claims = Claims(sub: string, email: string, tv: Option<int>)

  /** What the route handlers see as the signed-in user. The user record
      holds no `name` field, so the name is always absent. */
  datatype Principal = Principal(sub: Users.UserId, email: string, name: Option<string>)

  datatype AuthError =
    | TokenRequired   // 401 Access token required
    | UserNotFound    // 401 Invalid token or user not found
    | TokenExpired    // 401 Token expired, please login again
    | InvalidToken    // 401 Invalid or expired token: the verifier refused the token

  /** The token of the header: everything after an exact "Bearer " prefix.
      A missing header counts as an empty one. */
  function ExtractToken(header: Option<string>): (r: Option<string>)
    ensures var h := header.GetOr("");
      && (r.Some? <==> StartsWith(h, Prefix))
      && (r.Some? ==> Prefix + r.value == h)
  {
    var h := header.GetOr("");
    if StartsWith(h, Prefix) then
      var t := h[|Prefix|..];
      assert Prefix + t == h;
      Some(t)
    else None
  }

  /** A token sent with the prefix comes back as it was. */
  lemma ExtractRoundTrip(token: string)
    ensures ExtractToken(Some(Prefix + token)) == Some(token)
  {
    var h := Prefix + token;
    assert h[..|Prefix|] == Prefix;
    assert h[|Prefix|..] == token;
  }

  /** The prefix is matched exactly: a lower-case scheme carries no token. */
  lemma LowerCaseSchemeRefused(token: string)
    ensures ExtractToken(Some("bearer " + token)) == None
  {
    var h := "bearer " + token;
    assert h[0] == 'b';
  }

  /** `authenticateUser`. A missing or empty token is refused first; a token
      the verifier rejects next; then the claims must match an active user by
      id and email, and finally the claimed token version must equal the
      stored one. */
  function Authenticate(header: Option<string>, verify: string -> Option<Claims>,
                        users: map<Users.UserId, Users.User>): (r: Result<Principal, AuthError>)
    ensures ExtractToken(header).None? || ExtractToken(header) == Some("") ==> r == Err(TokenRequired)
    ensures r.Ok? ==> && ExtractToken(header).Some?
                      && var t := ExtractToken(header).value;
                      && t != "" && verify(t).Some?
                      && var c := verify(t).value;
                      && c.sub in users && users[c.sub].isActive && users[c.sub].email == ToLower(c.email)
                      && c.tv == Some(users[c.sub].tokenVersion)
                      && r.value == Principal(c.sub, users[c.sub].email, None)
    ensures r == Err(UserNotFound) <==> && ExtractToken(header).Some? && ExtractToken(header).value != ""
                                         && verify(ExtractToken(header).value).Some?
                                         && !Matches(users, verify(ExtractToken(header).value).value)
  {
    match ExtractToken(header)
    case None => Err(TokenRequired)
    case Some(t) =>
      if t == "" then Err(TokenRequired)
      else match verify(t)
        case None => Err(InvalidToken)
        case Some(c) =>
          if !Matches(users, c) then Err(UserNotFound)
          else if c.tv != Some(users[c.sub].tokenVersion) then Err(TokenExpired)
          else Ok(Principal(c.sub, users[c.sub].email, None))
  }

  /** `findOne({ _id: sub, email, isActive: true })`. The schema's
      `lowercase` setter casts the claimed email before the comparison. */
  predicate Matches(users: map<Users.UserId, Users.User>, c: Claims) {
    c.sub in users && users[c.sub].email == ToLower(c.email) && users[c.sub].isActive
  }

  /** The claims signed at login for the stored user. */
  function LoginClaims(users: map<Users.UserId, Users.User>, id: Users.UserId): Claims
    requires id in users
  {
    Claims(id, users[id].email, Some(users[id].tokenVersion))
  }

  /** A token carrying the login claims of an active user lets that user in
      as themselves. Stored emails are lower case, as the schema stores them. */
  lemma LoginTokenAccepted(users: map<Users.UserId, Users.User>, id: Users.UserId,
                           token: string, verify: string -> Option<Claims>)
    requires id in users && users[id].isActive && token != "" && ToLower(users[id].email) == users[id].email
    requires verify(token) == Some(LoginClaims(users, id))
    ensures Authenticate(Some(Prefix + token), verify, users) == Ok(Principal(id, users[id].email, None))
  {
    ExtractRoundTrip(token);
  }

  /** Once the stored token version moves on, a token signed before is
      refused as expired, although its signature still verifies. */
  lemma VersionBumpRevokes(users: map<Users.UserId, Users.User>, id: Users.UserId,
                           token: string, verify: string -> Option<Claims>)
    requires id in users && users[id].isActive && token != "" && ToLower(users[id].email) == users[id].email
    requires verify(token) == Some(LoginClaims(users, id))
    ensures var bumped := users[id := users[id].(tokenVersion := users[id].tokenVersion + 1)];
      Authenticate(Some(Prefix + token), verify, bumped) == Err(TokenExpired)
  {
    ExtractRoundTrip(token);
  }

  /** A user just registered signs in: a token with their login claims is
      accepted, whatever letter case the email was registered in. */
  lemma RegisteredUserAccepted(users: map<Users.UserId, Users.User>, req: Users.RegisterRequest, id: Users.UserId,
                               hash: string -> string, token: string, verify: string -> Option<Claims>)
    requires id !in users && Users.Register(users, req, id, hash).Ok? && token != ""
    requires verify(token) == Some(LoginClaims(Users.Register(users, req, id, hash).value, id))
    ensures var n := Users.Register(users, req, id, hash).value;
      Authenticate(Some(Prefix + token), verify, n) == Ok(Principal(id, ToLower(req.email.value), None))
  {
    var n := Users.Register(users, req, id, hash).value;
    ToLowerIdempotent(req.email.value);
    LoginTokenAccepted(n, id, token, verify);
  }

  /** A deactivated user is shut out whatever the token says. */
  lemma InactiveUserRefused(users: map<Users.UserId, Users.User>, header: Option<string>,
                            verify: string -> Option<Claims>, id: Users.UserId)
    requires id in users && !users[id].isActive
    ensures Authenticate(header, verify, users).Ok? ==> Authenticate(header, verify, users).value.sub != id
  {
  }
}

=== FILE: users.dfy ===
/**
 The customer account: registration, partial profile update with the
 preference merge, and the address book whose "default" flag is kept on at
 most one address. Users are stored by id; password hashing is a parameter.
 */
module Users {
  import opened Common
  import opened Text

  type UserId = string
  type AddressId = string

  /** A value sent for a preference: a boolean or a text. */
  datatype PrefValue = Flag(b: bool) | Setting(s: string)

  /** The schema's `preferences` path: two flags and a language. */
  datatype Preferences = Preferences(newsletter: bool, smsUpdates: bool, language: string)

  datatype Address = Address(
    id: AddressId,
    name: string,
    phone: string,
    addressLine1: string,
    addressLine2: Option<string>,
    city: string,
    state: string,
    pincode: string,
    country: string,
    addressType: string,
    isDefault: bool)

  datatype User = User(
    id: UserId,
    firstName: string,
    lastName: string,
    email: string,
    phone: string,
    passwordHash: string,
    gender: Option<string>,
    preferences: Preferences,
    addresses: seq<Address>,
    isActive: bool,
    tokenVersion: int)

  /** The schema's enumeration for `gender`; an absent gender passes. */
  predicate ValidGender(g: Option<string>) {
    g.None? || g.value == "male" || g.value == "female" || g.value == "other"
  }

  /** The schema defaults for preferences. */
  const DefaultPreferences := Preferences(true, true, "en")

  predicate AtMostOneDefault(addrs: seq<Address>) {
    forall i, j :: 0 <= i < |addrs| && 0 <= j < |addrs| && addrs[i].isDefault && addrs[j].isDefault ==> i == j
  }

  predicate IdsUnique(addrs: seq<Address>) {
    forall i, j :: 0 <= i < j < |addrs| ==> addrs[i].id != addrs[j].id
  }

  predicate ValidAddressType(t: string) {
    t == "home" || t == "office" || t == "other"
  }

  /** The schema's checks on an address: required strings non-empty and the type in its enumeration. */
  predicate ValidAddress(a: Address) {
    a.name != "" && a.phone != "" && a.addressLine1 != "" && a.city != "" && a.state != "" && a.pincode != ""
    && ValidAddressType(a.addressType)
  }

  /** `addresses.id(addressId)`: the position of the address with that id. */
  function FindAddress(addrs: seq<Address>, id: AddressId): (r: Option<nat>)
    ensures r.Some? ==> r.value < |addrs| && addrs[r.value].id == id
    ensures r.Some? ==> forall i :: 0 <= i < r.value ==> addrs[i].id != id
    ensures r.None? <==> forall i :: 0 <= i < |addrs| ==> addrs[i].id != id
  {
    if |addrs| == 0 then None
    else if addrs[0].id == id then Some(0)
    else match FindAddress(addrs[1..], id)
      case None => None
      case Some(k) => Some(k + 1)
  }

  /** Every address's default flag switched off, nothing else touched. */
  function ClearDefaults(addrs: seq<Address>): (r: seq<Address>)
    ensures |r| == |addrs|
    ensures forall i :: 0 <= i < |addrs| ==> r[i] == addrs[i].(isDefault := false)
  {
    seq(|addrs|, i requires 0 <= i < |addrs| => addrs[i].(isDefault := false))
  }

  /** A list whose only possible default is at `k` has at most one. */
  lemma OnlyDefaultAt(n: seq<Address>, k: nat)
    requires k < |n| && forall i :: 0 <= i < |n| && i != k ==> !n[i].isDefault
    ensures AtMostOneDefault(n)
  {
  }

  /** Replacing an entry by one that is default only where the old one was
      keeps at most one default. */
  lemma ReplaceKeepsSingleDefault(o: seq<Address>, k: nat, a: Address)
    requires AtMostOneDefault(o) && k < |o| && (a.isDefault ==> o[k].isDefault)
    ensures AtMostOneDefault(o[k := a])
  {
    var n := o[k := a];
    forall i, j | 0 <= i < |n| && 0 <= j < |n| && n[i].isDefault && n[j].isDefault
      ensures i == j
    {
      assert o[i].isDefault && o[j].isDefault;
    }
  }

  /** Appending a non-default entry keeps at most one default. */
  lemma AppendKeepsSingleDefault(o: seq<Address>, a: Address)
    requires AtMostOneDefault(o) && !a.isDefault
    ensures AtMostOneDefault(o + [a])
  {
    var n := o + [a];
    forall i, j | 0 <= i < |n| && 0 <= j < |n| && n[i].isDefault && n[j].isDefault
      ensures i == j
    {
      assert i < |o| && j < |o|;
      assert n[i] == o[i] && n[j] == o[j];
    }
  }

  /** Appending an entry under an id no entry holds keeps the ids unique,
      whatever happened to the entries' other fields. */
  lemma AppendKeepsIdsUnique(o: seq<Address>, base: seq<Address>, a: Address)
    requires IdsUnique(o) && FindAddress(o, a.id).None?
    requires |base| == |o| && forall i :: 0 <= i < |o| ==> base[i].id == o[i].id
    ensures IdsUnique(base + [a])
  {
    var n := base + [a];
    forall i, j | 0 <= i < j < |n|
      ensures n[i].id != n[j].id
    {
      assert n[i] == base[i];
      if j < |o| {
        assert n[j] == base[j];
      }
    }
  }

  /** An id absent from the front of a list and held at `k` is found at `k`. */
  lemma {:induction false} FindAddressFirst(addrs: seq<Address>, k: nat, id: AddressId)
    requires k < |addrs| && addrs[k].id == id
    requires forall i :: 0 <= i < k ==> addrs[i].id != id
    ensures FindAddress(addrs, id) == Some(k)
  {
    if k > 0 {
      var tail := addrs[1..];
      forall i | 0 <= i < k - 1 ensures tail[i].id != id {
        assert tail[i] == addrs[i + 1];
      }
      FindAddressFirst(tail, k - 1, id);
    }
  }

  predicate EmailTaken(users: map<UserId, User>, email: string) {
    exists u :: u in users && users[u].email == email
  }

  predicate PhoneTaken(users: map<UserId, User>, phone: string, except: Option<UserId>) {
    exists u :: u in users && users[u].phone == phone && Some(u) != except
  }

  /** The unique indexes on email and phone. */
  predicate EmailsUnique(users: map<UserId, User>) {
    forall u, v :: u in users && v in users && u != v ==> users[u].email != users[v].email
  }

  predicate PhonesUnique(users: map<UserId, User>) {
    forall u, v :: u in users && v in users && u != v ==> users[u].phone != users[v].phone
  }

  datatype RegisterRequest = RegisterRequest(
    firstName: Option<string>,
    lastName: Option<string>,
    email: Option<string>,
    phone: Option<string>,
    password: Option<string>,
    gender: Option<string>)

  datatype UserError =
    | MissingFields      // 400 required fields missing
    | PasswordTooShort   // 400 Password must be at least 6 characters
    | EmailExists        // 409 User already exists with this email
    | PhoneExists        // 409 phone number already exists
    | UserNotFound       // 404 User not found
    | AddressNotFound    // 404 Address not found
    | Validation         // schema or unique-index failure at save (500)

  predicate RegisterFieldsPresent(req: RegisterRequest) {
    Truthy(req.firstName) && Truthy(req.lastName) && Truthy(req.email) && Truthy(req.phone) && Truthy(req.password)
  }

  /** `registerUser`: five truthy fields, a password of at least 6 characters,
      then an email check before a phone check. The email check finds the
      email lower-cased, as the schema's `lowercase` setter casts the query
      value; the phone is compared as sent. The schema trims the names (a
      name of white space only then fails `required`) and lower-cases the
      stored email; a gender outside the enumeration fails the save. The new
      id is a parameter. */
  function Register(users: map<UserId, User>, req: RegisterRequest, id: UserId, hash: string -> string): (r: Result<map<UserId, User>, UserError>)
    requires id !in users
    ensures !RegisterFieldsPresent(req) ==> r == Err(MissingFields)
    ensures RegisterFieldsPresent(req) && |req.password.value| < 6 ==> r == Err(PasswordTooShort)
    ensures RegisterFieldsPresent(req) && |req.password.value| >= 6 ==>
      && (r == Err(EmailExists) <==> EmailTaken(users, ToLower(req.email.value)))
      && (r == Err(PhoneExists) <==> !EmailTaken(users, ToLower(req.email.value))
                                     && PhoneTaken(users, req.phone.value, None))
    ensures r.Ok? <==> && RegisterFieldsPresent(req) && |req.password.value| >= 6
                       && !EmailTaken(users, ToLower(req.email.value)) && !PhoneTaken(users, req.phone.value, None)
                       && Trim(req.firstName.value) != "" && Trim(req.lastName.value) != "" && ValidGender(req.gender)
    ensures r.Err? && r.error == Validation ==>
      Trim(req.firstName.value) == "" || Trim(req.lastName.value) == "" || !ValidGender(req.gender)
    ensures r.Ok? ==> id in r.value && r.value == users[id := r.value[id]]
    ensures r.Ok? ==> var u := r.value[id];
      && u.id == id && u.email == ToLower(req.email.value) && u.phone == req.phone.value
      && u.firstName == Trim(req.firstName.value) && u.lastName == Trim(req.lastName.value)
      && u.passwordHash == hash(req.password.value)
      && u.preferences == DefaultPreferences && u.gender == req.gender
      && u.addresses == [] && u.isActive && u.tokenVersion == 0
  {
    if !RegisterFieldsPresent(req) then Err(MissingFields)
    else if |req.password.value| < 6 then Err(PasswordTooShort)
    else if EmailTaken(users, ToLower(req.email.value)) then Err(EmailExists)
    else if PhoneTaken(users, req.phone.value, None) then Err(PhoneExists)
    else
      var u := User(id, Trim(req.firstName.value), Trim(req.lastName.value), ToLower(req.email.value), req.phone.value,
                    hash(req.password.value), req.gender, DefaultPreferences, [], true, 0);
      if u.firstName == "" || u.lastName == "" || !ValidGender(u.gender) then Err(Validation)
      else Ok(users[id := u])
  }

  /** A registration keeps emails and phones unique. */
  lemma RegisterKeepsUnique(users: map<UserId, User>, req: RegisterRequest, id: UserId, hash: string -> string)
    requires id !in users && EmailsUnique(users) && PhonesUnique(users)
    requires Register(users, req, id, hash).Ok?
    ensures EmailsUnique(Register(users, req, id, hash).value)
    ensures PhonesUnique(Register(users, req, id, hash).value)
  {
    var n := Register(users, req, id, hash).value;
    forall u, v | u in n && v in n && u != v
      ensures n[u].email != n[v].email && n[u].phone != n[v].phone
    {
      if u == id {
        assert !EmailTaken(users, n[u].email) && v in users;
        assert !PhoneTaken(users, n[u].phone, None);
      } else if v == id {
        assert !EmailTaken(users, n[v].email) && u in users;
        assert !PhoneTaken(users, n[v].phone, None);
      }
    }
  }

  /** A second registration with the same email, in any letter case, is refused. */
  lemma RegisterTwiceRefused(users: map<UserId, User>, req: RegisterRequest, id: UserId, id2: UserId,
                             hash: string -> string)
    requires id !in users && Register(users, req, id, hash).Ok?
    requires id2 !in Register(users, req, id, hash).value
    ensures Register(Register(users, req, id, hash).value, req, id2, hash) == Err(EmailExists)
  {
    var n := Register(users, req, id, hash).value;
    assert n[id].email == ToLower(req.email.value);
  }

  datatype ProfilePatch = ProfilePatch(
    firstName: Option<string>,
    lastName: Option<string>,
    phone: Option<string>,
    gender: Option<string>,
    preferences: Option<map<string, PrefValue>>)

  /** Mongoose's Boolean cast: a boolean, or one of the strings it reads as one. */
  function CastFlag(v: PrefValue): (r: Option<bool>)
    ensures v.Flag? ==> r == Some(v.b)
    ensures v.Setting? ==> (r == Some(true) <==> v.s in {"true", "1", "yes"})
    ensures v.Setting? ==> (r == Some(false) <==> v.s in {"false", "0", "no"})
  {
    match v
    case Flag(b) => Some(b)
    case Setting(s) =>
      if s == "true" || s == "1" || s == "yes" then Some(true)
      else if s == "false" || s == "0" || s == "no" then Some(false)
      else None
  }

  /** JavaScript truthiness of a sent value: `false` and the empty text are falsy. */
  predicate TruthyValue(v: PrefValue) {
    match v
    case Flag(b) => b
    case Setting(s) => s != ""
  }

  /** A value was sent and is truthy, as `if (isDefault)` tests it. */
  predicate SentTruthy(v: Option<PrefValue>) {
    v.Some? && TruthyValue(v.value)
  }

  /** A sent `isDefault` the Boolean cast cannot convert: the save fails. */
  predicate CastFails(v: Option<PrefValue>) {
    v.Some? && CastFlag(v.value).None?
  }

  /** The stored flag for a sent value: the cast value, or `keep` when nothing
      was sent or the cast failed. */
  function FlagOr(v: Option<PrefValue>, keep: bool): bool {
    if v.Some? && CastFlag(v.value).Some? then CastFlag(v.value).value else keep
  }

  /** A falsy value never casts to `true`. */
  lemma FalsyNeverTrue(v: Option<PrefValue>, keep: bool)
    requires !SentTruthy(v)
    ensures FlagOr(v, keep) ==> keep
  {
  }

  /** Mongoose's String cast: a boolean becomes its text. */
  function CastSetting(v: PrefValue): (r: string)
    ensures v.Setting? ==> r == v.s
    ensures v.Flag? ==> r == (if v.b then "true" else "false")
  {
    match v
    case Flag(b) => if b then "true" else "false"
    case Setting(s) => s
  }

  predicate KnownPreference(k: string) {
    k == "newsletter" || k == "smsUpdates" || k == "language"
  }

  /** `{ ...user.preferences, ...preferences }` saved through the strict
      nested path: a declared key replaces the stored value after the
      schema's cast, a flag that does not cast fails the save, and a key the
      schema does not declare is dropped. */
  function MergePreferences(p: Preferences, sent: map<string, PrefValue>): (r: Option<Preferences>)
    ensures r.None? <==> || ("newsletter" in sent && CastFlag(sent["newsletter"]).None?)
                         || ("smsUpdates" in sent && CastFlag(sent["smsUpdates"]).None?)
    ensures r.Some? ==> && r.value.newsletter == (if "newsletter" in sent then CastFlag(sent["newsletter"]).value else p.newsletter)
                        && r.value.smsUpdates == (if "smsUpdates" in sent then CastFlag(sent["smsUpdates"]).value else p.smsUpdates)
                        && r.value.language == (if "language" in sent then CastSetting(sent["language"]) else p.language)
  {
    var nl := if "newsletter" in sent then CastFlag(sent["newsletter"]) else Some(p.newsletter);
    var sms := if "smsUpdates" in sent then CastFlag(sent["smsUpdates"]) else Some(p.smsUpdates);
    if nl.None? || sms.None? then None
    else Some(Preferences(nl.value, sms.value, if "language" in sent then CastSetting(sent["language"]) else p.language))
  }

  /** A key the schema does not declare makes no difference to the merge. */
  lemma UnknownPreferenceIgnored(p: Preferences, sent: map<string, PrefValue>, k: string, v: PrefValue)
    requires !KnownPreference(k)
    ensures MergePreferences(p, sent[k := v]) == MergePreferences(p, sent)
  {
  }

  /** Merging nothing keeps the stored preferences. */
  lemma MergeNothing(p: Preferences)
    ensures MergePreferences(p, map[]) == Some(p)
  {
  }

  /** The names and phone a profile update would store. */
  function PatchedName(sent: Option<string>, stored: string): string {
    if Truthy(sent) then Trim(sent.value) else stored
  }

  /** `updateProfile`: an unknown user is refused, then a truthy phone held by
      another user; truthy names (trimmed by the schema) and phone replace the
      stored ones and supplied preferences are merged; the save fails when a
      name ends up empty, the gender is outside the enumeration or a preference has the wrong kind. Nothing else
      changes. */
  function UpdateProfile(users: map<UserId, User>, id: UserId, patch: ProfilePatch): (r: Result<map<UserId, User>, UserError>)
    ensures id !in users ==> r == Err(UserNotFound)
    ensures id in users && Truthy(patch.phone) && PhoneTaken(users, patch.phone.value, Some(id)) ==> r == Err(PhoneExists)
    ensures r.Ok? <==> && id in users
                       && !(Truthy(patch.phone) && PhoneTaken(users, patch.phone.value, Some(id)))
                       && PatchedName(patch.firstName, users[id].firstName) != ""
                       && PatchedName(patch.lastName, users[id].lastName) != ""
                       && ValidGender(if Truthy(patch.gender) then patch.gender else users[id].gender)
                       && (patch.preferences.Some? ==> MergePreferences(users[id].preferences, patch.preferences.value).Some?)
    ensures r.Err? && r.error != UserNotFound && r.error != PhoneExists ==> r.error == Validation
    ensures r.Ok? ==> id in users && id in r.value && r.value == users[id := r.value[id]]
    ensures r.Ok? ==> var o := users[id]; var u := r.value[id];
      && u.firstName == (if Truthy(patch.firstName) then Trim(patch.firstName.value) else o.firstName)
      && u.lastName == (if Truthy(patch.lastName) then Trim(patch.lastName.value) else o.lastName)
      && u.phone == (if Truthy(patch.phone) then patch.phone.value else o.phone)
      && u.gender == (if Truthy(patch.gender) then patch.gender else o.gender)
      && (patch.preferences.Some? ==> Some(u.preferences) == MergePreferences(o.preferences, patch.preferences.value))
      && (patch.preferences.None? ==> u.preferences == o.preferences)
      && u.email == o.email && u.passwordHash == o.passwordHash && u.addresses == o.addresses
      && u.isActive == o.isActive && u.tokenVersion == o.tokenVersion && u.id == o.id
  {
    if id !in users then Err(UserNotFound)
    else
      var o := users[id];
      if Truthy(patch.phone) && PhoneTaken(users, patch.phone.value, Some(id)) then Err(PhoneExists)
      else
        var prefs := if patch.preferences.Some? then MergePreferences(o.preferences, patch.preferences.value)
                     else Some(o.preferences);
        if prefs.None? then Err(Validation)
        else
          var u := o.(firstName := PatchedName(patch.firstName, o.firstName),
                      lastName := PatchedName(patch.lastName, o.lastName),
                      phone := if Truthy(patch.phone) then patch.phone.value else o.phone,
                      gender := if Truthy(patch.gender) then patch.gender else o.gender,
                      preferences := prefs.value);
          if u.firstName == "" || u.lastName == "" || !ValidGender(u.gender) then Err(Validation)
          else Ok(users[id := u])
  }

  /** A profile update keeps phones unique. */
  lemma UpdateProfileKeepsPhonesUnique(users: map<UserId, User>, id: UserId, patch: ProfilePatch)
    requires PhonesUnique(users) && UpdateProfile(users, id, patch).Ok?
    ensures PhonesUnique(UpdateProfile(users, id, patch).value)
  {
    var n := UpdateProfile(users, id, patch).value;
    forall u, v | u in n && v in n && u != v
      ensures n[u].phone != n[v].phone
    {
      if u == id && Truthy(patch.phone) {
        assert !PhoneTaken(users, n[u].phone, Some(id)) && v in users;
      } else if v == id && Truthy(patch.phone) {
        assert !PhoneTaken(users, n[v].phone, Some(id)) && u in users;
      }
    }
  }

  /** An update that sends nothing leaves a user that meets the schema as they were. */
  lemma EmptyProfilePatchChangesNothing(users: map<UserId, User>, id: UserId)
    requires id in users && users[id].firstName != "" && users[id].lastName != "" && ValidGender(users[id].gender)
    ensures UpdateProfile(users, id, ProfilePatch(None, None, None, None, None)) == Ok(users)
  {
    assert users[id := users[id]] == users;
  }

  datatype AddressRequest = AddressRequest(
    name: Option<string>,
    phone: Option<string>,
    addressLine1: Option<string>,
    addressLine2: Option<string>,
    city: Option<string>,
    state: Option<string>,
    pincode: Option<string>,
    addressType: Option<string>,
    isDefault: Option<PrefValue>)

  predicate AddressFieldsPresent(req: AddressRequest) {
    Truthy(req.name) && Truthy(req.phone) && Truthy(req.addressLine1) && Truthy(req.city) && Truthy(req.state) && Truthy(req.pincode)
  }

  /** The address list `addAddress` saves: a default address first clears
      every other default; the new entry takes the type "home" when none is
      given and is appended last. `newId` is the identifier the store assigns. */
  function AddedAddresses(o: seq<Address>, req: AddressRequest, newId: AddressId): (n: seq<Address>)
    requires AddressFieldsPresent(req)
    ensures |n| == |o| + 1
    ensures n[|o|].id == newId && n[|o|].name == req.name.value && n[|o|].phone == req.phone.value
    ensures n[|o|].addressType == (if Truthy(req.addressType) then req.addressType.value else "home")
    ensures n[|o|].isDefault == FlagOr(req.isDefault, false) && n[|o|].country == "India"
    ensures forall i :: 0 <= i < |o| ==> n[i] == o[i].(isDefault := n[i].isDefault)
    ensures SentTruthy(req.isDefault) ==> forall i :: 0 <= i < |o| ==> !n[i].isDefault
    ensures !SentTruthy(req.isDefault) ==> n[..|o|] == o
    ensures AtMostOneDefault(o) ==> AtMostOneDefault(n)
    ensures IdsUnique(o) && FindAddress(o, newId).None? ==> IdsUnique(n)
  {
    var base := if SentTruthy(req.isDefault) then ClearDefaults(o) else o;
    var a := Address(newId, req.name.value, req.phone.value, req.addressLine1.value, req.addressLine2,
                     req.city.value, req.state.value, req.pincode.value, "India",
                     if Truthy(req.addressType) then req.addressType.value else "home", FlagOr(req.isDefault, false));
    var n := base + [a];
    assert n[..|o|] == base;
    assert AtMostOneDefault(o) ==> AtMostOneDefault(n) by {
      if SentTruthy(req.isDefault) {
        OnlyDefaultAt(n, |o|);
      } else if AtMostOneDefault(o) {
        FalsyNeverTrue(req.isDefault, false);
        AppendKeepsSingleDefault(o, a);
      }
    }
    assert IdsUnique(o) && FindAddress(o, newId).None? ==> IdsUnique(n) by {
      if IdsUnique(o) && FindAddress(o, newId).None? {
        AppendKeepsIdsUnique(o, base, a);
      }
    }
    n
  }

  /** `addAddress`: the required fields are checked before the user is looked
      up; the saved list is `AddedAddresses`, refused when the new entry
      breaks the schema (an address type outside the enumeration). */
  function AddAddress(users: map<UserId, User>, id: UserId, req: AddressRequest, newId: AddressId): (r: Result<map<UserId, User>, UserError>)
    ensures !AddressFieldsPresent(req) ==> r == Err(MissingFields)
    ensures AddressFieldsPresent(req) && id !in users ==> r == Err(UserNotFound)
    ensures AddressFieldsPresent(req) && id in users ==>
      var o := users[id].addresses;
      var n := AddedAddresses(o, req, newId);
      && (r == Err(Validation) <==> !ValidAddress(n[|o|]) || CastFails(req.isDefault))
      && (r.Ok? ==> r.value == users[id := users[id].(addresses := n)])
    ensures r.Ok? <==> && AddressFieldsPresent(req) && id in users
                       && (!Truthy(req.addressType) || ValidAddressType(req.addressType.value))
                       && !CastFails(req.isDefault)
  {
    if !AddressFieldsPresent(req) then Err(MissingFields)
    else if id !in users then Err(UserNotFound)
    else
      var o := users[id].addresses;
      var n := AddedAddresses(o, req, newId);
      if !ValidAddress(n[|o|]) || CastFails(req.isDefault) then Err(Validation)
      else Ok(users[id := users[id].(addresses := n)])
  }

  /** A new address under a fresh id is found again by that id, last in the list. */
  lemma AddedAddressFound(o: seq<Address>, req: AddressRequest, newId: AddressId)
    requires AddressFieldsPresent(req) && FindAddress(o, newId).None?
    ensures FindAddress(AddedAddresses(o, req, newId), newId) == Some(|o|)
  {
    var n := AddedAddresses(o, req, newId);
    forall i | 0 <= i < |o| ensures n[i].id != newId {
      assert n[i].id == o[i].id;
    }
    FindAddressFirst(n, |o|, newId);
  }

  datatype AddressPatch = AddressPatch(
    name: Option<string>,
    phone: Option<string>,
    addressLine1: Option<string>,
    addressLine2: Option<string>,
    city: Option<string>,
    state: Option<string>,
    pincode: Option<string>,
    country: Option<string>,
    addressType: Option<string>,
    isDefault: Option<PrefValue>)

  /** `Object.assign(address, updates)`: every supplied field replaces the
      stored one; `isDefault` goes through the Boolean cast. */
  function Assign(a: Address, p: AddressPatch): (r: Address)
    ensures r.id == a.id
    ensures p.isDefault.Some? && CastFlag(p.isDefault.value).Some? ==> r.isDefault == CastFlag(p.isDefault.value).value
    ensures p.isDefault.None? ==> r.isDefault == a.isDefault
    ensures r.name == p.name.GetOr(a.name) && r.phone == p.phone.GetOr(a.phone)
    ensures r.addressLine1 == p.addressLine1.GetOr(a.addressLine1)
    ensures r.addressLine2 == (if p.addressLine2.Some? then p.addressLine2 else a.addressLine2)
    ensures r.city == p.city.GetOr(a.city) && r.state == p.state.GetOr(a.state) && r.pincode == p.pincode.GetOr(a.pincode)
    ensures r.country == p.country.GetOr(a.country) && r.addressType == p.addressType.GetOr(a.addressType)
  {
    a.(name := p.name.GetOr(a.name), phone := p.phone.GetOr(a.phone),
       addressLine1 := p.addressLine1.GetOr(a.addressLine1),
       addressLine2 := if p.addressLine2.Some? then p.addressLine2 else a.addressLine2,
       city := p.city.GetOr(a.city), state := p.state.GetOr(a.state), pincode := p.pincode.GetOr(a.pincode),
       country := p.country.GetOr(a.country), addressType := p.addressType.GetOr(a.addressType),
       isDefault := FlagOr(p.isDefault, a.isDefault))
  }

  /** The address list `updateAddress` saves for the entry at `k`: a truthy
      `isDefault` clears every default first, then the supplied fields are
      copied onto that entry. */
  function UpdatedAddresses(o: seq<Address>, k: nat, p: AddressPatch): (n: seq<Address>)
    requires k < |o|
    ensures |n| == |o|
    ensures n[k] == Assign(o[k], p).(isDefault := n[k].isDefault)
    ensures forall i :: 0 <= i < |o| && i != k ==> n[i] == o[i].(isDefault := n[i].isDefault)
    ensures SentTruthy(p.isDefault) ==> forall i :: 0 <= i < |o| && i != k ==> !n[i].isDefault
    ensures SentTruthy(p.isDefault) && CastFlag(p.isDefault.value) == Some(true) ==> n[k].isDefault
    ensures SentTruthy(p.isDefault) && CastFlag(p.isDefault.value) == Some(false) ==> !n[k].isDefault
    ensures !SentTruthy(p.isDefault) ==> n == o[k := Assign(o[k], p)]
    ensures AtMostOneDefault(o) ==> AtMostOneDefault(n)
    ensures IdsUnique(o) ==> IdsUnique(n)
  {
    var base := if SentTruthy(p.isDefault) then ClearDefaults(o) else o;
    var a := Assign(base[k], p);
    var n := base[k := a];
    assert AtMostOneDefault(o) ==> AtMostOneDefault(n) by {
      if SentTruthy(p.isDefault) {
        OnlyDefaultAt(n, k);
      } else if AtMostOneDefault(o) {
        FalsyNeverTrue(p.isDefault, o[k].isDefault);
        ReplaceKeepsSingleDefault(o, k, a);
      }
    }
    assert IdsUnique(o) ==> IdsUnique(n) by {
      if IdsUnique(o) {
        forall i, j | 0 <= i < j < |n| ensures n[i].id != n[j].id {
          assert n[i].id == o[i].id && n[j].id == o[j].id;
        }
      }
    }
    n
  }

  /** `updateAddress`: an unknown user or address is refused; otherwise the
      saved list is `UpdatedAddresses` at the address's position, refused when
      the edited entry breaks the schema. */
  function UpdateAddress(users: map<UserId, User>, id: UserId, addressId: AddressId, p: AddressPatch): (r: Result<map<UserId, User>, UserError>)
    ensures id !in users ==> r == Err(UserNotFound)
    ensures id in users && FindAddress(users[id].addresses, addressId).None? ==> r == Err(AddressNotFound)
    ensures id in users && FindAddress(users[id].addresses, addressId).Some? ==>
      var o := users[id].addresses;
      var k := FindAddress(o, addressId).value;
      var n := UpdatedAddresses(o, k, p);
      && (r == Err(Validation) <==> !ValidAddress(n[k]) || CastFails(p.isDefault))
      && (r.Ok? ==> r.value == users[id := users[id].(addresses := n)])
    ensures r.Ok? <==> id in users && FindAddress(users[id].addresses, addressId).Some?
                       && ValidAddress(Assign(users[id].addresses[FindAddress(users[id].addresses, addressId).value], p))
                       && !CastFails(p.isDefault)
  {
    if id !in users then Err(UserNotFound)
    else
      var o := users[id].addresses;
      match FindAddress(o, addressId)
      case None => Err(AddressNotFound)
      case Some(k) =>
        var n := UpdatedAddresses(o, k, p);
        if !ValidAddress(n[k]) || CastFails(p.isDefault) then Err(Validation)
        else Ok(users[id := users[id].(addresses := n)])
  }

  /** The text "false" is truthy, so it clears every default before the cast
      stores `false` on the edited entry: the user is left with no default
      address. */
  lemma FalseTextClearsEveryDefault(o: seq<Address>, k: nat, p: AddressPatch)
    requires k < |o| && p.isDefault == Some(Setting("false"))
    ensures forall i :: 0 <= i < |o| ==> !UpdatedAddresses(o, k, p)[i].isDefault
  {
    assert SentTruthy(p.isDefault);
    assert CastFlag(p.isDefault.value) == Some(false);
  }

  /** An update keeps the address where it was: it is found at the same place. */
  lemma UpdatedAddressFound(o: seq<Address>, addressId: AddressId, p: AddressPatch)
    requires FindAddress(o, addressId).Some?
    ensures var k := FindAddress(o, addressId).value;
      FindAddress(UpdatedAddresses(o, k, p), addressId) == Some(k)
  {
    var k := FindAddress(o, addressId).value;
    var n := UpdatedAddresses(o, k, p);
    assert n[k].id == Assign(o[k], p).id == o[k].id == addressId;
    forall i | 0 <= i < k ensures n[i].id != addressId {
      assert n[i].id == o[i].id;
    }
    FindAddressFirst(n, k, addressId);
  }

  /** The addresses other than the given id, in order (`addresses.pull(id)`). */
  function Without(addrs: seq<Address>, id: AddressId): (r: seq<Address>)
    ensures forall i :: 0 <= i < |r| ==> r[i].id != id
    ensures forall a :: a in r <==> a in addrs && a.id != id
    ensures |r| <= |addrs|
  {
    if |addrs| == 0 then []
    else if addrs[0].id == id then Without(addrs[1..], id)
    else [addrs[0]] + Without(addrs[1..], id)
  }

  /** Dropping addresses never creates a second default. */
  lemma {:induction false} WithoutKeepsSingleDefault(addrs: seq<Address>, id: AddressId)
    requires AtMostOneDefault(addrs)
    ensures AtMostOneDefault(Without(addrs, id))
  {
    if |addrs| > 0 {
      var tail := addrs[1..];
      assert AtMostOneDefault(tail) by {
        forall i, j | 0 <= i < |tail| && 0 <= j < |tail| && tail[i].isDefault && tail[j].isDefault
          ensures i == j
        {
          assert addrs[i + 1] == tail[i] && addrs[j + 1] == tail[j];
        }
      }
      WithoutKeepsSingleDefault(tail, id);
      var rest := Without(tail, id);
      if addrs[0].id != id && addrs[0].isDefault {
        forall i | 0 <= i < |rest| ensures !rest[i].isDefault {
          assert rest[i] in tail;
          var j :| 0 <= j < |tail| && tail[j] == rest[i];
          assert addrs[j + 1] == rest[i];
        }
      }
    }
  }

  /** `deleteAddress`: the addressed entry goes (an unknown id changes nothing). */
  function DeleteAddress(users: map<UserId, User>, id: UserId, addressId: AddressId): (r: Result<map<UserId, User>, UserError>)
    ensures r.Err? <==> id !in users
    ensures r.Ok? ==> id in r.value && r.value == users[id := r.value[id]]
    ensures r.Ok? ==> var n := r.value[id].addresses;
      && (forall i :: 0 <= i < |n| ==> n[i].id != addressId)
      && (forall a :: a in n <==> a in users[id].addresses && a.id != addressId)
      && (AtMostOneDefault(users[id].addresses) ==> AtMostOneDefault(n))
  {
    if id !in users then Err(UserNotFound)
    else
      var n := Without(users[id].addresses, addressId);
      assert AtMostOneDefault(users[id].addresses) ==> AtMostOneDefault(n) by {
        if AtMostOneDefault(users[id].addresses) {
          WithoutKeepsSingleDefault(users[id].addresses, addressId);
        }
      }
      Ok(users[id := users[id].(addresses := n)])
  }
}

=== FILE: wishlist.dfy ===
/**
 The per-user wishlist: a list of product ids that never holds the same id
 twice. Adding needs an active product, removing needs none, and reading
 drops the products that have gone missing or inactive.
 */
module Wishlists {
  import opened Common
  import Catalog

  type UserId = string
  type ProductId = Catalog.ProductId
  type Products = map<ProductId, Catalog.Product>

  /** The stored wishlists, one per user. */
  type Lists = map<UserId, seq<ProductId>>

  datatype WishError =
    | IdRequired          // 400 Product ID is required
    | ProductUnavailable  // 404 Product not found or inactive
    | NotFound            // 404 Wishlist not found

  datatype ToggleAction = Added | Removed

  predicate NoDuplicates(s: seq<ProductId>) {
    forall i, j :: 0 <= i < j < |s| ==> s[i] != s[j]
  }

  /** The tail of a list without duplicates has none, and lacks the head. */
  lemma NoDuplicatesTail(s: seq<ProductId>)
    requires |s| > 0 && NoDuplicates(s)
    ensures NoDuplicates(s[1..]) && s[0] !in s[1..]
  {
    forall i, j | 0 <= i < j < |s| - 1 ensures s[1..][i] != s[1..][j] {
      assert s[1..][i] == s[i + 1] && s[1..][j] == s[j + 1];
    }
  }

  /** A new head in front of a list without duplicates keeps it so. */
  lemma NoDuplicatesCons(a: ProductId, rest: seq<ProductId>)
    requires NoDuplicates(rest) && a !in rest
    ensures NoDuplicates([a] + rest)
  {
    var r := [a] + rest;
    forall i, j | 0 <= i < j < |r| ensures r[i] != r[j] {
      assert r[j] == rest[j - 1];
      if i > 0 {
        assert r[i] == rest[i - 1];
      }
    }
  }

  predicate Active(products: Products, id: ProductId) {
    id in products && products[id].isActive
  }

  /** A user's list; a user without one gets an empty list. */
  function Get(lists: Lists, u: UserId): seq<ProductId> {
    if u in lists then lists[u] else []
  }

  /** `products.pull(id)`: every copy of the id is taken out, the rest keeps its order. */
  function Pull(s: seq<ProductId>, x: ProductId): (r: seq<ProductId>)
    ensures x !in r
    ensures forall y :: y != x ==> (y in r <==> y in s)
    ensures x !in s ==> r == s
    ensures |r| <= |s|
    ensures NoDuplicates(s) ==> NoDuplicates(r)
  {
    if |s| == 0 then []
    else
      var rest := Pull(s[1..], x);
      assert forall y :: y in s[1..] ==> y in s;
      assert NoDuplicates(s) ==> NoDuplicates(rest) && s[0] !in rest by {
        if NoDuplicates(s) {
          NoDuplicatesTail(s);
        }
      }
      if s[0] == x then rest
      else
        var r := [s[0]] + rest;
        assert NoDuplicates(s) ==> NoDuplicates(r) by {
          if NoDuplicates(s) {
            NoDuplicatesCons(s[0], rest);
          }
        }
        r
  }

  /** `addToWishlist`: an id is required and must name an active product; a
      user without a wishlist gets one; an id already present is not added
      again. */
  function Add(lists: Lists, products: Products, u: UserId, id: ProductId): (r: Result<Lists, WishError>)
    ensures id == "" ==> r == Err(IdRequired)
    ensures id != "" ==> (r == Err(ProductUnavailable) <==> !Active(products, id))
    ensures r.Ok? <==> id != "" && Active(products, id)
    ensures r.Ok? ==> && id != "" && Active(products, id)
                      && u in r.value && id in r.value[u]
                      && (forall y :: y in r.value[u] <==> y in Get(lists, u) || y == id)
                      && (id in Get(lists, u) ==> r.value[u] == Get(lists, u))
                      && (NoDuplicates(Get(lists, u)) ==> NoDuplicates(r.value[u]))
                      && r.value == lists[u := r.value[u]]
  {
    if id == "" then Err(IdRequired)
    else if !Active(products, id) then Err(ProductUnavailable)
    else
      var l := Get(lists, u);
      if id in l then Ok(lists[u := l])
      else Ok(lists[u := l + [id]])
  }

  /** Adding the same product twice is the same as adding it once. */
  lemma AddIdempotent(lists: Lists, products: Products, u: UserId, id: ProductId)
    requires Add(lists, products, u, id).Ok?
    ensures var once := Add(lists, products, u, id).value;
      Add(once, products, u, id) == Ok(once)
  {
    var once := Add(lists, products, u, id).value;
    assert once[u := once[u]] == once;
  }

  /** `removeFromWishlist`: a user without a wishlist gets "not found";
      otherwise the id is taken out, whether or not it was there. */
  function Remove(lists: Lists, u: UserId, id: ProductId): (r: Result<Lists, WishError>)
    ensures r.Err? <==> u !in lists
    ensures r.Err? ==> r.error == NotFound
    ensures r.Ok? ==> && u in r.value && id !in r.value[u]
                      && (forall y :: y != id ==> (y in r.value[u] <==> y in lists[u]))
                      && (NoDuplicates(lists[u]) ==> NoDuplicates(r.value[u]))
                      && r.value == lists[u := r.value[u]]
  {
    if u !in lists then Err(NotFound)
    else Ok(lists[u := Pull(lists[u], id)])
  }

  /** Removing a product just added gives back the list the user had. */
  lemma AddThenRemove(lists: Lists, products: Products, u: UserId, id: ProductId)
    requires Add(lists, products, u, id).Ok? && id !in Get(lists, u)
    ensures Remove(Add(lists, products, u, id).value, u, id) == Ok(lists[u := Get(lists, u)])
  {
    var l := Get(lists, u);
    var added := Add(lists, products, u, id).value;
    assert added == lists[u := l + [id]];
    PullLast(l, id);
    assert added[u := Pull(added[u], id)] == lists[u := l];
  }

  /** Taking out an id appended to a list without it gives back that list. */
  lemma {:induction false} PullLast(s: seq<ProductId>, x: ProductId)
    requires x !in s
    ensures Pull(s + [x], x) == s
  {
    if |s| == 0 {
      assert Pull([x], x) == Pull([], x);
    } else {
      assert (s + [x])[1..] == s[1..] + [x];
      PullLast(s[1..], x);
    }
  }

  /** `toggleWishlist`: a present id is removed without looking at the
      product; an absent id is added only when its product is active. */
  function Toggle(lists: Lists, products: Products, u: UserId, id: ProductId): (r: Result<(Lists, ToggleAction), WishError>)
    ensures id == "" ==> r == Err(IdRequired)
    ensures id != "" && id in Get(lists, u) ==> r == Ok((lists[u := Pull(Get(lists, u), id)], Removed))
    ensures id != "" && id !in Get(lists, u) && !Active(products, id) ==> r == Err(ProductUnavailable)
    ensures id != "" && id !in Get(lists, u) && Active(products, id) ==> r == Ok((Add(lists, products, u, id).value, Added))
  {
    if id == "" then Err(IdRequired)
    else
      var l := Get(lists, u);
      if id in l then Ok((lists[u := Pull(l, id)], Removed))
      else if !Active(products, id) then Err(ProductUnavailable)
      else Ok((lists[u := l + [id]], Added))
  }

  /** Toggling an active product twice restores the user's list, from either side. */
  lemma ToggleTwice(lists: Lists, products: Products, u: UserId, id: ProductId)
    requires id != "" && Active(products, id) && NoDuplicates(Get(lists, u))
    ensures Toggle(lists, products, u, id).Ok?
    ensures var once := Toggle(lists, products, u, id).value.0;
      && Toggle(once, products, u, id).Ok?
      && var twice := Toggle(once, products, u, id).value.0;
      && u in twice
      && (id !in Get(lists, u) ==> twice == lists[u := Get(lists, u)])
      && (forall y :: y in twice[u] <==> y in Get(lists, u))
  {
    var l := Get(lists, u);
    if id !in l {
      PullLast(l, id);
    }
  }

  /** `getWishlist`: the products that are missing or inactive are dropped,
      and the trimmed list is what gets stored and shown. */
  function KeepActive(products: Products, s: seq<ProductId>): (r: seq<ProductId>)
    ensures forall y :: y in r <==> y in s && Active(products, y)
    ensures |r| <= |s|
    ensures NoDuplicates(s) ==> NoDuplicates(r)
  {
    if |s| == 0 then []
    else
      var rest := KeepActive(products, s[1..]);
      assert forall y :: y in s[1..] ==> y in s;
      assert NoDuplicates(s) ==> NoDuplicates(rest) && s[0] !in rest by {
        if NoDuplicates(s) {
          NoDuplicatesTail(s);
        }
      }
      if Active(products, s[0]) then
        var r := [s[0]] + rest;
        assert NoDuplicates(s) ==> NoDuplicates(r) by {
          if NoDuplicates(s) {
            NoDuplicatesCons(s[0], rest);
          }
        }
        r
      else rest
  }

  function Read(lists: Lists, products: Products, u: UserId): (r: (Lists, seq<ProductId>))
    ensures r.0 == lists[u := r.1]
    ensures forall y :: y in r.1 <==> y in Get(lists, u) && Active(products, y)
  {
    var shown := KeepActive(products, Get(lists, u));
    (lists[u := shown], shown)
  }

  /** Reading twice shows and stores the same thing as reading once. */
  lemma {:induction false} KeepActiveIdempotent(products: Products, s: seq<ProductId>)
    ensures KeepActive(products, KeepActive(products, s)) == KeepActive(products, s)
  {
    if |s| > 0 {
      KeepActiveIdempotent(products, s[1..]);
      var rest := KeepActive(products, s[1..]);
      if Active(products, s[0]) {
        assert ([s[0]] + rest)[1..] == rest;
      }
    }
  }

  lemma ReadIdempotent(lists: Lists, products: Products, u: UserId)
    ensures Read(Read(lists, products, u).0, products, u) == Read(lists, products, u)
  {
    var shown := KeepActive(products, Get(lists, u));
    KeepActiveIdempotent(products, Get(lists, u));
    assert Get(lists[u := shown], u) == shown;
    assert lists[u := shown][u := shown] == lists[u := shown];
  }

  /** Every operation keeps every wishlist free of duplicates. */
  predicate AllDistinct(lists: Lists) {
    forall u :: u in lists ==> NoDuplicates(lists[u])
  }

  lemma OperationsKeepDistinct(lists: Lists, products: Products, u: UserId, id: ProductId)
    requires AllDistinct(lists)
    ensures Add(lists, products, u, id).Ok? ==> AllDistinct(Add(lists, products, u, id).value)
    ensures Remove(lists, u, id).Ok? ==> AllDistinct(Remove(lists, u, id).value)
    ensures Toggle(lists, products, u, id).Ok? ==> AllDistinct(Toggle(lists, products, u, id).value.0)
    ensures AllDistinct(Read(lists, products, u).0)
  {
    assert NoDuplicates(Get(lists, u));
  }
}

=== FILE: withdrawals.dfy ===
/**
 Withdrawal requests: created only for a user whose KYC record is approved,
 for at least 500 with a fixed fee of 50; then approved or rejected once by
 an administrator, and an approved request completed once. Every save
 recomputes the net amount and gives a request without a reference id the
 id "WD" followed by the request count plus one, padded to five digits.
 Requests are kept in insertion order and addressed by position.
 */
module Withdrawals {
  import opened Common
  import opened Text
  import Users
  import Kyc

  type UserId = string

  const MinimumAmount := 500
  const Fee := 50
  const DefaultRejectReason := "Rejected by admin"

  datatype Status = Pending | Approved | Completed | Rejected

  function StatusName(s: Status): string {
    match s
    case Pending => "pending"
    case Approved => "approved"
    case Completed => "completed"
    case Rejected => "rejected"
  }

  /** The schema's enum check on `status`. */
  function ParseStatus(s: string): (r: Option<Status>)
    ensures r.Some? ==> StatusName(r.value) == s
    ensures r.None? ==> forall t: Status :: StatusName(t) != s
  {
    if s == "pending" then Some(Pending)
    else if s == "approved" then Some(Approved)
    else if s == "completed" then Some(Completed)
    else if s == "rejected" then Some(Rejected)
    else None
  }

  lemma StatusRoundTrip(t: Status)
    ensures ParseStatus(StatusName(t)) == Some(t)
  {
  }

  /** The `kycStatus` copy kept on a request. */
  datatype KycMark = Verified | KycPending | KycRejected

  /** The payout details as sent; `kind` must be "bank" or "upi". */
  datatype PaymentMethod = PaymentMethod(
    kind: string,
    bankName: Option<string>,
    accountNumber: Option<string>,
    ifscCode: Option<string>,
    accountHolder: Option<string>,
    upiId: Option<string>)

  predicate ValidKind(kind: string) {
    kind == "bank" || kind == "upi"
  }

  /** The KYC details cached on a request. */
  datatype UserDetails = UserDetails(name: string, email: string, phone: string, address: string,
                                     panCard: string, aadharCard: string)

  function DetailsOf(k: Kyc.Record): UserDetails {
    UserDetails(k.fullName, k.email, k.phone, k.address, k.panCard, k.aadharCard)
  }

  datatype Withdrawal = Withdrawal(
    userId: UserId,
    amount: int,
    fee: int,
    netAmount: Option<int>,
    payout: PaymentMethod,
    status: Status,
    referenceId: string,
    kycStatus: KycMark,
    userDetails: UserDetails,
    approvedBy: Option<string>,
    approvedAt: Option<int>,
    completedAt: Option<int>,
    rejectedAt: Option<int>,
    rejectReason: Option<string>,
    transactionId: Option<string>,
    transactionProof: Option<string>,
    createdAt: int)

  /** `"WD" + String(n).padStart(5, "0")` */
  function RefId(n: nat): string {
    "WD" + PadStart(NatToString(n), 5, '0')
  }

  /** Padding with zeros on the left is prefixing a run of zeros. */
  lemma PadIsZeros(s: string)
    ensures PadStart(s, 5, '0') == Repeat('0', |PadStart(s, 5, '0')| - |s|) + s
  {
    if |s| >= 5 {
      assert Repeat('0', 0) == "";
    }
  }

  /** A reference id is "WD" and then digits spelling the count, at least five
      of them: the count can be read back, so the id determines it. */
  lemma RefIdShape(n: nat)
    ensures var r := RefId(n);
      && |r| >= 7 && r[..2] == "WD" && AllDigits(r[2..]) && DecimalValue(r[2..]) == n
  {
    var s := NatToString(n);
    PadIsZeros(s);
    var p := PadStart(s, 5, '0');
    LeadingZeros(|p| - |s|, s);
    assert RefId(n)[2..] == p;
  }

  lemma RefIdInjective(m: nat, n: nat)
    requires RefId(m) == RefId(n)
    ensures m == n
  {
    RefIdShape(m);
    RefIdShape(n);
  }

  /** Below 100000 the id is exactly seven characters. */
  lemma RefIdExample()
    ensures RefId(1) == "WD00001"
  {
    assert NatToString(1) == "1" by {
      var s := NatToString(1);
      assert s[0] != '0' || s == "0";
      assert DecimalValue(s) == 1;
    }
  }

  /** The save hook: a missing reference id is generated from the count of
      stored requests; the net amount is recomputed every time. */
  function SaveHook(w: Withdrawal, count: nat): (r: Withdrawal)
    ensures r.netAmount == Some(w.amount - w.fee)
    ensures w.referenceId != "" ==> r.referenceId == w.referenceId
    ensures w.referenceId == "" ==> r.referenceId == RefId(count + 1)
    ensures r == w.(referenceId := r.referenceId, netAmount := r.netAmount)
  {
    w.(referenceId := if w.referenceId == "" then RefId(count + 1) else w.referenceId,
       netAmount := Some(w.amount - w.fee))
  }

  /** Saving twice is saving once, whatever the count at the second save. */
  lemma SaveHookIdempotent(w: Withdrawal, c1: nat, c2: nat)
    ensures SaveHook(SaveHook(w, c1), c2) == SaveHook(w, c1)
  {
    RefIdShape(c1 + 1);
  }

  /** What the schema demands of a stored request. */
  predicate SchemaValid(w: Withdrawal) {
    w.userId != "" && w.amount >= MinimumAmount && w.netAmount.Some? && ValidKind(w.payout.kind)
    && w.referenceId != ""
  }

  datatype WithdrawalRequest = WithdrawalRequest(userId: UserId, amount: Option<int>, payout: Option<PaymentMethod>)

  datatype WithdrawalError =
    | UserNotFound                          // 404 User not found
    | KycNotSubmitted                       // 400, kycStatus "not_submitted"
    | KycNotApproved(kyc: Kyc.KycStatus)    // 400, kycStatus as recorded
    | BelowMinimum                          // 400 Minimum withdrawal amount is 500
    | NotFound                              // 404 Withdrawal request not found
    | AlreadyDecided(status: Status)        // 400 Withdrawal is already <status>
    | NotApproved                           // 400 Only approved withdrawals can be completed
    | Validation                            // 500: the schema refused the document

  /** The gates before anything is written: user, KYC present, KYC approved,
      amount not under the minimum. A missing amount passes this comparison. */
  function Gate(users: map<Users.UserId, Users.User>, kycs: seq<Kyc.Record>, req: WithdrawalRequest)
    : (r: Result<Kyc.Record, WithdrawalError>)
    ensures req.userId !in users ==> r == Err(UserNotFound)
    ensures r.Ok? <==> && req.userId in users && Kyc.FindByUser(kycs, req.userId).Some?
                       && kycs[Kyc.FindByUser(kycs, req.userId).value].status == Kyc.Approved
                       && !(req.amount.Some? && req.amount.value < MinimumAmount)
    ensures r.Ok? ==> r.value == kycs[Kyc.FindByUser(kycs, req.userId).value]
    ensures req.userId in users && Kyc.FindByUser(kycs, req.userId).None? ==> r == Err(KycNotSubmitted)
    ensures req.userId in users && Kyc.FindByUser(kycs, req.userId).Some?
            && kycs[Kyc.FindByUser(kycs, req.userId).value].status != Kyc.Approved
            ==> r == Err(KycNotApproved(kycs[Kyc.FindByUser(kycs, req.userId).value].status))
  {
    if req.userId !in users then Err(UserNotFound)
    else match Kyc.FindByUser(kycs, req.userId)
      case None => Err(KycNotSubmitted)
      case Some(i) =>
        if kycs[i].status != Kyc.Approved then Err(KycNotApproved(kycs[i].status))
        else if req.amount.Some? && req.amount.value < MinimumAmount then Err(BelowMinimum)
        else Ok(kycs[i])
  }

  /** The document the handler hands to the store: fee 50, pending, verified,
      the KYC details copied, and neither a net amount nor a reference id. */
  function Draft(req: WithdrawalRequest, k: Kyc.Record, now: int): Withdrawal
    requires req.amount.Some? && req.payout.Some?
  {
    Withdrawal(req.userId, req.amount.value, Fee, None, req.payout.value, Pending, "", Verified, DetailsOf(k),
               None, None, None, None, None, None, None, now)
  }

  /** `Withdrawal.create` as the store runs it: the schema is checked first,
      and only a document that passes goes through the save hook. */
  function InsertAsWritten(store: seq<Withdrawal>, w: Withdrawal): (r: Result<seq<Withdrawal>, WithdrawalError>)
    ensures r.Ok? <==> SchemaValid(w)
    ensures r.Ok? ==> r.value == store + [SaveHook(w, |store|)]
  {
    if !SchemaValid(w) then Err(Validation) else Ok(store + [SaveHook(w, |store|)])
  }

  /** `createWithdrawalRequest` as written: the draft has neither of the two
      required fields the hook fills in, so the store refuses it. */
  function CreateAsWritten(users: map<Users.UserId, Users.User>, kycs: seq<Kyc.Record>, store: seq<Withdrawal>,
                           req: WithdrawalRequest, now: int): (r: Result<seq<Withdrawal>, WithdrawalError>)
    ensures Gate(users, kycs, req).Err? ==> r == Err(Gate(users, kycs, req).error)
  {
    var k :- Gate(users, kycs, req);
    if req.amount.None? || req.payout.None? then Err(Validation)
    else InsertAsWritten(store, Draft(req, k, now))
  }

  /** Every request that passes the gates fails at the store. */
  lemma CreateAsWrittenAlwaysFails(users: map<Users.UserId, Users.User>, kycs: seq<Kyc.Record>,
                                   store: seq<Withdrawal>, req: WithdrawalRequest, now: int)
    requires Gate(users, kycs, req).Ok?
    ensures CreateAsWritten(users, kycs, store, req, now) == Err(Validation)
  {
  }

  /** `Withdrawal.create` with the hook run before the schema check, and the
      unique index on the reference id enforced. */
  function Insert(store: seq<Withdrawal>, w: Withdrawal): (r: Result<seq<Withdrawal>, WithdrawalError>)
    ensures var h := SaveHook(w, |store|);
      r.Ok? <==> SchemaValid(h) && forall j :: 0 <= j < |store| ==> store[j].referenceId != h.referenceId
    ensures r.Ok? ==> r.value == store + [SaveHook(w, |store|)]
  {
    var h := SaveHook(w, |store|);
    if !SchemaValid(h) then Err(Validation)
    else if exists j :: 0 <= j < |store| && store[j].referenceId == h.referenceId then Err(Validation)
    else Ok(store + [h])
  }

  /** `createWithdrawalRequest` with the hook's fields filled in before the
      schema is checked: after the gates, a request with an amount and a
      payout kind of "bank" or "upi" is stored pending and verified, with fee
      50, net amount amount - 50, the KYC details, and the next reference id,
      unless that id is already taken. */
  function Create(users: map<Users.UserId, Users.User>, kycs: seq<Kyc.Record>, store: seq<Withdrawal>,
                  req: WithdrawalRequest, now: int): (r: Result<seq<Withdrawal>, WithdrawalError>)
    ensures Gate(users, kycs, req).Err? ==> r == Err(Gate(users, kycs, req).error)
    ensures r.Ok? <==> && Gate(users, kycs, req).Ok? && req.userId != ""
                       && req.amount.Some? && req.payout.Some? && ValidKind(req.payout.value.kind)
                       && forall j :: 0 <= j < |store| ==> store[j].referenceId != RefId(|store| + 1)
    ensures r.Ok? ==> && |r.value| == |store| + 1 && r.value[..|store|] == store
                      && var w := r.value[|store|];
                      && w.userId == req.userId && w.amount == req.amount.value >= MinimumAmount
                      && w.fee == Fee && w.netAmount == Some(w.amount - Fee)
                      && w.status == Pending && w.kycStatus == Verified
                      && w.userDetails == DetailsOf(kycs[Kyc.FindByUser(kycs, req.userId).value])
                      && w.referenceId == RefId(|store| + 1)
                      && w.approvedAt.None? && w.completedAt.None? && w.rejectedAt.None? && w.rejectReason.None?
                      && SchemaValid(w)
  {
    var k :- Gate(users, kycs, req);
    if req.amount.None? || req.payout.None? then Err(Validation)
    else Insert(store, Draft(req, k, now))
  }

  /** The position of a request whose reference id records it: the request at
      position i carries the id of count i + 1. */
  predicate RefsAreCounts(store: seq<Withdrawal>) {
    forall i :: 0 <= i < |store| ==> store[i].referenceId == RefId(i + 1)
  }

  /** On a store built by creation alone the next id is never taken, so the
      ids stay distinct. */
  lemma CreateKeepsRefs(users: map<Users.UserId, Users.User>, kycs: seq<Kyc.Record>, store: seq<Withdrawal>,
                        req: WithdrawalRequest, now: int)
    requires RefsAreCounts(store)
    ensures forall j :: 0 <= j < |store| ==> store[j].referenceId != RefId(|store| + 1)
    ensures Create(users, kycs, store, req, now).Ok? ==> RefsAreCounts(Create(users, kycs, store, req, now).value)
  {
    NextRefFree(store);
    var r := Create(users, kycs, store, req, now);
    if r.Ok? {
      var s := r.value;
      assert s == store + [s[|store|]];
      AppendKeepsRefs(store, s[|store|]);
    }
  }

  /** Distinct counts give distinct ids. */
  lemma RefIdIsInjective()
    ensures forall m: nat, n: nat :: RefId(m) == RefId(n) ==> m == n
  {
    forall m: nat, n: nat | RefId(m) == RefId(n)
      ensures m == n
    {
      RefIdInjective(m, n);
    }
  }

  /** Under an injective naming no position already holds the next count's id. */
  lemma NextCountFree(store: seq<Withdrawal>, name: nat -> string)
    requires forall m: nat, n: nat :: name(m) == name(n) ==> m == n
    requires forall i :: 0 <= i < |store| ==> store[i].referenceId == name(i + 1)
    ensures forall j :: 0 <= j < |store| ==> store[j].referenceId != name(|store| + 1)
  {
    forall j | 0 <= j < |store|
      ensures store[j].referenceId != name(|store| + 1)
    {
      assert store[j].referenceId == name(j + 1);
    }
  }

  lemma NextRefFree(store: seq<Withdrawal>)
    requires RefsAreCounts(store)
    ensures forall j :: 0 <= j < |store| ==> store[j].referenceId != RefId(|store| + 1)
  {
    RefIdIsInjective();
    NextCountFree(store, RefId);
  }

  /** Appending the request that carries the next count keeps every
      position's id the one its count gives, for any naming of counts. */
  lemma AppendKeepsCounts(store: seq<Withdrawal>, w: Withdrawal, name: nat -> string)
    requires forall i :: 0 <= i < |store| ==> store[i].referenceId == name(i + 1)
    requires w.referenceId == name(|store| + 1)
    ensures forall i :: 0 <= i < |store| + 1 ==> (store + [w])[i].referenceId == name(i + 1)
  {
    var s := store + [w];
    forall i | 0 <= i < |s|
      ensures s[i].referenceId == name(i + 1)
    {
      if i < |store| {
        assert s[i] == store[i];
      }
    }
  }

  lemma AppendKeepsRefs(store: seq<Withdrawal>, w: Withdrawal)
    requires RefsAreCounts(store) && w.referenceId == RefId(|store| + 1)
    ensures RefsAreCounts(store + [w])
  {
    AppendKeepsCounts(store, w, RefId);
  }

  /** Under an injective naming, ids that record positions are distinct. */
  lemma CountsDistinct(store: seq<Withdrawal>, name: nat -> string)
    requires forall m: nat, n: nat :: name(m) == name(n) ==> m == n
    requires forall i :: 0 <= i < |store| ==> store[i].referenceId == name(i + 1)
    ensures forall i, j :: 0 <= i < j < |store| ==> store[i].referenceId != store[j].referenceId
  {
    forall i, j | 0 <= i < j < |store|
      ensures store[i].referenceId != store[j].referenceId
    {
      assert store[i].referenceId == name(i + 1) && store[j].referenceId == name(j + 1);
    }
  }

  lemma RefsDistinct(store: seq<Withdrawal>)
    requires RefsAreCounts(store)
    ensures forall i, j :: 0 <= i < j < |store| ==> store[i].referenceId != store[j].referenceId
  {
    RefIdIsInjective();
    CountsDistinct(store, RefId);
  }


  /** `approveWithdrawal`: only a pending request is approved, stamped with
      the administrator and the time, and saved. */
  function Approve(store: seq<Withdrawal>, id: nat, admin: Option<string>, now: int)
    : (r: Result<seq<Withdrawal>, WithdrawalError>)
    ensures id >= |store| ==> r == Err(NotFound)
    ensures id < |store| && store[id].status != Pending ==> r == Err(AlreadyDecided(store[id].status))
    ensures r.Ok? <==> id < |store| && store[id].status == Pending
    ensures r.Ok? ==> && |r.value| == |store|
                      && r.value[id] == SaveHook(store[id].(status := Approved, approvedBy := admin,
                                                            approvedAt := Some(now)), |store|)
                      && forall j :: 0 <= j < |store| && j != id ==> r.value[j] == store[j]
  {
    if id >= |store| then Err(NotFound)
    else if store[id].status != Pending then Err(AlreadyDecided(store[id].status))
    else Ok(store[id := SaveHook(store[id].(status := Approved, approvedBy := admin, approvedAt := Some(now)), |store|)])
  }

  /** `rejectWithdrawal`: only a pending request is rejected; the reason
      defaults to "Rejected by admin", and the administrator is recorded in
      the same field approval uses. */
  function Reject(store: seq<Withdrawal>, id: nat, admin: Option<string>, reason: Option<string>, now: int)
    : (r: Result<seq<Withdrawal>, WithdrawalError>)
    ensures id >= |store| ==> r == Err(NotFound)
    ensures id < |store| && store[id].status != Pending ==> r == Err(AlreadyDecided(store[id].status))
    ensures r.Ok? <==> id < |store| && store[id].status == Pending
    ensures r.Ok? ==> && |r.value| == |store|
                      && r.value[id].status == Rejected && r.value[id].rejectedAt == Some(now)
                      && r.value[id].approvedBy == admin
                      && r.value[id].rejectReason == Some(if Truthy(reason) then reason.value else DefaultRejectReason)
                      && Truthy(r.value[id].rejectReason)
                      && forall j :: 0 <= j < |store| && j != id ==> r.value[j] == store[j]
  {
    if id >= |store| then Err(NotFound)
    else if store[id].status != Pending then Err(AlreadyDecided(store[id].status))
    else
      var why := if Truthy(reason) then reason.value else DefaultRejectReason;
      Ok(store[id := SaveHook(store[id].(status := Rejected, approvedBy := admin, rejectedAt := Some(now),
                                         rejectReason := Some(why)), |store|)])
  }

  /** `completeWithdrawal`: only an approved request is completed, with the
      transaction details as sent. */
  function Complete(store: seq<Withdrawal>, id: nat, txId: Option<string>, proof: Option<string>, now: int)
    : (r: Result<seq<Withdrawal>, WithdrawalError>)
    ensures id >= |store| ==> r == Err(NotFound)
    ensures r.Ok? <==> id < |store| && store[id].status == Approved
    ensures id < |store| && store[id].status != Approved ==> r == Err(NotApproved)
    ensures r.Ok? ==> && |r.value| == |store|
                      && r.value[id] == SaveHook(store[id].(status := Completed, completedAt := Some(now),
                                                            transactionId := txId, transactionProof := proof), |store|)
                      && forall j :: 0 <= j < |store| && j != id ==> r.value[j] == store[j]
  {
    if id >= |store| then Err(NotFound)
    else if store[id].status != Approved then Err(NotApproved)
    else Ok(store[id := SaveHook(store[id].(status := Completed, completedAt := Some(now), transactionId := txId,
                                            transactionProof := proof), |store|)])
  }

  /** The lifecycle the three actions allow. */
  predicate Allowed(from: Status, to: Status) {
    (from == Pending && (to == Approved || to == Rejected)) || (from == Approved && to == Completed)
  }

  datatype Action = ApproveIt(admin: Option<string>) | RejectIt(admin: Option<string>, reason: Option<string>)
                  | CompleteIt(txId: Option<string>, proof: Option<string>)

  function Apply(store: seq<Withdrawal>, id: nat, a: Action, now: int): Result<seq<Withdrawal>, WithdrawalError> {
    match a
    case ApproveIt(admin) => Approve(store, id, admin, now)
    case RejectIt(admin, reason) => Reject(store, id, admin, reason, now)
    case CompleteIt(txId, proof) => Complete(store, id, txId, proof, now)
  }

  /** Every successful action moves one request along the lifecycle, keeps
      its amount, fee, net amount and reference id, and touches nothing else. */
  lemma ActionsFollowLifecycle(store: seq<Withdrawal>, id: nat, a: Action, now: int)
    requires forall j :: 0 <= j < |store| ==> SchemaValid(store[j]) && store[j].netAmount == Some(store[j].amount - store[j].fee)
    requires Apply(store, id, a, now).Ok?
    ensures var s := Apply(store, id, a, now).value;
      && |s| == |store| && id < |store|
      && Allowed(store[id].status, s[id].status)
      && s[id].amount == store[id].amount && s[id].fee == store[id].fee
      && s[id].netAmount == store[id].netAmount && s[id].referenceId == store[id].referenceId
      && SchemaValid(s[id])
      && forall j :: 0 <= j < |store| && j != id ==> s[j] == store[j]
  {
  }

  /** Completed and rejected are final: no action succeeds on them. */
  lemma TerminalStates(store: seq<Withdrawal>, id: nat, a: Action, now: int)
    requires id < |store| && (store[id].status == Completed || store[id].status == Rejected)
    ensures Apply(store, id, a, now).Err?
  {
  }

  /** `slice(-4)`: the last four characters, or all of a shorter string. */
  function LastFour(s: string): (r: string)
    ensures |r| == Min(4, |s|) && r == s[|s| - |r|..]
  {
    if |s| >= 4 then s[|s| - 4..] else s
  }

  /** The masked account number the user listing shows. */
  function Mask(account: string): (r: string)
    ensures 4 <= |r| <= 8 && r[..4] == "****" && r[4..] == LastFour(account)
  {
    "****" + LastFour(account)
  }

  /** Two account numbers look the same masked exactly when their last four
      characters agree: nothing else of the number is shown. */
  lemma MaskRevealsOnlyLastFour(a: string, b: string)
    ensures Mask(a) == Mask(b) <==> LastFour(a) == LastFour(b)
  {
    if Mask(a) == Mask(b) {
      assert Mask(a)[4..] == Mask(b)[4..];
    }
  }

  /** The account details of the user listing (`****` and the last four, or
      the UPI id) and of the administrator's views ("Account: " or "UPI: "
      in front; a missing UPI id prints as "undefined"). A bank request
      without an account number fails the listing. */
  function UserAccountDetails(m: PaymentMethod): (r: Result<Option<string>, WithdrawalError>)
    ensures m.kind == "bank" ==> (r.Ok? <==> m.accountNumber.Some?)
    ensures m.kind == "bank" && r.Ok? ==> r.value == Some(Mask(m.accountNumber.value))
    ensures m.kind != "bank" ==> r == Ok(m.upiId)
  {
    if m.kind == "bank" then
      if m.accountNumber.None? then Err(Validation) else Ok(Some(Mask(m.accountNumber.value)))
    else Ok(m.upiId)
  }

  function AdminAccountDetails(m: PaymentMethod): (r: Result<string, WithdrawalError>)
    ensures m.kind == "bank" ==> (r.Ok? <==> m.accountNumber.Some?)
    ensures r.Ok? && m.kind == "bank" ==> r.value == "Account: " + Mask(m.accountNumber.value)
    ensures m.kind != "bank" ==> r == Ok("UPI: " + m.upiId.GetOr("undefined"))
  {
    if m.kind == "bank" then
      if m.accountNumber.None? then Err(Validation) else Ok("Account: " + Mask(m.accountNumber.value))
    else Ok("UPI: " + m.upiId.GetOr("undefined"))
  }

  /** The administrator's view is the user's with a prefix. */
  lemma AdminViewPrefixesUserView(m: PaymentMethod)
    ensures UserAccountDetails(m).Ok? <==> AdminAccountDetails(m).Ok?
    ensures m.kind == "bank" && UserAccountDetails(m).Ok? ==>
      AdminAccountDetails(m).value == "Account: " + UserAccountDetails(m).value.value
    ensures m.kind != "bank" && m.upiId.Some? ==>
      AdminAccountDetails(m).value == "UPI: " + UserAccountDetails(m).value.value
  {
  }

  /** The method label: the bank's name for a bank payout, "UPI" otherwise. */
  function MethodLabel(m: PaymentMethod): (r: Option<string>)
    ensures m.kind == "bank" ==> r == m.bankName
    ensures m.kind != "bank" ==> r == Some("UPI")
  {
    if m.kind == "bank" then m.bankName else Some("UPI")
  }

  /** The administrator's listing filter: verified requests, of one status
      unless the status is missing, empty or "all". */
  predicate Listed(w: Withdrawal, status: Option<string>) {
    w.kycStatus == Verified && (!Truthy(status) || status.value == "all" || StatusName(w.status) == status.value)
  }

  /** The number of verified requests in a status, and their total amount. */
  function CountVerified(store: seq<Withdrawal>, s: Option<Status>): (r: nat)
    ensures r <= |store|
  {
    if |store| == 0 then 0
    else (if store[0].kycStatus == Verified && (s.None? || store[0].status == s.value) then 1 else 0)
         + CountVerified(store[1..], s)
  }

  function VerifiedAmount(store: seq<Withdrawal>): int {
    if |store| == 0 then 0
    else (if store[0].kycStatus == Verified then store[0].amount else 0) + VerifiedAmount(store[1..])
  }

  datatype Stats = Stats(total: nat, pending: nat, approved: nat, completed: nat, rejected: nat, totalAmount: int)

  /** `getWithdrawalStats`. */
  function GetStats(store: seq<Withdrawal>): (r: Stats)
    ensures r.total == r.pending + r.approved + r.completed + r.rejected
    ensures r.total <= |store|
  {
    StatsPartition(store);
    Stats(CountVerified(store, None), CountVerified(store, Some(Pending)), CountVerified(store, Some(Approved)),
          CountVerified(store, Some(Completed)), CountVerified(store, Some(Rejected)), VerifiedAmount(store))
  }

  lemma {:induction false} StatsPartition(store: seq<Withdrawal>)
    ensures CountVerified(store, None) == CountVerified(store, Some(Pending)) + CountVerified(store, Some(Approved))
                                          + CountVerified(store, Some(Completed)) + CountVerified(store, Some(Rejected))
  {
    if |store| > 0 {
      StatsPartition(store[1..]);
    }
  }

  /** Every request is created verified and no action changes that, so on
      such a store the statistics count every request and the total amount
      is at least 500 for each. */
  lemma {:induction false} StatsCountAll(store: seq<Withdrawal>)
    requires forall j :: 0 <= j < |store| ==> store[j].kycStatus == Verified && store[j].amount >= MinimumAmount
    ensures GetStats(store).total == |store|
    ensures GetStats(store).totalAmount >= MinimumAmount * |store|
  {
    if |store| > 0 {
      StatsCountAll(store[1..]);
    }
  }
}
